=== FILE: README.md ===
# GO Painter, modelled in Dafny

GO Painter is a Unity editor tool for painting game objects into a scene.
The user picks a paint object and a canvas plane along the X, Y or Z axis.
They then lay copies of the object down in one of four ways:

- one at a time (Freehand);
- evenly spaced along a dragged line (Line);
- on the border or the whole area of a dragged rectangle (Rect);
- around a dragged ellipse (Circle).

Every stroke or layout is recorded as one undo entry. Ctrl+Z pops the top
entry and undoes it.

This project models the core of the tool as pure Dafny functions and
methods over an explicit scene, and proves what each operation promises.

- `Scene` is the scene: a map from object ids to the few fields the painter
  reads and writes (active flag, position, rotation, name). An object is
  "null" exactly when its id is not in the map.
- `ObjectFactory` is the product list every layout tool reuses from one drag
  frame to the next. It covers producing, updating in place, deactivating,
  releasing and destroying products, and product naming.
- `LineFactory`, `RectFactory` and `CircleFactory` turn the drag points and
  settings into product positions and directions, and hand them to
  `MassProduceOrUpdate`.
- `PaintAction` is an undo entry: what it captures and what undoing it does.
- `GOPainter` covers the scene-event handler: the keys, the scroll wheel,
  the mouse-up rules, scale mode, the undo history and the invariant the
  handler keeps. `PainterControls` holds the clamps and cycles it uses.
- `Extensions` models grid snapping. `GridTransform` models the per-object
  grid component. `GOSwitcher` models the prefab switcher. `ObjectGroups`
  models grouping painted objects by name, and the cleanup of groups.

Unity's engine calls are replaced by explicit parameters:

- raycast and collision results are event or function arguments;
- `Random.Range` is a `roll` argument;
- `Vector3.magnitude` is a `magnitude` argument;
- the ellipse point formula is a `pointOn` argument;
- the factory's average product dimension is an argument;
- `Quaternion.LookRotation` is the symbolic rotation `LookAt`.

Coordinates are exact reals, not floats. Rounding follows Unity:

- `Mathf.RoundToInt` rounds halfway values to the even integer;
- a C# `(int)` cast truncates toward zero;
- C# integer `/` truncates toward zero (`Mathf.CsDiv`), and `%` keeps the
  dividend's sign (`Mathf.CsMod`).

Two facts about the source shape the model:

- The snapping code divides by the grid cell size without a guard. A flat
  holding object gives the fitted grid a zero cell. The quotient is then
  infinite or NaN, and whatever integer the rounding makes of it, times the
  zero cell it is 0. The model snaps a zero-cell component to 0.
- A line of length 10 with padding 1 and unit objects places 11 products,
  because `0.0001` is added to the length before rounding the count up
  (`LineFactory.TenUnitLineHasElevenProducts`).

## Model

| member | source | states |
|---|---|---|
| Mathf.Abs | Assets/Plugins/Krearthur/Utils/Factory/CircleFactory.cs:125 | the result is non-negative and is either the input or its negation |
| Mathf.Max | Assets/Krearthur/GOPainter/Scripts/GOPainter.cs:1788 | the result is at least both arguments and equals one of them |
| Mathf.Min | Assets/Krearthur/GOPainter/Scripts/GOPainter.cs:1789 | the result is at most both arguments and equals one of them |
| Mathf.CeilToInt | Assets/Krearthur/Utils/Factory/LineFactory.cs:100 | the least integer not below the input |
| Mathf.Truncate | Assets/Plugins/Krearthur/Utils/Extensions.cs:57-60 | the `(int)` cast: magnitude at most the input's and within one of it, with the input's sign |
| Mathf.RoundToInt | Assets/Plugins/Krearthur/Utils/Extensions.cs:49-52 | within one half of the input; at exactly one half, the even integer |
| Mathf.RoundToIntOfInt | Assets/Plugins/Krearthur/Utils/Extensions.cs:49-52 | rounding leaves an integer unchanged |
| Mathf.CsDiv | Assets/Krearthur/GOPainter/Scripts/GOPainter.cs:1856 | C# integer division by a positive divisor: the remainder has the dividend's sign and is smaller than the divisor |
| Mathf.CsMod | Assets/Krearthur/GOPainter/Scripts/GOSwitcher.cs:98 | C# `%` by a positive divisor: the remainder of the truncating division, with the dividend's sign, and zero exactly when the Euclidean remainder is |
| Mathf.CsDivNegate | Assets/Krearthur/GOPainter/Scripts/GOPainter.cs:1858 | `-size / 2` equals `-(size / 2)` under truncating division |
| Mathf.FloatModOne | Assets/Krearthur/Utils/Factory/LineFactory.cs:108 | the float `% 1`: the fractional part with the dividend's sign, so the input minus the result is integral |
| Strings.DropPrefix | Assets/Plugins/Krearthur/Utils/Factory/ObjectFactory.cs:116-119 | with the prefix present, the input is the prefix followed by the result; otherwise the input is unchanged |
| Strings.DropSuffix | Assets/Plugins/Krearthur/Utils/Factory/ObjectFactory.cs:120-123 | with the suffix present, the input is the result followed by the suffix; otherwise the input is unchanged |
| Strings.NatToString | Assets/Plugins/Krearthur/Utils/Factory/ObjectFactory.cs:126-127 | a non-empty string of decimal digits |
| Strings.NatToStringValue | Assets/Plugins/Krearthur/Utils/Factory/ObjectFactory.cs:126-127 | reading the digits back, most significant first, gives the number again |
| Strings.NatToStringInjective | Assets/Plugins/Krearthur/Utils/Factory/ObjectFactory.cs:126-127 | different numbers are written as different strings, so appended indices tell products apart |
| Strings.IntToString | Assets/Plugins/Krearthur/Utils/Factory/ObjectFactory.cs:126-127 | non-empty; a non-negative value is written as digits that read back as the value; a negative one as a minus sign followed by the digits of its magnitude |
| Scene.Instantiate | Assets/Plugins/Krearthur/Utils/Factory/ObjectFactory.cs:87-94 | the new object gets an id that was not alive before and is not below `nextId`, so it differs from every id handed out earlier; nothing else in the scene changes |
| Scene.Destroy | Assets/Plugins/Krearthur/Utils/Factory/ObjectFactory.cs:310-330 | `DestroyImmediate`: exactly that id leaves the scene, and every other object is unchanged |
| Scene.Put | Assets/Plugins/Krearthur/Utils/Factory/ObjectFactory.cs:159-160 | overwriting a live object keeps the set of ids and changes only that entry |
| Scene.SetActiveAll | Assets/Plugins/Krearthur/Utils/Factory/ObjectFactory.cs:332-341 | every live listed object takes the flag, and no other object changes; no object appears or disappears |
| Scene.DestroyAllOf | Assets/Krearthur/GOPainter/Scripts/PaintAction.cs:57-66 | every listed object is gone, every unlisted one is kept unchanged, and no object appears |
| Canvas.Compose | Assets/Krearthur/Utils/Factory/RectFactory.cs:166-183 | builds a vector from its width, height and depth coordinates on a canvas axis |
| Canvas.ComposeCoordinates | Assets/Krearthur/Utils/Factory/RectFactory.cs:166-183 | splitting a vector into its canvas coordinates and composing them gives it back |
| Canvas.CoordinatesDetermineVector | Assets/Krearthur/Utils/Factory/RectFactory.cs:81-108 | two vectors with equal width, height and depth on an axis are equal |
| Canvas.CoordinatesOfDifference | Assets/Krearthur/Utils/Factory/RectFactory.cs:81-108 | canvas coordinates are linear: each coordinate of a difference is the difference of the coordinates |
| Extensions.SnapAxis | Assets/Plugins/Krearthur/Utils/Extensions.cs:49-52 | one snapped component is a multiple of the cell size; for a positive cell it is within half a cell of the input, and for a zero cell it is 0 |
| Extensions.GridPos | Assets/Plugins/Krearthur/Utils/Extensions.cs:47-55 | every component is a multiple of its cell size; for a positive cell it is within half a cell of the input, and for a zero cell it is 0 |
| Extensions.GridPosV | Assets/Plugins/Krearthur/Utils/Extensions.cs:42-45 | the vector-cell overload snaps each component by its own cell size, a zero cell included |
| Extensions.GridPosDefaultRounds | Assets/Plugins/Krearthur/Utils/Extensions.cs:47-52 | with the default cells of 1, every component is rounded to an integer |
| Extensions.SnapAxisIdempotent | Assets/Plugins/Krearthur/Utils/Extensions.cs:49-52 | a component already on the grid stays where it is |
| Extensions.GridPosIdempotent | Assets/Plugins/Krearthur/Utils/Extensions.cs:42-45 | snapping twice is snapping once |
| Extensions.SnapAxisHalfwayEven | Assets/Plugins/Krearthur/Utils/Extensions.cs:49-52 | a component exactly halfway between grid lines goes to an even multiple of the cell size |
| Extensions.GridPosScalar | Assets/Plugins/Krearthur/Utils/Extensions.cs:57-60 | the scalar overload truncates toward zero: the result is on the grid, has the input's sign, is no larger in magnitude than the input and, for a non-zero cell, less than one cell short of it; a zero cell gives 0 |
| Extensions.GridPosScalarKeepsGridLines | Assets/Plugins/Krearthur/Utils/Extensions.cs:57-60 | a value already on a grid line is left where it is |
| Extensions.GridPosScalarIdempotent | Assets/Plugins/Krearthur/Utils/Extensions.cs:57-60 | truncating onto the grid twice gives the same value as once |
| Extensions.IntPos | Assets/Plugins/Krearthur/Utils/Extensions.cs:62-65 | every component is integral, has the input component's sign, is no larger in magnitude than it and within one of it, that is, the `(int)` cast |
| Extensions.IntPosKeepsIntegral | Assets/Plugins/Krearthur/Utils/Extensions.cs:62-65 | a position with whole-number components is left unchanged |
| Extensions.IntPosIdempotent | Assets/Plugins/Krearthur/Utils/Extensions.cs:62-65 | casting twice gives the same position as once |
| GridTransform.Added | Assets/Plugins/Krearthur/GOPainter/Scripts/GridTransform.cs:10-16 | a new component has offset (-0.5, 0, -0.5) and one cell per axis |
| GridTransform.Position | Assets/Plugins/Krearthur/GOPainter/Scripts/GridTransform.cs:18 | the anchor minus the offset is the transform position |
| GridTransform.SetPosition | Assets/Plugins/Krearthur/GOPainter/Scripts/GridTransform.cs:18 | after the set, the transform plus the offset is the value set; nothing but the transform changes |
| GridTransform.PositionRoundTrip | Assets/Plugins/Krearthur/GOPainter/Scripts/GridTransform.cs:18 | reading `Position` after setting it gives the value set, with offset and sizes kept |
| GridTransform.SetPositionToItself | Assets/Plugins/Krearthur/GOPainter/Scripts/GridTransform.cs:18 | setting `Position` to its own value changes nothing |
| GridTransform.SetOffset | Assets/Plugins/Krearthur/GOPainter/Scripts/GridTransform.cs:20 | the transform stays, so the anchor moves by exactly the change of offset |
| GridTransform.SetSizeX | Assets/Plugins/Krearthur/GOPainter/Scripts/GridTransform.cs:22 | the x cell count becomes the value set, and nothing else changes |
| GridTransform.SetSizeY | Assets/Plugins/Krearthur/GOPainter/Scripts/GridTransform.cs:23 | the y cell count becomes the value set, and nothing else changes |
| GridTransform.SetSizeZ | Assets/Plugins/Krearthur/GOPainter/Scripts/GridTransform.cs:24 | the z cell count becomes the value set, and nothing else changes |
| GridTransform.SizesAreNotClamped | Assets/Plugins/Krearthur/GOPainter/Scripts/GridTransform.cs:22-24 | sizes outside the inspector's 0..10 range survive the setters, and a size change leaves the anchor in place |
| PainterControls.CanvasAxisCycle | Assets/Krearthur/GOPainter/Scripts/GOPainter.cs:1405-1433 | three presses of Space bring the canvas axis back |
| PainterControls.WithComponent | Assets/Krearthur/GOPainter/Scripts/GOPainter.cs:1850-1897 | the component along the axis is replaced, and the other two are kept |
| PainterControls.AlignOfOrdinal | Assets/Krearthur/GOPainter/Scripts/GOPainter.cs:1326-1338 | the cast back from the enum value is the inverse of taking the value |
| PainterControls.AlignOrdinalInjective | Assets/Krearthur/GOPainter/Scripts/GOPainter.cs:1326-1338 | distinct align axes have distinct enum values |
| PainterControls.NextCanvasAxis | Assets/Krearthur/GOPainter/Scripts/GOPainter.cs:1405-1433 | Space always changes the canvas axis |
| PainterControls.NextAlignAxis | Assets/Krearthur/GOPainter/Scripts/GOPainter.cs:1326-1338 | key X moves the align axis one enum value up, and NegativeZ wraps to PositiveX |
| PainterControls.AlignPressesOrdinal | Assets/Krearthur/GOPainter/Scripts/GOPainter.cs:1326-1338 | after `k` presses of X, the enum value has advanced by `k` modulo six |
| PainterControls.AlignAxisCycle | Assets/Krearthur/GOPainter/Scripts/GOPainter.cs:1326-1338 | `k` presses give the starting axis back if and only if six divides `k` |
| PainterControls.NextAlignment | Assets/Krearthur/GOPainter/Scripts/GOPainter.cs:1291-1323 | key A always changes the alignment |
| PainterControls.ToggleAlignment | Assets/Krearthur/GOPainter/Scripts/GOPainter.cs:1291-1323 | key A advances none → stroke → surface → none, and never sets both flags |
| PainterControls.AlignmentCycle | Assets/Krearthur/GOPainter/Scripts/GOPainter.cs:1291-1323 | three presses of A give the same alignment back, and the same flags once they are exclusive |
| PainterControls.ScrollSign | Assets/Krearthur/GOPainter/Scripts/GOPainter.cs:1751 | +1 for a negative delta, and -1 otherwise |
| PainterControls.ScrollBrush | Assets/Krearthur/GOPainter/Scripts/GOPainter.cs:1786-1789 | the brush radius moves one step in the scroll direction and stays in [0, 100] |
| PainterControls.BrushScrollUpDown | Assets/Krearthur/GOPainter/Scripts/GOPainter.cs:1786-1789 | inside the range, a notch up and a notch down cancel, and a whole radius stays whole |
| PainterControls.ScrollPadding | Assets/Krearthur/GOPainter/Scripts/GOPainter.cs:1798-1807 | the padding moves by one cell (snapping) or by the minimum padding; below the minimum it resets to 1 or the minimum, and it is capped at 10 |
| PainterControls.PaddingScrollUpDown | Assets/Krearthur/GOPainter/Scripts/GOPainter.cs:1804-1807 | without snapping, inside the range, a notch down undoes a notch up |
| PainterControls.SnappedPaddingFloor | Assets/Krearthur/GOPainter/Scripts/GOPainter.cs:1806 | with snapping on a unit grid, scrolling down from 1 stays at 1 |
| PainterControls.ScrollDegrees | Assets/Krearthur/GOPainter/Scripts/GOPainter.cs:1838-1841 | the sweep moves 10 degrees in the scroll direction and stays in [0, 360] |
| PainterControls.DegreesStayOnSteps | Assets/Krearthur/GOPainter/Scripts/GOPainter.cs:1838-1841 | a sweep on a 10-degree step stays on one |
| PainterControls.DegreesScrollUpDown | Assets/Krearthur/GOPainter/Scripts/GOPainter.cs:1838-1841 | strictly inside the range, a notch down undoes a notch up |
| PainterControls.ShiftCanvas | Assets/Krearthur/GOPainter/Scripts/GOPainter.cs:1850-1897 | the canvas moves one cell up or down with the source's guards and clamps, and with the Y-axis below-zero stop |
| PainterControls.ShiftCanvasStaysInside | Assets/Krearthur/GOPainter/Scripts/GOPainter.cs:1850-1897 | a position inside `[-size/2, size/2)` stays inside after any shift |
| PainterControls.ShiftCanvasUpDown | Assets/Krearthur/GOPainter/Scripts/GOPainter.cs:1850-1864 | away from the edges, a notch up and a notch down cancel |
| PainterControls.UpStepAboveHalfMovesDown | Assets/Krearthur/GOPainter/Scripts/GOPainter.cs:1852-1856 | the up-guard is `size - 1` but the clamp is `size/2 - 1`, so a position between them moves down when scrolled up |
| ObjectFactory.Count | Assets/Plugins/Krearthur/Utils/Factory/ObjectFactory.cs:438-441 | the length of the product list, and zero for a null list |
| ObjectFactory.GetAt | Assets/Plugins/Krearthur/Utils/Factory/ObjectFactory.cs:291-297 | the product at an index inside the list, and null outside it or for a null list |
| ObjectFactory.CalcPos | Assets/Plugins/Krearthur/Utils/Factory/ObjectFactory.cs:140-148 | the position moved by the offset, and also by the factory's position when relative |
| ObjectFactory.CalcPosKeepsShape | Assets/Plugins/Krearthur/Utils/Factory/ObjectFactory.cs:140-148 | `CalcPos` keeps the differences between positions, so a layout keeps its shape |
| ObjectFactory.Appendix | Assets/Plugins/Krearthur/Utils/Factory/ObjectFactory.cs:125-127 | "_charge" and then "_index", each present exactly when its flag is set |
| ObjectFactory.ProductName | Assets/Plugins/Krearthur/Utils/Factory/ObjectFactory.cs:115-129 | a picked prefix is cut, then a trailing "(Clone)", then the appendix is added |
| ObjectFactory.CreateFromTemplate | Assets/Plugins/Krearthur/Utils/Factory/ObjectFactory.cs:82-138 | exactly one new object, at `CalcPos`, named after the current count, with the template's rotation unless the extra Euler angles override it |
| ObjectFactory.Produce | Assets/Plugins/Krearthur/Utils/Factory/ObjectFactory.cs:69-80 | exactly one new product is appended, the list is created first if it was null, and nothing else changes |
| ObjectFactory.ProduceOrUpdate | Assets/Plugins/Krearthur/Utils/Factory/ObjectFactory.cs:150-164 | a live first product is moved to `CalcPos` and activated; otherwise one is produced |
| ObjectFactory.Place | Assets/Plugins/Krearthur/Utils/Factory/ObjectFactory.cs:182-228 | one list position: a reused product is moved and activated, a new one is a fresh copy; either is turned toward its direction |
| ObjectFactory.PlaceIgnoresProducts | Assets/Plugins/Krearthur/Utils/Factory/ObjectFactory.cs:182-228 | a placement depends only on the factory's settings, not on its product list |
| ObjectFactory.PlaceAt | Assets/Plugins/Krearthur/Utils/Factory/ObjectFactory.cs:184-227 | one round of the placing loop: a live product at the position is updated in place; with no entry there, or a destroyed one, one new product is appended at the end, named after the list's length; on a list of live distinct products the position is reused or is the old end |
| ObjectFactory.Limited | Assets/Plugins/Krearthur/Utils/Factory/ObjectFactory.cs:178-181 | the number of positions used: the smaller of their count and `objectLimit` |
| ObjectFactory.DeactivateFrom | Assets/Plugins/Krearthur/Utils/Factory/ObjectFactory.cs:231-238 | the call throws exactly when a product from the given list position on is destroyed; otherwise every product from there on is deactivated, and nothing else changes |
| ObjectFactory.DeactivateProducts | Assets/Plugins/Krearthur/Utils/Factory/ObjectFactory.cs:299-308 | the call throws exactly when a product is destroyed; otherwise every product is deactivated and nothing else changes, and a null list is left alone |
| ObjectFactory.ProgressStep | Assets/Plugins/Krearthur/Utils/Factory/ObjectFactory.cs:182-228 | one round of the placing loop extends what is placed by one position and changes nothing else |
| ObjectFactory.PlaceAll | Assets/Plugins/Krearthur/Utils/Factory/ObjectFactory.cs:182-228 | whatever the list holds, the old entries keep their places and their liveness, entries past the old end are new live objects, and no object outside the list changes; on a list of live distinct products each of the first `n` positions holds its placed product and the others are untouched |
| ObjectFactory.GrownStep | Assets/Plugins/Krearthur/Utils/Factory/ObjectFactory.cs:184-199 | one round of the placing loop, on any list, keeps the old entries in place and alive or destroyed as they were, adds only new live objects at the end, and changes no object outside the list |
| ObjectFactory.SurplusDestroyed | Assets/Plugins/Krearthur/Utils/Factory/ObjectFactory.cs:229-238 | after the placing loop, an entry from the limit on is destroyed exactly when an old entry from the limit on was, since appended products are alive |
| ObjectFactory.MassProduceOrUpdate | Assets/Plugins/Krearthur/Utils/Factory/ObjectFactory.cs:176-239 | the call throws exactly when `objectLimit` is negative, when nothing is placed on a null list, or when an old entry from the limit on is destroyed; otherwise entries are only appended, every entry from the limit on ends live and inactive, and no other object changes; on a list of live distinct products, products are reused in place, new ones appear only past the old end, each faces its normal or the common direction, and the rest is deactivated |
| ObjectFactory.SurplusOutcome | Assets/Plugins/Krearthur/Utils/Factory/ObjectFactory.cs:229-238 | on any list, once the deactivating loop gets through, every entry from the limit on is live and inactive, and no object outside the old list has changed |
| ObjectFactory.WellFormedOutcome | Assets/Plugins/Krearthur/Utils/Factory/ObjectFactory.cs:182-238 | on a list of live distinct products, the placed positions keep what the placing loop put there, and every later entry is its old product, deactivated |
| ObjectFactory.ActivateAndUpdate | Assets/Plugins/Krearthur/Utils/Factory/ObjectFactory.cs:176-239 | activating and then mass-updating a list of live distinct products: each placed product is at its computed position with its old rotation, or a new copy's, turned toward its direction; the surplus is inactive; the list only grows at its end; no object outside it changes |
| ObjectFactory.ActivateProducts | Assets/Plugins/Krearthur/Utils/Factory/ObjectFactory.cs:332-341 | every live product is activated, destroyed ones are skipped, and nothing else changes |
| ObjectFactory.PlacedAfterActivation | Assets/Plugins/Krearthur/Utils/Factory/ObjectFactory.cs:332-341 | activating first changes no product's position or rotation, only its flag |
| ObjectFactory.DestroyAll | Assets/Plugins/Krearthur/Utils/Factory/ObjectFactory.cs:310-330 | every product is destroyed and the list is emptied; a null list stays null; no other object changes |
| ObjectFactory.ActiveOf | Assets/Plugins/Krearthur/Utils/Factory/ObjectFactory.cs:348-351 | a product is in the result if and only if it is listed, alive and active; the result is no longer than the list |
| ObjectFactory.ActiveOfAppend | Assets/Plugins/Krearthur/Utils/Factory/ObjectFactory.cs:348-351 | the active products of a joined list are those of each part, in order |
| ObjectFactory.ActiveOfDistinct | Assets/Plugins/Krearthur/Utils/Factory/ObjectFactory.cs:348-351 | a list without repetitions yields active products without repetitions |
| ObjectFactory.GetActiveProducts | Assets/Plugins/Krearthur/Utils/Factory/ObjectFactory.cs:348-351 | the active products, in list order |
| ObjectFactory.RemoveFirst | Assets/Plugins/Krearthur/Utils/Factory/ObjectFactory.cs:353-369 | the first product is destroyed, dropped and returned; an empty list gives null and changes nothing |
| ObjectFactory.RemoveLast | Assets/Plugins/Krearthur/Utils/Factory/ObjectFactory.cs:371-387 | the last product is destroyed, dropped and returned; an empty list gives null and changes nothing |
| ObjectFactory.RemoveKeepsWellFormed | Assets/Plugins/Krearthur/Utils/Factory/ObjectFactory.cs:353-387 | both removals keep every listed product alive and distinct, and shorten a non-empty list by one |
| ObjectFactory.Release | Assets/Plugins/Krearthur/Utils/Factory/ObjectFactory.cs:446-465 | the factory forgets its products, leaving the objects in the scene, and the charge goes up by one |
| ObjectFactory.ReleaseRestartsNaming | Assets/Plugins/Krearthur/Utils/Factory/ObjectFactory.cs:446-465 | the next product after a release is named with the new charge and index 0 |
| ObjectFactory.LatestActiveBelow | Assets/Plugins/Krearthur/Utils/Factory/ObjectFactory.cs:467-477 | the highest active position below the bound; none if and only if no position there is active |
| ObjectFactory.GetLatest | Assets/Plugins/Krearthur/Utils/Factory/ObjectFactory.cs:467-477 | the last active product, or null exactly when no product is active |
| ObjectFactory.SwapProductObject | Assets/Plugins/Krearthur/Utils/Factory/ObjectFactory.cs:278-289 | as written: the old product is destroyed and a copy of the template takes its list place, created at `CalcPos` of the old position |
| ObjectFactory.SwapProductObjectShifts | Assets/Plugins/Krearthur/Utils/Factory/ObjectFactory.cs:278-289 | the swapped-in object is off the old one's position by the offset (and the factory position when relative) |
| ObjectFactory.SwapProductObjectShiftExample | Assets/Plugins/Krearthur/Utils/Factory/ObjectFactory.cs:278-289 | with offset (0.5, 0, 0.5), a product at (2.5, 0, 3.5) is replaced by one at (3, 0, 4) |
| ObjectFactory.SwapInPlace | Assets/Plugins/Krearthur/Utils/Factory/ObjectFactory.cs:278-289 | corrected swap: the replacement takes the old product's list place and position, and no other product changes |
| LineFactory.TrimmedStart | Assets/Krearthur/Utils/Factory/LineFactory.cs:78-82 | a start trim above 0.0001 moves the start to that fraction of the untrimmed trail, and otherwise the start stays |
| LineFactory.TrimmedEnd | Assets/Krearthur/Utils/Factory/LineFactory.cs:84-88 | an end trim below 0.9999 moves the end to that fraction of the untrimmed trail, measured from the untrimmed start |
| LineFactory.MaybeSnap | Assets/Krearthur/Utils/Factory/LineFactory.cs:90-95 | a point on the grid when snapping, and unchanged otherwise |
| LineFactory.UntrimmedEndpoints | Assets/Krearthur/Utils/Factory/LineFactory.cs:27-28 | with the default trims of 0 and 1, the line runs between the (snapped) drag points |
| LineFactory.SegmentCount | Assets/Krearthur/Utils/Factory/LineFactory.cs:97-104 | never negative; a zero spacing gives 1; otherwise a positive `CeilToInt((length + 0.0001) / spacing)` is the count, a zero one gives 0, and a negative one is read as 1 |
| LineFactory.SegmentCountCovers | Assets/Krearthur/Utils/Factory/LineFactory.cs:100 | for a positive spacing, `n` segments cover the length and `n - 1` do not |
| LineFactory.Divisor | Assets/Krearthur/Utils/Factory/LineFactory.cs:112 | `n - 1`, or 2 for a single segment; always positive for positive `n` |
| LineFactory.NextTimer | Assets/Krearthur/Utils/Factory/LineFactory.cs:108 | without animation 0; with animation the advanced timer minus a whole number, in [0, 1) for a non-negative advance |
| LineFactory.Layout | Assets/Krearthur/Utils/Factory/LineFactory.cs:73-117 | none exactly when the count is zero; otherwise `n` positions (`n - 1` when animating), each the fraction `(i + timer) / Divisor` along the trail, snapped when snapping |
| LineFactory.ZeroLengthObjectsPlaceOne | Assets/Krearthur/Utils/Factory/LineFactory.cs:97-104 | products whose average dimension is 0 give one segment: a single product at the start without animation, none with it |
| LineFactory.LayoutHitsEndpoints | Assets/Krearthur/Utils/Factory/LineFactory.cs:110-117 | without animation or snapping, the first product is at the start and the last at the end |
| LineFactory.LinePointsEvenlySpaced | Assets/Krearthur/Utils/Factory/LineFactory.cs:112 | consecutive products are one equal step apart: the trail over the divisor |
| LineFactory.LayoutOnGrid | Assets/Krearthur/Utils/Factory/LineFactory.cs:113-116 | with snapping, every product is on the grid |
| LineFactory.TenUnitLineHasElevenProducts | Assets/Krearthur/Utils/Factory/LineFactory.cs:100-112 | a length-10 line with padding 1 and unit objects places 11 products, one per unit |
| LineFactory.Produce | Assets/Krearthur/Utils/Factory/LineFactory.cs:46-129 | the products take the layout's positions, facing along the line when aligning; surplus products are deactivated; the list only grows at its end and no object outside it changes; the first product is returned; a zero count only activates |
| RectFactory.GridCellsMembers | Assets/Krearthur/Utils/Factory/RectFactory.cs:133-209 | the loops visit a cell if and only if it is inside the grid and kept (border, or any cell when filling) |
| RectFactory.Keep | Assets/Krearthur/Utils/Factory/RectFactory.cs:134-146 | edge rows and edge columns are always placed; an inner cell is placed only when filling |
| RectFactory.Size | Assets/Krearthur/Utils/Factory/RectFactory.cs:118-132 | the allocated size never exceeds the number of cells, and equals it when filling |
| RectFactory.GridCount | Assets/Krearthur/Utils/Factory/RectFactory.cs:133-146 | the number of kept cells in the first `r` rows |
| RectFactory.SizeMatchesCells | Assets/Krearthur/Utils/Factory/RectFactory.cs:118-132 | the array size the source allocates is exactly the number of cells written |
| RectFactory.GridPrefix | Assets/Krearthur/Utils/Factory/RectFactory.cs:133-209 | the cells of fewer rows are a prefix of the cells of more rows |
| RectFactory.FilledIndex | Assets/Krearthur/Utils/Factory/RectFactory.cs:202-207 | when filling, cell `(r, c)` is written at index `r * cols + c` |
| RectFactory.Count | Assets/Krearthur/Utils/Factory/RectFactory.cs:110-116 | the count along one side is zero exactly for a zero extent |
| RectFactory.Divider | Assets/Krearthur/Utils/Factory/RectFactory.cs:149-156 | `n - 1` (2 for one cell), or `n` when the padding is approximately 1; always positive |
| RectFactory.Step | Assets/Krearthur/Utils/Factory/RectFactory.cs:149-164 | without snapping, the step times the divider is the signed extent; with snapping, the step is a whole number within one half of the exact step |
| RectFactory.MakeFrame | Assets/Krearthur/Utils/Factory/RectFactory.cs:73-164 | none exactly when a count is zero; otherwise the snapped start, the counts, the dividers and the steps of the drag |
| RectFactory.CellPos | Assets/Krearthur/Utils/Factory/RectFactory.cs:166-183 | a cell's position is the start plus `c` width steps and `r` height steps, plus the fraction `c / widthDivider` of the depth |
| RectFactory.CellDirection | Assets/Krearthur/Utils/Factory/RectFactory.cs:185-201 | the first row faces along the rows and the last row back; the first column faces against the columns and the others along them |
| RectFactory.Arrange | Assets/Krearthur/Utils/Factory/RectFactory.cs:133-209 | one position and one direction per kept cell, in row-major order, exactly `Size` of them |
| RectFactory.CornersMeetDragPoints | Assets/Krearthur/Utils/Factory/RectFactory.cs:149-183 | without snapping, and with padding other than 1, the first cell is the drag start and the last is the drag end |
| RectFactory.PaddingOneStopsShort | Assets/Krearthur/Utils/Factory/RectFactory.cs:149-156 | with padding 1, the last column stops one step short of the drag end |
| RectFactory.SnappedCellsOnUnitGrid | Assets/Krearthur/Utils/Factory/RectFactory.cs:158-183 | snapping on the unit grid puts every cell on whole units in the canvas plane |
| RectFactory.Produce | Assets/Krearthur/Utils/Factory/RectFactory.cs:62-227 | the products take the arranged positions, turned toward their directions when a border aligns; surplus products are deactivated; the list only grows at its end and no object outside it changes; the first product is returned |
| CircleFactory.ClampSteps | Assets/Plugins/Krearthur/Utils/Factory/CircleFactory.cs:16 | the `Steps` setter keeps the value inside [3, 50], and keeps one already there |
| CircleFactory.ClampStepsIdempotent | Assets/Plugins/Krearthur/Utils/Factory/CircleFactory.cs:16 | setting a value the setter produced keeps it |
| CircleFactory.SemiAxis | Assets/Plugins/Krearthur/Utils/Factory/CircleFactory.cs:99-119 | a semi-axis is half the absolute coordinate difference of the drag points |
| CircleFactory.ForceEven | Assets/Plugins/Krearthur/Utils/Factory/CircleFactory.cs:120-124 | the shorter semi-axis takes the longer one's length, with the sign of its own difference |
| CircleFactory.Radii | Assets/Plugins/Krearthur/Utils/Factory/CircleFactory.cs:99-124 | the semi-axes along the canvas width and height, measured on the unsnapped drag points |
| CircleFactory.TooSmall | Assets/Plugins/Krearthur/Utils/Factory/CircleFactory.cs:125 | a flat drag (a zero semi-axis) is always too small, and an ellipse that is not too small has both semi-axes at least `MinRadius` long |
| CircleFactory.ForceEvenCanFlip | Assets/Plugins/Krearthur/Utils/Factory/CircleFactory.cs:120-124 | dragging right and down, with a box wider than tall, gives a negative second semi-axis |
| CircleFactory.Center | Assets/Plugins/Krearthur/Utils/Factory/CircleFactory.cs:127 | the midpoint of the (snapped) drag points |
| CircleFactory.SampleAngle | Assets/Plugins/Krearthur/Utils/Factory/CircleFactory.cs:195-200 | sample 0 is at angle 0, and sample `PolyLineApproximation` closes the sweep |
| CircleFactory.SampleAnglesEven | Assets/Plugins/Krearthur/Utils/Factory/CircleFactory.cs:195-200 | consecutive samples are one equal angular step apart |
| CircleFactory.SegmentNormal | Assets/Plugins/Krearthur/Utils/Factory/CircleFactory.cs:206-209 | the normal of a segment in the canvas plane lies in the canvas plane |
| CircleFactory.SegmentNormalPerpendicular | Assets/Plugins/Krearthur/Utils/Factory/CircleFactory.cs:203-209 | the normal taken from a segment is perpendicular to it and lies in the canvas plane |
| CircleFactory.CalculateEllipsesAndCircumference | Assets/Plugins/Krearthur/Utils/Factory/CircleFactory.cs:191-228 | 300 samples at equal angle steps of the sweep, their segment normals, the cumulative arc lengths, and the total arc length |
| CircleFactory.CumulativeNonDecreasing | Assets/Plugins/Krearthur/Utils/Factory/CircleFactory.cs:211-222 | the cumulative lengths start at 0 and never decrease, so the total is the largest |
| CircleFactory.StepCount | Assets/Plugins/Krearthur/Utils/Factory/CircleFactory.cs:132 | at least 1, and the least count whose spacings cover `total + 0.0001`; the setter's clamp is not applied |
| CircleFactory.ArcSpacing | Assets/Plugins/Krearthur/Utils/Factory/CircleFactory.cs:134-135 | the total over the steps for a 360-degree ring, and over one fewer otherwise |
| CircleFactory.StepTargets | Assets/Plugins/Krearthur/Utils/Factory/CircleFactory.cs:134-143 | on a ring the last target is one spacing short of the total; on an open arc it is the total |
| CircleFactory.FirstNearest | Assets/Plugins/Krearthur/Utils/Factory/CircleFactory.cs:147-174 | the first sample strictly nearer to the target than both neighbours; none if and only if there is no such sample |
| CircleFactory.ExactHitIsFound | Assets/Plugins/Krearthur/Utils/Factory/CircleFactory.cs:155-173 | a target equal to one of strictly increasing lengths finds that sample |
| CircleFactory.MidwayTargetFindsNothing | Assets/Plugins/Krearthur/Utils/Factory/CircleFactory.cs:155-173 | a target exactly midway between two neighbouring lengths finds no sample, so the product goes to the zero vector |
| CircleFactory.Sample | Assets/Plugins/Krearthur/Utils/Factory/CircleFactory.cs:143-174 | step 0 takes the first sample; later steps the first nearest sample; with none, zero point and zero normal |
| CircleFactory.StepPosition | Assets/Plugins/Krearthur/Utils/Factory/CircleFactory.cs:176-177 | the sample point itself without snapping, a point on the grid with snapping |
| CircleFactory.PlaceSteps | Assets/Plugins/Krearthur/Utils/Factory/CircleFactory.cs:140-178 | one position per step (the sample, snapped when snapping) and the unsnapped sample normal |
| CircleFactory.PlaceAlong | Assets/Plugins/Krearthur/Utils/Factory/CircleFactory.cs:132-186 | the products take the step positions, facing their normals only when `alignWithNormal` is set; surplus products are deactivated; the list only grows at its end and no object outside it changes |
| CircleFactory.Produce | Assets/Plugins/Krearthur/Utils/Factory/CircleFactory.cs:62-189 | activates; gives up when a semi-axis is shorter than 0.05; otherwise one product per step on the sampled ellipse; surplus products are deactivated; the list only grows at its end and no object outside it changes; the first product is returned |
| PaintAction.FromObject | Assets/Krearthur/GOPainter/Scripts/PaintAction.cs:22-33 | an entry for exactly the one object, with its current position and rotation |
| PaintAction.LiveOf | Assets/Krearthur/GOPainter/Scripts/PaintAction.cs:41-50 | an id is in the result if and only if it is listed and alive; the result is no longer than the list |
| PaintAction.Capture | Assets/Krearthur/GOPainter/Scripts/PaintAction.cs:35-53 | the live members with their current positions and rotations, index by index |
| PaintAction.FromCollection | Assets/Krearthur/GOPainter/Scripts/PaintAction.cs:35-53 | the constructor loop skips null members and records the capture of the rest |
| PaintAction.RestoreEntry | Assets/Krearthur/GOPainter/Scripts/PaintAction.cs:69-76 | a live recorded object is reactivated at its captured position and rotation; a dead one is skipped |
| PaintAction.RestoreUpTo | Assets/Krearthur/GOPainter/Scripts/PaintAction.cs:69-77 | the undo loop changes only recorded objects and creates or destroys none |
| PaintAction.RestoreUpToFrame | Assets/Krearthur/GOPainter/Scripts/PaintAction.cs:69-77 | an object no entry records is left as it was |
| PaintAction.RestoreUpToLastEntry | Assets/Krearthur/GOPainter/Scripts/PaintAction.cs:69-77 | a live recorded object ends as its last entry put it back |
| PaintAction.Undo | Assets/Krearthur/GOPainter/Scripts/PaintAction.cs:55-79 | an addition destroys its live recorded objects; a removal puts them back; no object appears |
| PaintAction.UndoRemovedRestoresCapture | Assets/Krearthur/GOPainter/Scripts/PaintAction.cs:35-79 | capture then undo of a removal: every live recorded object is back, active, at its captured place, and nothing else changes |
| PaintAction.UndoAddedDestroysRecorded | Assets/Krearthur/GOPainter/Scripts/PaintAction.cs:57-66 | undoing an addition destroys exactly the recorded objects still alive |
| GOSwitcher.NextSequentialIndex | Assets/Krearthur/GOPainter/Scripts/GOSwitcher.cs:92-100 | an index past the end resets to 0, and any other advances by one and wraps through the truncating `%`; the result is below the length, and it is non-negative exactly when the index is at least -1 or one past it is a multiple of the length |
| GOSwitcher.CalculateNextIndex | Assets/Krearthur/GOPainter/Scripts/GOSwitcher.cs:82-103 | `None`, the source's exception, exactly when the list is empty or the sequential step is negative; otherwise the picked id is in the list: the rolled one in random mode, the one at the next sequential index otherwise |
| GOSwitcher.Register | Assets/Krearthur/GOPainter/Scripts/GOSwitcher.cs:29-47 | the sequence restarts at index 0, and nothing else changes |
| GOSwitcher.RegisterThenPick | Assets/Krearthur/GOPainter/Scripts/GOSwitcher.cs:45-100 | on a non-empty list the first sequential pick after `Register` succeeds and is the id at `1 % length`, so the first id is skipped |
| GOSwitcher.PicksCycle | Assets/Krearthur/GOPainter/Scripts/GOSwitcher.cs:92-100 | after `k` sequential picks the index is `(start + k) % length`: the list is walked cyclically |
| GOSwitcher.SwitchPrefab | Assets/Krearthur/GOPainter/Scripts/GOSwitcher.cs:68-80 | nothing happens unless the switcher is enabled and the painter is in Freehand mode; otherwise the call throws exactly when the pick does, and switches to the picked id when it does not |
| GOSwitcher.SwitchProduced | Assets/Krearthur/GOPainter/Scripts/GOSwitcher.cs:105-110 | when enabled, the call throws exactly when the pick throws, the picked id is outside the paint-object array, or its slot is empty; otherwise the product at the index is replaced through `SwapProductObject` by a copy of the picked paint object, created at the old product's position moved once more by the factory offset, and no other product changes |
| GOSwitcher.SwitchProducedInPlace | Assets/Krearthur/GOPainter/Scripts/GOSwitcher.cs:105-110 | the handler with the corrected swap: it throws on the same inputs, the replacement keeps the old product's position, and no other product changes |
| GOSwitcher.SwitchProducedMovesByOffset | Assets/Krearthur/GOPainter/Scripts/GOSwitcher.cs:105-110 | the two handlers throw on the same inputs; otherwise the product the handler swaps in stands off the corrected position by exactly the factory offset |
| ObjectGroups.StripGroupChars | Assets/Krearthur/GOPainter/Scripts/GOPainter.cs:2828 | after the character-class replace no bracket, space, plus, underscore or digit is left, and the name is no longer |
| ObjectGroups.StripAppend | Assets/Krearthur/GOPainter/Scripts/GOPainter.cs:2828 | stripping works piece by piece |
| ObjectGroups.StripIdempotent | Assets/Krearthur/GOPainter/Scripts/GOPainter.cs:2828 | stripping twice is stripping once |
| ObjectGroups.StripAllStripped | Assets/Krearthur/GOPainter/Scripts/GOPainter.cs:2828 | a string of pattern characters only strips to nothing |
| ObjectGroups.GroupName | Assets/Krearthur/GOPainter/Scripts/GOPainter.cs:2822-2830 | the group prefix, then the name without the holding prefix and with every pattern character removed |
| ObjectGroups.NumberedCopiesShareGroup | Assets/Krearthur/GOPainter/Scripts/GOPainter.cs:2827-2828 | copies numbered "Tree (3)" or "Tree_12" fall in the group of the bare name |
| ObjectGroups.HeldObjectSharesGroup | Assets/Krearthur/GOPainter/Scripts/GOPainter.cs:2823-2826 | the held object, with its holding prefix, is in the same group as once placed |
| ObjectGroups.InnerCharacterDropped | Assets/Krearthur/GOPainter/Scripts/GOPainter.cs:2828 | a digit, space or bracket inside a name is dropped too, so "Rock1" and "Rock2" share a group |
| ObjectGroups.GetObjectGroupFor | Assets/Krearthur/GOPainter/Scripts/GOPainter.cs:2820-2840 | an existing child of the group's name is reused; otherwise a new one is appended to the root's children and to the tracked list |
| ObjectGroups.SameKeySameGroup | Assets/Krearthur/GOPainter/Scripts/GOPainter.cs:2820-2840 | names that agree after normalisation share one group, and at most one group is created for them |
| ObjectGroups.ActiveOnly | Assets/Krearthur/GOPainter/Scripts/GOPainter.cs:921-928 | the active members only: one entry per active member |
| ObjectGroups.DropInactive | Assets/Krearthur/GOPainter/Scripts/GOPainter.cs:916-941 | step 1: inside a group, the inactive members are destroyed; other children are untouched |
| ObjectGroups.CleanChildren | Assets/Krearthur/GOPainter/Scripts/GOPainter.cs:916-969 | both steps over the root's children, in order |
| ObjectGroups.CleanKeeps | Assets/Krearthur/GOPainter/Scripts/GOPainter.cs:945-969 | a child survives, with only its active members, if and only if that cleaned form is not a leftover or an empty group |
| ObjectGroups.CleanObjectGroups | Assets/Krearthur/GOPainter/Scripts/GOPainter.cs:900-971 | nothing happens without a group root; otherwise the children are cleaned, and on activation the survivors become the tracked groups |
| ObjectGroups.CleanIdempotent | Assets/Krearthur/GOPainter/Scripts/GOPainter.cs:900-971 | a second cleanup finds nothing more to remove |
| ObjectGroups.CleanupExample | Assets/Krearthur/GOPainter/Scripts/GOPainter.cs:916-969 | a group of inactive members goes; one with an active member stays, with only that member |
| GOPainter.EnterScale | Assets/Krearthur/GOPainter/Scripts/GOPainter.cs:1269-1276 | key S outside scale mode remembers the mode and the holding scale, and enters scale mode |
| GOPainter.ReturnMode | Assets/Krearthur/GOPainter/Scripts/GOPainter.cs:1477-1495 | leaving scale mode goes to the previous mode or to Freehand, and never stays in a mode other than Freehand |
| GOPainter.SubmitScale | Assets/Krearthur/GOPainter/Scripts/GOPainter.cs:1489-1495 | the held scale becomes the current one, and scale mode is left for the previous mode (Freehand if that is scale mode) |
| GOPainter.CancelScale | Assets/Krearthur/GOPainter/Scripts/GOPainter.cs:1477-1487 | the holding object gets the remembered scale back; scale mode is left only when asked |
| GOPainter.ScaleModeRoundTrip | Assets/Krearthur/GOPainter/Scripts/GOPainter.cs:1262-1282 | from another mode, submit keeps the new scale and cancel restores the old one, both returning to the mode S was pressed in |
| GOPainter.SelectFreehand | Assets/Krearthur/GOPainter/Scripts/GOPainter.cs:1349-1355 | key Q selects Freehand and remembers the mode it came from |
| GOPainter.SelectLayoutTool | Assets/Krearthur/GOPainter/Scripts/GOPainter.cs:1358-1395 | keys W, E and R select a layout tool and clear the rotation delta and extra angles; E in Rect mode toggles filling |
| GOPainter.ToolKeyLeavesScaleUnsettled | Assets/Krearthur/GOPainter/Scripts/GOPainter.cs:1349-1395 | a tool key in scale mode neither submits nor cancels: the holding scale and the remembered scale can stay different |
| GOPainter.RectKeyTogglesFill | Assets/Krearthur/GOPainter/Scripts/GOPainter.cs:1370-1383 | E from another tool keeps fill; each further E toggles it |
| GOPainter.CycleCanvasAxis | Assets/Krearthur/GOPainter/Scripts/GOPainter.cs:1405-1433 | Space moves to the next axis, clears the rotation about the axis left, and shows the canvas |
| GOPainter.SpaceCycle | Assets/Krearthur/GOPainter/Scripts/GOPainter.cs:1405-1433 | three presses of Space bring the axis back with the whole rotation delta cleared |
| GOPainter.CycleAlignment | Assets/Krearthur/GOPainter/Scripts/GOPainter.cs:1291-1323 | key A clears the rotation delta and advances the alignment, never setting both flags |
| GOPainter.ToggleDynamicGrid | Assets/Krearthur/GOPainter/Scripts/GOPainter.cs:1729-1744 | the flag flips; switching off resets to unit cells and truncates the canvas position onto them; switching on takes the fitted grid |
| GOPainter.MouseScroll | Assets/Krearthur/GOPainter/Scripts/GOPainter.cs:1746-1831 | Alt rotates by one step about the canvas axis; else Ctrl changes the brush; else dragging changes the padding; else nothing |
| GOPainter.ShiftScroll | Assets/Krearthur/GOPainter/Scripts/GOPainter.cs:1833-1900 | in Circle mode the sweep changes, otherwise the canvas position along the canvas axis |
| GOPainter.StrokeKind | Assets/Krearthur/GOPainter/Scripts/GOPainter.cs:1124-1129 | a stroke is recorded as a removal exactly when Ctrl is held at release |
| GOPainter.PushStroke | Assets/Krearthur/GOPainter/Scripts/GOPainter.cs:1113-1131 | a non-empty Freehand stroke becomes one entry captured from the scene, of the kind Ctrl selects, and the collection is cleared |
| GOPainter.UndoLast | Assets/Krearthur/GOPainter/Scripts/GOPainter.cs:1237-1251 | the top entry is popped and undone, and the rest of the stack is kept; an empty stack changes nothing |
| GOPainter.Painted | Assets/Krearthur/GOPainter/Scripts/GOPainter.cs:2632 | a placed holding object joins the paint collection |
| GOPainter.BrushErased | Assets/Krearthur/GOPainter/Scripts/GOPainter.cs:1524-1540 | every object under the brush is deactivated and joins the collection; nothing else changes |
| GOPainter.CursorDeleted | Assets/Krearthur/GOPainter/Scripts/GOPainter.cs:2475-2486 | the object under the cursor is deactivated and recorded alone as a removal |
| GOPainter.EraseStrokeUndoRestores | Assets/Krearthur/GOPainter/Scripts/GOPainter.cs:1113-1131 | erasing active objects, releasing with Ctrl and then Ctrl+Z leaves scene and history as they were |
| GOPainter.ErasedUndoRestores | Assets/Krearthur/GOPainter/Scripts/PaintAction.cs:67-78 | undoing the removal captured right after deactivating active objects gives the scene before |
| GOPainter.EraseReleasedWithoutCtrlIsDestroyedOnUndo | Assets/Krearthur/GOPainter/Scripts/GOPainter.cs:1124-1129 | the kind follows Ctrl at release: an erase released without Ctrl is an addition, and undoing it destroys the erased objects |
| GOPainter.DestroyBlocked | Assets/Krearthur/GOPainter/Scripts/GOPainter.cs:1704-1716 | products that are inactive or blocked are destroyed, and every other object is kept as it was |
| GOPainter.ReleaseMassTools | Assets/Krearthur/GOPainter/Scripts/GOPainter.cs:1681-1727 | with Ctrl, the selection is recorded as a removal and deactivated; otherwise the surviving active products are recorded as one addition and released |
| GOPainter.MassReleaseUndo | Assets/Krearthur/GOPainter/Scripts/GOPainter.cs:1702-1724 | undoing a released layout destroys exactly its surviving active products, and the rest of the scene stays |
| GOPainter.CancelDragging | Assets/Krearthur/GOPainter/Scripts/GOPainter.cs:1497-1503 | dragging stops and every product of the layout is destroyed |
| GOPainter.Deactivate | Assets/Krearthur/GOPainter/Scripts/GOPainter.cs:582-623 | the factory is released, dragging stops and the tool becomes inactive |
| GOPainter.HandleKey | Assets/Krearthur/GOPainter/Scripts/GOPainter.cs:1229-1457 | of the modelled scene effects, only Ctrl+Z and Escape change the scene, since Ctrl+S's deactivation is modelled on the painter state alone; an unmodelled key changes nothing; S, A, Q, W, E and D do nothing while the right button is held |
| GOPainter.HandleMouse | Assets/Krearthur/GOPainter/Scripts/GOPainter.cs:1065-1226 | drags, presses, moves and placements leave the scene alone; a mouse-up off any surface, a stroke outcome outside Freehand and a move while dragging change nothing |
| GOPainter.HandleSceneEvent | Assets/Krearthur/GOPainter/Scripts/GOPainter.cs:1062-1475 | one event, dispatched in the handler's order; every mouse-up ends dragging |
| GOPainter.CtrlZPopsOne | Assets/Krearthur/GOPainter/Scripts/GOPainter.cs:1229-1252 | Ctrl+Z outside scale mode removes exactly the top entry, and the scene is that entry's undo |
| GOPainter.CtrlZInScaleKeepsHistory | Assets/Krearthur/GOPainter/Scripts/GOPainter.cs:1231-1236 | Ctrl+Z in scale mode only restores the scale; the stack and the scene are untouched |
| GOPainter.KeyHistory | Assets/Krearthur/GOPainter/Scripts/GOPainter.cs:1229-1457 | a key keeps the history or adds at most one entry on top, except Ctrl+Z outside scale mode |
| GOPainter.MouseHistory | Assets/Krearthur/GOPainter/Scripts/GOPainter.cs:1065-1226 | mouse and stroke events keep the old entries and add at most one on top |
| GOPainter.HistoryIsStack | Assets/Krearthur/GOPainter/Scripts/GOPainter.cs:1062-1475 | every event keeps the history and adds at most one entry on top, or it is Ctrl+Z outside scale mode and removes the top entry |
| GOPainter.ScaleModeByEvents | Assets/Krearthur/GOPainter/Scripts/GOPainter.cs:1134-1282 | S, a rescaling move, then Escape or a right click restore the scale and the previous mode; a left click keeps the new scale |
| GOPainter.ShiftScrollKeepsInv | Assets/Krearthur/GOPainter/Scripts/GOPainter.cs:1833-1900 | shift-scrolling keeps the sweep and the canvas position in range |
| GOPainter.MouseScrollKeepsInv | Assets/Krearthur/GOPainter/Scripts/GOPainter.cs:1746-1831 | scrolling keeps brush radius and padding in range |
| GOPainter.DynamicGridKeepsInv | Assets/Krearthur/GOPainter/Scripts/GOPainter.cs:1729-1744 | toggling the dynamic grid with a fitted grid of no negative cell keeps the cells non-negative and the canvas position inside the canvas |
| GOPainter.KeyKeepsInv | Assets/Krearthur/GOPainter/Scripts/GOPainter.cs:1229-1457 | every key keeps the handler's invariant, a D press included when its fitted grid has no negative cell |
| GOPainter.ReleaseKeepsInv | Assets/Krearthur/GOPainter/Scripts/GOPainter.cs:1681-1727 | releasing a layout keeps the invariant |
| GOPainter.MouseKeepsInv | Assets/Krearthur/GOPainter/Scripts/GOPainter.cs:1065-1226 | every mouse and stroke event keeps the invariant |
| GOPainter.HandleKeepsInv | Assets/Krearthur/GOPainter/Scripts/GOPainter.cs:1062-1475 | every event keeps the invariant: brush radius in [0, 100], padding in [0.25, 10], sweep in [0, 360], canvas position inside, exclusive alignment, scale mode remembering another mode, no negative cell (zero cells included), aligned undo entries |

## Left out

- Raycasts, collider and overlap tests, `PickObjectOnCursor` and
  `PickObjectWithoutCollider` are left out. Their outcomes are event
  arguments: the hit ids, the selection and the blocked set.
- Moving the holding object with the cursor is left out:
  `SetObjectPosition`, `UpdateOffsetForObject`, surface alignment, and the
  holding object's own rotation by scroll (only the rotation delta is
  modelled).
- The scale drift of the scale-mode mouse move (the 1.02 and 0.98 factors)
  is not modelled. It is the `scale` argument of the mouse-move event.
- The drag handlers `HandleMouseDragLine`, `HandleMouseDragRect` and
  `HandleMouseDragCircle` are left out as event wiring. They copy painter
  state into factory settings. The factories themselves are modelled.
- The padding scroll re-runs the active factory's `Produce` while
  dragging. That call is not repeated in `GOPainter.MouseScroll`, which
  only updates the padding.
- Tool activation (Tab), the `OnSceneGUI` guards, the menu, GUI drawing,
  sounds, `Pop`, `ObjectPaintAnimation`, `GORandomizer`,
  `GOSurfaceSnapper`, `Brush` and `Marker` are left out. They hold no
  layout or undo logic.
- The number keys of `HandleSwitchPrefabs` are left out. The model's other
  keys change nothing.
- Layers (`origLayer`, the edit layer), `objectScale`, `createUnderGroup`
  and the group parent of products are left out. They do not affect
  positions, naming or undo.
- Parenting an erased object under its group is left out. `ObjectGroups`
  models the group name and lookup.
- Events (`OnObjectProduced`, `OnObjectMassPainted` and the like) are not
  invoked. Their one consumer with logic, the switcher, is modelled
  directly by `GOSwitcher.SwitchProduced` and `GOSwitcher.SwitchPrefab`.
- `Transform.Find` is modelled as a name lookup among the root's direct
  children.
- The regex class `\d` is modelled as the ASCII digits 0 to 9.
- Play mode's deferred `Destroy` is treated like `DestroyImmediate`.
- Float rounding is not modelled; coordinates are exact reals.
- `Vector3.magnitude` is a parameter. `normalized` is not applied:
  `LookRotation` ignores the length of a non-zero direction, so directions
  are kept unnormalised.
- `Quaternion.LookRotation` and Euler-angle conversion are symbolic
  (`Scene.LookAt`). `eulerAngles` are kept as the rotation itself.
- `CalcPointOnEllipses` is the `pointOn` parameter of
  `CircleFactory.CalculateEllipsesAndCircumference`. Its trigonometry is
  not modelled.
- `GetAvgDimension` is an argument: `objectLength` for the line, `spacing`
  for the rectangle and `averageDimension` for the circle.
- The factories are modelled only with absolute positions and with
  `calculateNumberByPaddingAndDistance` set, the painter's only
  configuration. The factories' `steps` and `numberOfSegments` inspector
  modes are left out.
- The circle factory's `degreesOffset`, `correctionRatio` and `fill` are
  left out. Only `CalcPointOnEllipses` reads them, and it is a parameter.
- `lastActiveIndex` and the factories' unused fields are left out.
- CircleFactory.ArcSpacing: an open arc with one step divides by zero in
  the source. The model gives 0 there, which only step 0 would read, and
  step 0 never reads it.
- RectFactory.MakeFrame: requires a positive spacing. With zero spacing
  both counts are `CeilToInt` of an infinite or NaN quotient, that is
  `int.MinValue`. Their wrapped 32-bit product is 0, so the source places
  nothing and deactivates every product. With negative spacing the counts
  are zero or negative. A zero count returns null. With one negative count,
  `rows * columns` is negative and the array allocation throws. With two,
  it is positive: the row and column loops do not run, and the source
  places `rows * columns` products at `CalcPos` of the zero vector. The
  model does not follow these paths.
- RectFactory.Produce: requires a positive spacing, for the reason given
  for `RectFactory.MakeFrame`.
- CircleFactory.StepCount: requires a positive spacing. With zero spacing
  the source's `steps` is `int.MinValue`, and `new Vector3[steps]` throws.
  With negative spacing `steps` is zero or negative; a negative count
  throws the same way, and a zero count places nothing.
- CircleFactory.PlaceAlong: requires a positive spacing, for the reason
  given for `CircleFactory.StepCount`.
- CircleFactory.Produce: requires a positive spacing, for the reason given
  for `CircleFactory.StepCount`.
- GOSwitcher.CalculateNextIndex: a throwing pick is `None`. The index the
  source stores before the array read throws (GOSwitcher.cs:94 and :98) is
  not kept.
- GOSwitcher.SwitchPrefab: returns the picked id. What `GOPainter.SwitchPrefab`
  (GOPainter.cs:2145-2172) then does with it is not part of this model: it
  throws on an id outside the paint-object array and ignores an empty slot.
- GOSwitcher.SwitchProduced: requires the index to be inside the product
  list and its product to be alive. The factory raises the event for the
  product it has just placed at that index (ObjectFactory.cs:216-218), which
  holds on a well-formed list.
- GOSwitcher.SwitchProducedInPlace: requires the same, for the same reason.
- GOPainter.HandleKeepsInv: takes the grid a D press fits to have no negative
  cell. The source reads it from a bounds size (GOPainter.cs:2740-2759),
  which is never negative. A zero cell is allowed and kept.
- GOPainter.KeyKeepsInv: takes the same of a D press, for the reason given
  for `GOPainter.HandleKeepsInv`.
- GOPainter.DynamicGridKeepsInv: takes the same of the fitted grid, for the
  reason given for `GOPainter.HandleKeepsInv`.
- ObjectFactory.MassProduceOrUpdate: requires every list entry to be an id
  the scene handed out (`Issued`). This stands in for reference identity:
  a destroyed product is never equal to a new object. A throwing call is
  modelled as `None`; the products it placed or deactivated before the
  exception are not modelled.
- ObjectFactory.MassProduceOrUpdate: on a list with a destroyed entry
  before the limit, the contract does not say where each placed product
  ends up. The source appends the new copy at the end, where a later
  position may move it again, so a position can end up without a product.
- LineFactory.Produce: requires a list of live distinct products, a
  non-negative `objectLimit`, and a product list when nothing is placed.
  The source handles a destroyed product by appending a new one, throws
  when the deactivating loop reaches a destroyed product, throws in
  `Array.Resize` for a negative limit, and throws on the null list. The
  model has these paths only in `ObjectFactory.MassProduceOrUpdate`.
- RectFactory.Produce: has the same requires as `LineFactory.Produce` on
  the product list, the limit and the null list, for the same reason.
- CircleFactory.PlaceAlong: has the same requires as `LineFactory.Produce`
  on the product list, the limit and the null list, for the same reason.
- CircleFactory.Produce: has the same requires as `LineFactory.Produce` on
  the product list, the limit and the null list, for the same reason.
- ObjectFactory.ActivateAndUpdate: has the same requires as
  `LineFactory.Produce` on the product list, the limit and the null list,
  for the same reason.
- ObjectFactory.SwapProductObject: requires an index inside the list and a
  live product there. For an index outside the list, the source only logs
  a warning (ObjectFactory.cs:280-283) and then throws at `products[index]`
  (ObjectFactory.cs:284). A destroyed product throws when its `transform`
  is read.
- GOPainter.Deactivate: models only the painter's own state. The source's
  `OnDeactivation` also destroys the holding object, the parked picked
  object and the paint canvas. Through `CleanObjectGroups(false)` it
  destroys the inactive members of every object group, including erased
  objects that undo entries still refer to. So Ctrl+S
  (GOPainter.cs:1264-1267) changes the scene, and so does Escape when the
  tool is neither dragging nor in scale mode (GOPainter.cs:1446-1449).
  `GOPainter.HandleKey` leaves the scene unchanged for Ctrl+S, and for that
  Escape case it leaves out these effects.
- ObjectFactory.GetActiveProducts: requires the product list to exist. The
  source calls `FindAll` on it and would throw on a null list.
- ObjectFactory.GetLatest: requires every product to be alive. The source
  reads `activeSelf` on each one and would throw on a destroyed product.

## Findings

| source | as written | input that shows it | evidently intended | confidence | as-written member | corrected member |
|---|---|---|---|---|---|---|
| Assets/Plugins/Krearthur/Utils/Factory/ObjectFactory.cs:278-289 | `SwapProductObject` creates the replacement through `CreateFromTemplate` at the old product's world position, and `CreateFromTemplate` applies `CalcPos`. The offset (and the factory position when relative) is added a second time. | a product at (2.5, 0, 3.5) with position offset (0.5, 0, 0.5) is replaced by one at (3, 0, 4) | the replacement stands where the old product stood | not executed | ObjectFactory.SwapProductObjectShiftExample | ObjectFactory.SwapInPlace |

=== FILE: canvas.dfy ===
/**
 * The painting canvas axis of `GOPainter.CanvasAxis` and the two in-plane
 * coordinates the layouts measure on it: Y is the ground (XZ plane), X a
 * left-right wall (ZY plane), Z a forward-backward wall (XY plane).
 */
module Canvas {
  import opened Vectors

  datatype CanvasAxis = X | Y | Z

  /** The in-plane "width" coordinate: x on the Y and Z canvases, z on the X canvas. */
  function WidthOf(axis: CanvasAxis, v: Vec3): real {
    match axis
    case Y => v.x
    case X => v.z
    case Z => v.x
  }

  /** The in-plane "height" coordinate: z on the Y canvas, y on the X and Z canvases. */
  function HeightOf(axis: CanvasAxis, v: Vec3): real {
    match axis
    case Y => v.z
    case X => v.y
    case Z => v.y
  }

  /** The coordinate along the canvas axis itself. */
  function DepthOf(axis: CanvasAxis, v: Vec3): real {
    match axis
    case X => v.x
    case Y => v.y
    case Z => v.z
  }

  /** The vector with the given in-plane and depth coordinates on `axis`. */
  function Compose(axis: CanvasAxis, width: real, height: real, depth: real): (v: Vec3)
    ensures WidthOf(axis, v) == width && HeightOf(axis, v) == height && DepthOf(axis, v) == depth
  {
    match axis
    case Y => Vec3(width, depth, height)
    case X => Vec3(depth, height, width)
    case Z => Vec3(width, height, depth)
  }

  /** Splitting a vector into its coordinates and composing them again gives the vector back. */
  lemma ComposeCoordinates(axis: CanvasAxis, v: Vec3)
    ensures Compose(axis, WidthOf(axis, v), HeightOf(axis, v), DepthOf(axis, v)) == v
  {
  }

  /** The three coordinates are independent: together they determine the vector. */
  lemma CoordinatesDetermineVector(axis: CanvasAxis, a: Vec3, b: Vec3)
    requires WidthOf(axis, a) == WidthOf(axis, b)
    requires HeightOf(axis, a) == HeightOf(axis, b)
    requires DepthOf(axis, a) == DepthOf(axis, b)
    ensures a == b
  {
  }

  /** Each coordinate of a difference is the difference of the coordinates. */
  lemma CoordinatesOfDifference(axis: CanvasAxis, a: Vec3, b: Vec3)
    ensures WidthOf(axis, a.Minus(b)) == WidthOf(axis, a) - WidthOf(axis, b)
    ensures HeightOf(axis, a.Minus(b)) == HeightOf(axis, a) - HeightOf(axis, b)
    ensures DepthOf(axis, a.Minus(b)) == DepthOf(axis, a) - DepthOf(axis, b)
  {
  }
}

=== FILE: circle_factory.dfy ===
/**
 * `CircleFactory`: places products along a circle or an ellipse spanned by
 * the drag start and end, in the absolute-position mode the painter uses.
 * The trigonometric point generator `CalcPointOnEllipses` is a parameter
 * (`pointOn`), and so is `Vector3.magnitude`.
 */
module CircleFactory {
  import opened Vectors
  import opened Wrappers
  import opened Scene
  import opened Extensions
  import opened Canvas
  import Mathf
  import OF = ObjectFactory

  /** The number of samples of the polyline that approximates the ellipse. */
  const PolyLineApproximation: nat := 300

  /** A semi-axis shorter than this makes `Produce` give up. */
  const MinRadius: real := 0.05

  /** The distance the nearest-sample search assumes beyond either end of the polyline. */
  const Sentinel: real := 999.0

  /**
   * The settings the painter hands the circle factory for one drag frame.
   * `degrees` is the sweep (360 for a closed ring); `forceEven` asks for a
   * circle instead of an ellipse.
   */
  datatype CircleSettings = CircleSettings(
    startPos: Vec3,
    endPos: Vec3,
    degrees: real,
    forceEven: bool,
    snapToGrid: bool,
    gridSize: Vec3,
    alignWithNormal: bool,
    axis: CanvasAxis,
    padding: real)

  /** The `Steps` property setter: the step count is kept within `[3, 50]`. */
  function ClampSteps(value: int): (r: int)
    ensures 3 <= r <= 50
    ensures 3 <= value <= 50 ==> r == value
    ensures value < 3 ==> r == 3
    ensures value > 50 ==> r == 50
  {
    if value < 3 then 3 else if value > 50 then 50 else value
  }

  /** Setting the steps to a value the setter produced keeps it. */
  lemma ClampStepsIdempotent(value: int)
    ensures ClampSteps(ClampSteps(value)) == ClampSteps(value)
  {
  }

  /** The sign the source gives a coordinate difference: -1 when negative, 1 otherwise (also for 0). */
  function SignOf(d: real): (r: real)
    ensures r == 1.0 || r == -1.0
    ensures r * d == Mathf.Abs(d)
  {
    if d < 0.0 then -1.0 else 1.0
  }

  /** A semi-axis before `forceEven`: the signed difference times its sign, halved, so half the extent. */
  function SemiAxis(d: real): (r: real)
    ensures r == Mathf.Abs(d) / 2.0
    ensures r >= 0.0
  {
    SignOf(d) * d * 0.5
  }

  /**
   * `forceEven`: the shorter semi-axis is lengthened to the longer one, taking
   * the sign of its own coordinate difference `da` or `db`.
   */
  function ForceEven(a: real, b: real, da: real, db: real): (r: (real, real))
    ensures Mathf.Abs(r.0) == Mathf.Abs(r.1) == Mathf.Max(Mathf.Abs(a), Mathf.Abs(b))
    ensures Mathf.Abs(a) >= Mathf.Abs(b) ==> r.0 == a
    ensures Mathf.Abs(b) >= Mathf.Abs(a) ==> r.1 == b
    ensures Mathf.Abs(a) > Mathf.Abs(b) ==> r.1 == Mathf.Abs(a) * SignOf(db)
    ensures Mathf.Abs(b) > Mathf.Abs(a) ==> r.0 == Mathf.Abs(b) * SignOf(da)
  {
    var b1 := if Mathf.Abs(a) > Mathf.Abs(b) then Mathf.Abs(a) * SignOf(db) else b;
    var a1 := if Mathf.Abs(b1) > Mathf.Abs(a) then Mathf.Abs(b1) * SignOf(da) else a;
    (a1, b1)
  }

  /**
   * The two semi-axes, along the canvas width and height. They are measured
   * on the unsnapped drag points even when snapping is on.
   */
  function Radii(s: CircleSettings): (r: (real, real))
    ensures !s.forceEven ==>
              && r.0 == Mathf.Abs(WidthOf(s.axis, s.endPos) - WidthOf(s.axis, s.startPos)) / 2.0
              && r.1 == Mathf.Abs(HeightOf(s.axis, s.endPos) - HeightOf(s.axis, s.startPos)) / 2.0
    ensures s.forceEven ==> Mathf.Abs(r.0) == Mathf.Abs(r.1)
  {
    var da := WidthOf(s.axis, s.endPos) - WidthOf(s.axis, s.startPos);
    var db := HeightOf(s.axis, s.endPos) - HeightOf(s.axis, s.startPos);
    var a, b := SemiAxis(da), SemiAxis(db);
    if s.forceEven then ForceEven(a, b, da, db) else (a, b)
  }

  /**
   * A lengthened semi-axis can come out negative: dragging right and down
   * with a wider than tall box gives a negative second semi-axis.
   */
  lemma ForceEvenCanFlip(s: CircleSettings)
    requires s.axis == Y && s.forceEven
    requires s.startPos == Zero && s.endPos == Vec3(4.0, 0.0, -2.0)
    ensures Radii(s) == (2.0, -2.0)
  {
  }

  /** `Produce` gives up when either semi-axis is shorter than `MinRadius`. */
  predicate TooSmall(r: (real, real))
    ensures (r.0 == 0.0 || r.1 == 0.0) ==> TooSmall(r)
    ensures !TooSmall(r) ==> Mathf.Abs(r.0) >= MinRadius && Mathf.Abs(r.1) >= MinRadius
  {
    Mathf.Abs(r.0) < MinRadius || Mathf.Abs(r.1) < MinRadius
  }

  /** A drag point, on the grid when snapping is on. */
  function MaybeSnap(s: CircleSettings, p: Vec3): (r: Vec3)
    ensures !s.snapToGrid ==> r == p
    ensures s.snapToGrid ==> r == GridPosV(p, s.gridSize)
  {
    if s.snapToGrid then GridPosV(p, s.gridSize) else p
  }

  /** The centre of the ellipse: the midpoint of the (snapped) drag points. */
  function Center(s: CircleSettings): (c: Vec3)
    ensures c.Minus(MaybeSnap(s, s.startPos)) == MaybeSnap(s, s.endPos).Minus(c)
  {
    var start := MaybeSnap(s, s.startPos);
    start.Plus(MaybeSnap(s, s.endPos).Minus(start).Scale(0.5))
  }

  /** The angle of polyline sample `i`: the sweep divided into `PolyLineApproximation` equal parts. */
  function SampleAngle(degrees: real, i: nat): (a: real)
    ensures i == 0 ==> a == 0.0
    ensures i == PolyLineApproximation ==> a == degrees
  {
    (i as real) * (degrees / (PolyLineApproximation as real))
  }

  /** Consecutive samples are one equal angular step apart. */
  lemma SampleAnglesEven(degrees: real, i: nat)
    ensures SampleAngle(degrees, i + 1) - SampleAngle(degrees, i) == degrees / (PolyLineApproximation as real)
  {
    var d := degrees / (PolyLineApproximation as real);
    assert ((i + 1) as real) * d == (i as real) * d + d;
  }

  /** The normal stored with the first sample, before there is a segment to take it from. */
  function FirstNormal(axis: CanvasAxis): Vec3 {
    match axis
    case X => Forward
    case Y => Right
    case Z => Right
  }

  /**
   * The normal stored with a later sample, from the segment `line` that ends
   * there: a cross product with the canvas axis (before normalisation).
   */
  function SegmentNormal(axis: CanvasAxis, line: Vec3): (n: Vec3)
    ensures DepthOf(axis, line) == 0.0 ==> DepthOf(axis, n) == 0.0
  {
    match axis
    case X => line.Cross(Right).Neg()
    case Y => line.Cross(Up).Neg()
    case Z => line.Cross(Forward)
  }

  /** The segment normal is perpendicular to the segment and lies in the canvas plane. */
  lemma SegmentNormalPerpendicular(axis: CanvasAxis, line: Vec3)
    ensures SegmentNormal(axis, line).Dot(line) == 0.0
    ensures DepthOf(axis, SegmentNormal(axis, line)) == 0.0
  {
    match axis
    case X => CrossPerpendicular(line, Right);
    case Y => CrossPerpendicular(line, Up);
    case Z => CrossPerpendicular(line, Forward);
  }

  /** The length of the polyline through `points`: the sum of its segment lengths. */
  function ArcLength(points: seq<Vec3>, magnitude: Vec3 -> real): real
    decreases |points|
  {
    if |points| <= 1 then 0.0
    else ArcLength(points[..|points| - 1], magnitude) + magnitude(points[|points| - 1].Minus(points[|points| - 2]))
  }

  /** A polyline through more points is no shorter: segment lengths are never negative. */
  lemma {:induction false} ArcLengthGrows(points: seq<Vec3>, magnitude: Vec3 -> real, j: nat)
    requires forall v :: magnitude(v) >= 0.0
    requires 1 <= j <= |points|
    ensures ArcLength(points[..j], magnitude) <= ArcLength(points, magnitude)
    decreases |points|
  {
    if j < |points| {
      var init := points[..|points| - 1];
      assert init[..j] == points[..j];
      ArcLengthGrows(init, magnitude, j);
    } else {
      assert points[..j] == points;
    }
  }

  /** `lengths[k]` is the arc length from the first sample to sample `k`. */
  predicate Cumulative(lengths: seq<real>, points: seq<Vec3>, magnitude: Vec3 -> real) {
    && |lengths| == |points|
    && forall k | 0 <= k < |lengths| :: lengths[k] == ArcLength(points[..k + 1], magnitude)
  }

  /** One more sample extends the polyline by the segment from the previous sample. */
  lemma ArcLengthAppend(points: seq<Vec3>, point: Vec3, magnitude: Vec3 -> real)
    requires |points| > 0
    ensures ArcLength(points + [point], magnitude) == ArcLength(points, magnitude) + magnitude(point.Minus(points[|points| - 1]))
  {
    assert (points + [point])[..|points|] == points;
  }

  /** Appending the arc length up to a new sample keeps the lengths cumulative. */
  lemma CumulativeAppend(lengths: seq<real>, points: seq<Vec3>, point: Vec3, magnitude: Vec3 -> real)
    requires Cumulative(lengths, points, magnitude)
    ensures Cumulative(lengths + [ArcLength(points + [point], magnitude)], points + [point], magnitude)
  {
    var ps := points + [point];
    var ls := lengths + [ArcLength(ps, magnitude)];
    assert ps[..|ps|] == ps;
    forall k | 0 <= k < |lengths|
      ensures ls[k] == ArcLength(ps[..k + 1], magnitude)
    {
      assert ps[..k + 1] == points[..k + 1];
    }
  }

  /** The sampled ellipse: sample points, their normals, the cumulative arc lengths and the total length. */
  datatype PolyLine = PolyLine(points: seq<Vec3>, normals: seq<Vec3>, lengths: seq<real>, total: real)

  /** A polyline with one point, normal and length per sample. */
  predicate WellSized(p: PolyLine) {
    |p.points| == |p.normals| == |p.lengths| == PolyLineApproximation
  }

  /** `p` is what `CalculateEllipsesAndCircumference` builds for the ellipse with this centre and these semi-axes. */
  predicate IsEllipsePolyLine(p: PolyLine, s: CircleSettings, center: Vec3, a: real, b: real,
                              pointOn: (Vec3, real, real, real) -> Vec3, magnitude: Vec3 -> real)
  {
    && WellSized(p)
    && (forall i | 0 <= i < PolyLineApproximation :: p.points[i] == pointOn(center, a, b, SampleAngle(s.degrees, i)))
    && p.normals[0] == FirstNormal(s.axis)
    && (forall i | 0 < i < PolyLineApproximation ::
          p.normals[i] == SegmentNormal(s.axis, p.points[i].Minus(p.points[i - 1])))
    && Cumulative(p.lengths, p.points, magnitude)
    && p.total == p.lengths[PolyLineApproximation - 1]
  }

  /** `p` holds the first `i` samples of the ellipse, as the sampling loop builds them. */
  predicate SampledUpTo(p: PolyLine, i: nat, s: CircleSettings, center: Vec3, a: real, b: real,
                        pointOn: (Vec3, real, real, real) -> Vec3, magnitude: Vec3 -> real)
  {
    && |p.points| == |p.normals| == |p.lengths| == i
    && (forall k | 0 <= k < i :: p.points[k] == pointOn(center, a, b, SampleAngle(s.degrees, k)))
    && (i > 0 ==> p.normals[0] == FirstNormal(s.axis))
    && (forall k | 0 < k < i :: p.normals[k] == SegmentNormal(s.axis, p.points[k].Minus(p.points[k - 1])))
    && Cumulative(p.lengths, p.points, magnitude)
    && p.total == (if i == 0 then 0.0 else p.lengths[i - 1])
  }

  /** The next sample: its point, the normal of the segment reaching it and the running length. */
  function NextSample(p: PolyLine, i: nat, s: CircleSettings, center: Vec3, a: real, b: real,
                      pointOn: (Vec3, real, real, real) -> Vec3, magnitude: Vec3 -> real): PolyLine
    requires |p.points| == i
  {
    var point := pointOn(center, a, b, SampleAngle(s.degrees, i));
    var total := if i > 0 then p.total + magnitude(point.Minus(p.points[i - 1])) else 0.0;
    PolyLine(p.points + [point], p.normals + [NextNormal(p.points, point, s.axis)], p.lengths + [total], total)
  }

  /** One round of the sampling loop extends the samples by one. */
  lemma SampleStep(p: PolyLine, i: nat, s: CircleSettings, center: Vec3, a: real, b: real,
                   pointOn: (Vec3, real, real, real) -> Vec3, magnitude: Vec3 -> real)
    requires SampledUpTo(p, i, s, center, a, b, pointOn, magnitude)
    ensures SampledUpTo(NextSample(p, i, s, center, a, b, pointOn, magnitude), i + 1, s, center, a, b, pointOn, magnitude)
  {
    var point := pointOn(center, a, b, SampleAngle(s.degrees, i));
    var q := NextSample(p, i, s, center, a, b, pointOn, magnitude);
    PointsStep(p.points, point, i, s, center, a, b, pointOn);
    NormalsStep(p.points, p.normals, point, s.axis);
    LengthStep(p, i, point, q.total, magnitude);
  }

  /** The points stay the samples at their angles when the next one is appended. */
  lemma PointsStep(points: seq<Vec3>, point: Vec3, i: nat, s: CircleSettings, center: Vec3, a: real, b: real,
                   pointOn: (Vec3, real, real, real) -> Vec3)
    requires |points| == i
    requires forall k | 0 <= k < i :: points[k] == pointOn(center, a, b, SampleAngle(s.degrees, k))
    requires point == pointOn(center, a, b, SampleAngle(s.degrees, i))
    ensures forall k | 0 <= k < i + 1 :: (points + [point])[k] == pointOn(center, a, b, SampleAngle(s.degrees, k))
  {
    forall k | 0 <= k < i + 1
      ensures (points + [point])[k] == pointOn(center, a, b, SampleAngle(s.degrees, k))
    {
      if k < i {
        assert (points + [point])[k] == points[k];
      }
    }
  }

  /** The normal appended with the next point: the first one's, or the new segment's. */
  function NextNormal(points: seq<Vec3>, point: Vec3, axis: CanvasAxis): Vec3 {
    if |points| > 0 then SegmentNormal(axis, point.Minus(points[|points| - 1])) else FirstNormal(axis)
  }

  /** Every later normal stays the normal of the segment reaching its point when the next one is appended. */
  lemma NormalsStep(points: seq<Vec3>, normals: seq<Vec3>, point: Vec3, axis: CanvasAxis)
    requires |points| == |normals|
    requires |points| > 0 ==> normals[0] == FirstNormal(axis)
    requires forall k | 0 < k < |points| :: normals[k] == SegmentNormal(axis, points[k].Minus(points[k - 1]))
    ensures (normals + [NextNormal(points, point, axis)])[0] == FirstNormal(axis)
    ensures forall k | 0 < k < |points| + 1 ::
              (normals + [NextNormal(points, point, axis)])[k]
              == SegmentNormal(axis, (points + [point])[k].Minus((points + [point])[k - 1]))
  {
    var ps, ns := points + [point], normals + [NextNormal(points, point, axis)];
    forall k | 0 < k < |points| + 1
      ensures ns[k] == SegmentNormal(axis, ps[k].Minus(ps[k - 1]))
    {
      if k < |points| {
        assert ns[k] == normals[k] && ps[k] == points[k] && ps[k - 1] == points[k - 1];
      } else {
        assert ps[k] == point && ps[k - 1] == points[|points| - 1];
      }
    }
  }

  /** The running length after one more sample is the arc length up to it, so the lengths stay cumulative. */
  lemma LengthStep(p: PolyLine, i: nat, point: Vec3, total: real, magnitude: Vec3 -> real)
    requires |p.points| == |p.lengths| == i && Cumulative(p.lengths, p.points, magnitude)
    requires p.total == (if i == 0 then 0.0 else p.lengths[i - 1])
    requires total == (if i == 0 then 0.0 else p.total + magnitude(point.Minus(p.points[i - 1])))
    ensures Cumulative(p.lengths + [total], p.points + [point], magnitude)
  {
    if i > 0 {
      ArcLengthAppend(p.points, point, magnitude);
      assert p.points[..i - 1 + 1] == p.points;
    }
    CumulativeAppend(p.lengths, p.points, point, magnitude);
  }

  /**
   * `CalculateEllipsesAndCircumference`: samples the ellipse, takes a normal
   * from every segment and accumulates the segment lengths; the total is the
   * last cumulative length.
   */
  method CalculateEllipsesAndCircumference(s: CircleSettings, center: Vec3, a: real, b: real,
                                           pointOn: (Vec3, real, real, real) -> Vec3, magnitude: Vec3 -> real)
    returns (p: PolyLine)
    ensures IsEllipsePolyLine(p, s, center, a, b, pointOn, magnitude)
  {
    p := PolyLine([], [], [], 0.0);
    var i := 0;
    while i < PolyLineApproximation
      invariant 0 <= i <= PolyLineApproximation
      invariant SampledUpTo(p, i, s, center, a, b, pointOn, magnitude)
    {
      SampleStep(p, i, s, center, a, b, pointOn, magnitude);
      p := NextSample(p, i, s, center, a, b, pointOn, magnitude);
      i := i + 1;
    }
  }

  /** Along a polyline with non-negative segment lengths the cumulative lengths start at 0 and never decrease, so the total is the largest. */
  lemma {:induction false} CumulativeNonDecreasing(p: PolyLine, magnitude: Vec3 -> real)
    requires forall v :: magnitude(v) >= 0.0
    requires WellSized(p) && Cumulative(p.lengths, p.points, magnitude)
    ensures p.lengths[0] == 0.0
    ensures forall i, j | 0 <= i <= j < |p.lengths| :: p.lengths[i] <= p.lengths[j]
  {
    forall i, j | 0 <= i <= j < |p.lengths|
      ensures p.lengths[i] <= p.lengths[j]
    {
      var prefix := p.points[..j + 1];
      assert prefix[..i + 1] == p.points[..i + 1];
      ArcLengthGrows(prefix, magnitude, i + 1);
    }
  }

  /** `steps`: `CeilToInt((total + 0.0001) / (padding * averageDimension))`, not clamped by the setter. */
  function StepCount(total: real, spacing: real): (n: int)
    requires total >= 0.0 && spacing > 0.0
    ensures n >= 1
    ensures ((n - 1) as real) * spacing < total + 0.0001 <= (n as real) * spacing
  {
    var q := (total + 0.0001) / spacing;
    var n := Mathf.CeilToInt(q);
    assert q * spacing == total + 0.0001;
    assert ((n - 1) as real) * spacing < q * spacing <= (n as real) * spacing;
    n
  }

  /**
   * `arcLength`, the arc distance between neighbouring products: the total
   * over `steps` for a closed 360 degree ring, over `steps - 1` otherwise.
   * With a single step on an open arc the source divides by zero, but only
   * step 0 is placed and it never reads the value; the model gives 0 there.
   */
  function ArcSpacing(total: real, steps: int, degrees: real): (r: real)
    requires steps >= 1
    ensures degrees == 360.0 ==> r * (steps as real) == total
    ensures degrees != 360.0 && steps > 1 ==> r * ((steps - 1) as real) == total
  {
    if degrees == 360.0 then total / (steps as real)
    else if steps > 1 then total / ((steps - 1) as real)
    else 0.0
  }

  /** The arc length product `step` aims for. */
  function StepTarget(step: nat, spacing: real): real {
    (step as real) * spacing
  }

  /**
   * On a closed ring the products stop one spacing short of the total, where
   * the first one sits; on an open arc the last one is at the full length.
   */
  lemma StepTargets(total: real, steps: int, degrees: real)
    requires total >= 0.0 && steps >= 1
    ensures degrees == 360.0 ==>
              forall k: nat | k < steps :: 0.0 <= StepTarget(k, ArcSpacing(total, steps, degrees)) < total || total == 0.0
    ensures degrees == 360.0 ==>
              StepTarget(steps - 1, ArcSpacing(total, steps, degrees)) == total - ArcSpacing(total, steps, degrees)
    ensures degrees != 360.0 && steps > 1 ==> StepTarget(steps - 1, ArcSpacing(total, steps, degrees)) == total
  {
    var d := ArcSpacing(total, steps, degrees);
    if degrees == 360.0 {
      forall k: nat | k < steps
        ensures 0.0 <= StepTarget(k, d) < total || total == 0.0
      {
        assert d >= 0.0;
        if total > 0.0 {
          assert d > 0.0;
          assert (k as real) * d < (steps as real) * d;
        }
      }
    }
  }

  /** How far `target` is from cumulative length `j`; the sentinel beyond either end. */
  function Delta(lengths: seq<real>, target: real, j: int): (r: real)
    ensures 0 <= j < |lengths| ==> r == Mathf.Abs(target - lengths[j])
    ensures !(0 <= j < |lengths|) ==> r == Sentinel
  {
    if 0 <= j < |lengths| then Mathf.Abs(target - lengths[j]) else Sentinel
  }

  /** Sample `i` is strictly nearer to `target` than both of its neighbours. */
  predicate IsNearest(lengths: seq<real>, target: real, i: nat)
    requires i < |lengths|
  {
    Delta(lengths, target, i) < Delta(lengths, target, i - 1) && Delta(lengths, target, i) < Delta(lengths, target, i + 1)
  }

  /** The inner search loop from sample `from` on: the first sample nearer than both neighbours, if there is one. */
  function FirstNearest(lengths: seq<real>, target: real, from: nat): (r: Option<nat>)
    requires from <= |lengths|
    ensures r.Some? ==> from <= r.value < |lengths| && IsNearest(lengths, target, r.value)
    ensures forall j | from <= j < |lengths| && (r.None? || j < r.value) :: !IsNearest(lengths, target, j)
    decreases |lengths| - from
  {
    if from == |lengths| then None
    else if IsNearest(lengths, target, from) then Some(from)
    else FirstNearest(lengths, target, from + 1)
  }

  /** Cumulative lengths that strictly increase. */
  predicate StrictlyIncreasing(lengths: seq<real>) {
    forall i, j | 0 <= i < j < |lengths| :: lengths[i] < lengths[j]
  }

  /** A target that is exactly one of strictly increasing cumulative lengths finds that sample. */
  lemma ExactHitIsFound(lengths: seq<real>, k: nat)
    requires StrictlyIncreasing(lengths) && k < |lengths|
    ensures FirstNearest(lengths, lengths[k], 0) == Some(k)
  {
    var t := lengths[k];
    assert IsNearest(lengths, t, k);
    forall j | 0 <= j < k
      ensures !IsNearest(lengths, t, j)
    {
      assert Delta(lengths, t, j + 1) < Delta(lengths, t, j);
    }
  }

  /**
   * A target exactly midway between two neighbouring strictly increasing
   * cumulative lengths finds no sample at all: the two are tied and neither
   * is strictly nearer than the other.
   */
  lemma MidwayTargetFindsNothing(lengths: seq<real>, k: nat)
    requires StrictlyIncreasing(lengths) && k + 1 < |lengths|
    ensures FirstNearest(lengths, (lengths[k] + lengths[k + 1]) / 2.0, 0).None?
  {
    var t := (lengths[k] + lengths[k + 1]) / 2.0;
    forall j | 0 <= j < |lengths|
      ensures !IsNearest(lengths, t, j)
    {
      if j < k {
        assert Delta(lengths, t, j + 1) < Delta(lengths, t, j);
      } else if j == k {
        assert Delta(lengths, t, k) == Delta(lengths, t, k + 1);
      } else if j == k + 1 {
        assert Delta(lengths, t, k + 1) == Delta(lengths, t, k);
      } else {
        assert Delta(lengths, t, j - 1) < Delta(lengths, t, j);
      }
    }
  }

  /**
   * The point and normal of product `step`: step 0 takes the first sample;
   * a later step the first sample nearer to `step * spacing` than both
   * neighbours; with no such sample, the zero vector for both.
   */
  function Sample(p: PolyLine, step: nat, spacing: real): (r: (Vec3, Vec3))
    requires WellSized(p)
    ensures step == 0 ==> r == (p.points[0], p.normals[0])
    ensures step > 0 ==>
              forall i | 0 <= i < |p.lengths| && IsNearest(p.lengths, StepTarget(step, spacing), i)
                         && (forall j | 0 <= j < i :: !IsNearest(p.lengths, StepTarget(step, spacing), j)) ::
                r == (p.points[i], p.normals[i])
    ensures step > 0 && (forall i | 0 <= i < |p.lengths| :: !IsNearest(p.lengths, StepTarget(step, spacing), i)) ==>
              r == (Zero, Zero)
  {
    if step == 0 then (p.points[0], p.normals[0])
    else
      match FirstNearest(p.lengths, StepTarget(step, spacing), 0)
      case Some(i) => (p.points[i], p.normals[i])
      case None => (Zero, Zero)
  }

  /** The position of product `step`: its sample point, snapped when snapping is on. */
  function StepPosition(s: CircleSettings, p: PolyLine, step: nat, spacing: real): (r: Vec3)
    requires WellSized(p)
    ensures !s.snapToGrid ==> r == Sample(p, step, spacing).0
    ensures s.snapToGrid ==> OnGrid3(r, s.gridSize.x, s.gridSize.y, s.gridSize.z)
  {
    MaybeSnap(s, Sample(p, step, spacing).0)
  }

  /**
   * The step loop of `Produce`: one position and one normal per step, the
   * normal taken unsnapped from the sample.
   */
  method PlaceSteps(s: CircleSettings, p: PolyLine, steps: nat, spacing: real)
    returns (positions: seq<Vec3>, normals: seq<Vec3>)
    requires WellSized(p)
    ensures |positions| == |normals| == steps
    ensures forall k | 0 <= k < steps ::
              positions[k] == StepPosition(s, p, k, spacing) && normals[k] == Sample(p, k, spacing).1
  {
    positions, normals := [], [];
    var step := 0;
    while step < steps
      invariant 0 <= step <= steps
      invariant |positions| == |normals| == step
      invariant forall k | 0 <= k < step ::
                  positions[k] == StepPosition(s, p, k, spacing) && normals[k] == Sample(p, k, spacing).1
    {
      var sample := Sample(p, step, spacing);
      positions := positions + [MaybeSnap(s, sample.0)];
      normals := normals + [sample.1];
      step := step + 1;
    }
  }

  /**
   * The second half of `Produce`: from the sampled ellipse, the step count,
   * the arc spacing, the step positions and the placed products.
   */
  method PlaceAlong(s: CircleSettings, f: OF.Factory, w: World, p: PolyLine, averageDimension: real)
    returns (f': OF.Factory, w': World, positions: seq<Vec3>, normals: seq<Vec3>)
    requires s.padding * averageDimension > 0.0
    requires WellSized(p) && p.total >= 0.0
    requires w.Valid() && OF.WellFormed(f, w) && f.objectLimit >= 0
    requires f.products.Some? || f.objectLimit > 0
    ensures w'.Valid() && OF.WellFormed(f', w')
    ensures var steps := StepCount(p.total, s.padding * averageDimension);
            var spacing := ArcSpacing(p.total, steps, s.degrees);
            var n := OF.Limited(f, steps);
            && |positions| == |normals| == steps
            && (forall k | 0 <= k < steps ::
                  positions[k] == StepPosition(s, p, k, spacing) && normals[k] == Sample(p, k, spacing).1)
            && OF.Count(f') >= n
            && forall i | 0 <= i < n ::
                 w'.objects[OF.List(f')[i]] == OF.Place(f, OF.Existing(f, w, i), positions[i], if s.alignWithNormal then normals[i] else Zero, i)
    ensures forall i | OF.Limited(f, |positions|) <= i < OF.Count(f') :: !w'.objects[OF.List(f')[i]].active
    ensures OF.Count(f) <= OF.Count(f') && OF.List(f')[..OF.Count(f)] == OF.List(f)
    ensures forall id | id in w.objects && id !in OF.List(f) :: id in w'.objects && w'.objects[id] == w.objects[id]
  {
    var steps := StepCount(p.total, s.padding * averageDimension);
    var spacing := ArcSpacing(p.total, steps, s.degrees);
    positions, normals := PlaceSteps(s, p, steps, spacing);
    assert OF.Issued(f, w);
    var r := OF.MassProduceOrUpdate(f, w, positions, if s.alignWithNormal then Some(normals) else None, Zero);
    f', w' := r.value.0, r.value.1;
  }

  /**
   * `Produce`: activates the live products; gives up when a semi-axis is too
   * short; otherwise samples the ellipse, derives the step count and the arc
   * spacing, places one product per step and hands the normals on only when
   * `alignWithNormal` is set. `averageDimension` is the factory's average
   * product dimension.
   */
  method Produce(s: CircleSettings, f: OF.Factory, w: World,
                 pointOn: (Vec3, real, real, real) -> Vec3, magnitude: Vec3 -> real, averageDimension: real)
    returns (f': OF.Factory, w': World, first: Option<ObjId>, poly: Option<PolyLine>, positions: seq<Vec3>, normals: seq<Vec3>)
    requires s.padding * averageDimension > 0.0
    requires forall v :: magnitude(v) >= 0.0
    requires w.Valid() && OF.WellFormed(f, w) && f.objectLimit >= 0
    // at least one step is placed, and with no room for it a null product list fails in the source
    requires !TooSmall(Radii(s)) ==> f.products.Some? || f.objectLimit > 0
    ensures w'.Valid() && OF.WellFormed(f', w')
    ensures TooSmall(Radii(s)) <==> poly.None?
    ensures poly.None? ==> f' == f && w' == OF.ActivateProducts(f, w) && first.None? && positions == []
    ensures poly.Some? ==> poly.value.total >= 0.0
    ensures poly.Some? && poly.value.total >= 0.0 ==>
              var p := poly.value;
              var steps := StepCount(p.total, s.padding * averageDimension);
              var spacing := ArcSpacing(p.total, steps, s.degrees);
              var n := OF.Limited(f, steps);
              && IsEllipsePolyLine(p, s, Center(s), Radii(s).0, Radii(s).1, pointOn, magnitude)
              && |positions| == |normals| == steps
              && (forall k | 0 <= k < steps ::
                    positions[k] == StepPosition(s, p, k, spacing) && normals[k] == Sample(p, k, spacing).1)
              && first == OF.GetAt(f', 0)
              && OF.Count(f') >= n
              && forall i | 0 <= i < n ::
                   && w'.objects[OF.List(f')[i]].pos == OF.CalcPos(f, positions[i])
                   && w'.objects[OF.List(f')[i]].rot
                      == OF.Turned(f, if i < OF.Count(f) then w.objects[OF.List(f)[i]].rot else OF.CreatedRotation(f, f.objectToCreate),
                                   if s.alignWithNormal then normals[i] else Zero)
    ensures poly.Some? ==>
              forall i | OF.Limited(f, |positions|) <= i < OF.Count(f') :: !w'.objects[OF.List(f')[i]].active
    ensures OF.Count(f) <= OF.Count(f') && OF.List(f')[..OF.Count(f)] == OF.List(f)
    ensures forall id | id in w.objects && id !in OF.List(f) :: id in w'.objects && w'.objects[id] == w.objects[id]
  {
    var w1 := OF.ActivateProducts(f, w);
    var radii := Radii(s);
    if TooSmall(radii) {
      f', w', first, poly, positions, normals := f, w1, None, None, [], [];
      return;
    }
    var p := CalculateEllipsesAndCircumference(s, Center(s), radii.0, radii.1, pointOn, magnitude);
    CumulativeNonDecreasing(p, magnitude);
    assert p.lengths[0] <= p.lengths[PolyLineApproximation - 1];
    f', w', positions, normals := PlaceAlong(s, f, w1, p, averageDimension);
    forall i | 0 <= i < OF.Limited(f, |positions|)
      ensures && w'.objects[OF.List(f')[i]].pos == OF.CalcPos(f, positions[i])
              && w'.objects[OF.List(f')[i]].rot
                 == OF.Turned(f, if i < OF.Count(f) then w.objects[OF.List(f)[i]].rot else OF.CreatedRotation(f, f.objectToCreate),
                              if s.alignWithNormal then normals[i] else Zero)
    {
      OF.PlacedAfterActivation(f, w, positions[i], if s.alignWithNormal then normals[i] else Zero, i);
    }
    poly := Some(p);
    first := OF.GetAt(f', 0);
  }
}

=== FILE: extensions.dfy ===
/**
 * Grid snapping helpers of `Krearthur.Utils.Extensions`: `GridPos` in its
 * vector-cell, per-axis-cell and scalar forms, and `IntPos`.
 * The prefab queries of the same class are not part of this model.
 */
module Extensions {
  import opened Vectors
  import Mathf

  /** The `k`-th grid line for cell size `g`. */
  function GridLine(k: int, g: real): real {
    (k as real) * g
  }

  /** `v` is an integer multiple of the cell size `g`. */
  ghost predicate OnGrid(v: real, g: real) {
    exists k: int :: v == GridLine(k, g)
  }

  /** Every component of `v` lies on the grid of the matching cell size. */
  ghost predicate OnGrid3(v: Vec3, gx: real, gy: real, gz: real) {
    OnGrid(v.x, gx) && OnGrid(v.y, gy) && OnGrid(v.z, gz)
  }

  /**
   * One component of the vector `GridPos`: `RoundToInt(c / g) * g`. A zero
   * cell (a flat object's bounds) makes the quotient infinite or NaN; whatever
   * integer the rounding gives, times a zero cell it is 0.
   */
  function SnapAxis(c: real, g: real): (r: real)
    ensures OnGrid(r, g)
    ensures g > 0.0 ==> Mathf.Abs(r - c) <= g / 2.0
    ensures g == 0.0 ==> r == 0.0
  {
    if g == 0.0 then OriginOnGrid(g); 0.0 else RoundedLine(c, g)
  }

  /** The origin is grid line 0 of every grid. */
  lemma OriginOnGrid(g: real)
    ensures OnGrid(0.0, g)
  {
    assert 0.0 == GridLine(0, g);
  }

  /** `RoundToInt(c / g) * g` for a non-zero cell: the nearest grid line. */
  function RoundedLine(c: real, g: real): (r: real)
    requires g != 0.0
    ensures OnGrid(r, g)
    ensures g > 0.0 ==> Mathf.Abs(r - c) <= g / 2.0
  {
    var k := Mathf.RoundToInt(c / g);
    SnapAxisNear(c, g, k);
    GridLine(k, g)
  }

  /** The rounding error of `c / g`, at most one half, scales to at most half a cell. */
  lemma SnapAxisNear(c: real, g: real, k: int)
    requires g != 0.0
    requires Mathf.Abs(c / g - k as real) <= 0.5
    ensures g > 0.0 ==> Mathf.Abs((k as real) * g - c) <= g / 2.0
  {
    if g < 0.0 { return; }
    var q := c / g;
    assert c == q * g;
    assert (k as real) * g - c == ((k as real) - q) * g;
    if (k as real) >= q {
      assert ((k as real) - q) * g <= 0.5 * g;
    } else {
      assert (q - (k as real)) * g <= 0.5 * g;
    }
  }

  /**
   * `GridPos(pos, gridSizeX, gridSizeY, gridSizeZ)`: every component of the result
   * is a multiple of its cell size; for a positive cell it lies within half a
   * cell of the input component, and for a zero cell it is 0.
   */
  function GridPos(pos: Vec3, gx: real, gy: real, gz: real): (r: Vec3)
    ensures OnGrid3(r, gx, gy, gz)
    ensures gx > 0.0 ==> Mathf.Abs(r.x - pos.x) <= gx / 2.0
    ensures gy > 0.0 ==> Mathf.Abs(r.y - pos.y) <= gy / 2.0
    ensures gz > 0.0 ==> Mathf.Abs(r.z - pos.z) <= gz / 2.0
    ensures (gx == 0.0 ==> r.x == 0.0) && (gy == 0.0 ==> r.y == 0.0) && (gz == 0.0 ==> r.z == 0.0)
  {
    Vec3(SnapAxis(pos.x, gx), SnapAxis(pos.y, gy), SnapAxis(pos.z, gz))
  }

  /** `GridPos(pos, gridSize)`: the vector-cell overload, component by component. */
  function GridPosV(pos: Vec3, gridSize: Vec3): (r: Vec3)
    ensures OnGrid3(r, gridSize.x, gridSize.y, gridSize.z)
    ensures r.x == SnapAxis(pos.x, gridSize.x)
    ensures r.y == SnapAxis(pos.y, gridSize.y)
    ensures r.z == SnapAxis(pos.z, gridSize.z)
  {
    GridPos(pos, gridSize.x, gridSize.y, gridSize.z)
  }

  /** With the default cell sizes of 1, snapping rounds every component to an integer. */
  lemma GridPosDefaultRounds(pos: Vec3)
    ensures GridPos(pos, 1.0, 1.0, 1.0)
         == Vec3(Mathf.RoundToInt(pos.x) as real, Mathf.RoundToInt(pos.y) as real, Mathf.RoundToInt(pos.z) as real)
  {
    assert pos.x / 1.0 == pos.x && pos.y / 1.0 == pos.y && pos.z / 1.0 == pos.z;
  }

  /** Snapping a component that is already on the grid leaves it where it is. */
  lemma {:induction false} SnapAxisIdempotent(c: real, g: real)
    ensures SnapAxis(SnapAxis(c, g), g) == SnapAxis(c, g)
  {
    if g == 0.0 { return; }
    var k := Mathf.RoundToInt(c / g);
    var s := RoundedLine(c, g);
    assert s == (k as real) * g;
    MulDivCancel(s, k as real, g);
    Mathf.RoundToIntOfInt(k);
    assert Mathf.RoundToInt(s / g) == k;
    assert RoundedLine(s, g) == GridLine(k, g);
  }

  lemma MulDivCancel(s: real, a: real, g: real)
    requires g != 0.0 && s == a * g
    ensures s / g == a
  {
  }

  /** With exact arithmetic, snapping twice is snapping once. */
  lemma {:induction false} GridPosIdempotent(pos: Vec3, g: Vec3)
    ensures GridPosV(GridPosV(pos, g), g) == GridPosV(pos, g)
  {
    SnapAxisIdempotent(pos.x, g.x);
    SnapAxisIdempotent(pos.y, g.y);
    SnapAxisIdempotent(pos.z, g.z);
  }

  /**
   * A component exactly halfway between two grid lines goes to the even
   * multiple of the cell size.
   */
  lemma SnapAxisHalfwayEven(c: real, g: real)
    requires g != 0.0
    requires c / g - ((c / g).Floor as real) == 0.5
    ensures exists k: int :: Mathf.IsEven(k) && SnapAxis(c, g) == (k as real) * g
  {
    var q := c / g;
    var k := Mathf.RoundToInt(q);
    assert k == q.Floor || k == q.Floor + 1;
    assert Mathf.Abs(q - k as real) == 0.5;
    assert Mathf.IsEven(k) && SnapAxis(c, g) == GridLine(k, g);
  }

  /**
   * The scalar `GridPos(scalar, gridSize)`: `(int)(scalar / gridSize) * gridSize`,
   * which truncates toward zero instead of rounding, so the result never has a
   * larger magnitude than the input and keeps its sign. As with `SnapAxis`, a
   * zero cell gives 0 whatever integer the cast of the quotient yields.
   */
  function GridPosScalar(s: real, g: real): (r: real)
    ensures OnGrid(r, g)
    ensures Mathf.Abs(r) <= Mathf.Abs(s)
    ensures g != 0.0 ==> Mathf.Abs(s / g) - Mathf.Abs(r / g) < 1.0
    ensures r * s >= 0.0
    ensures g == 0.0 ==> r == 0.0
  {
    if g == 0.0 then OriginOnGrid(g); 0.0
    else
      var n := Mathf.Truncate(s / g);
      TruncateScales(s, g, n);
      GridLineCell(n, g);
      GridLine(n, g)
  }

  lemma TruncateScales(s: real, g: real, n: int)
    requires g != 0.0
    requires Mathf.Abs(n as real) <= Mathf.Abs(s / g)
    requires s / g >= 0.0 ==> n >= 0
    requires s / g <= 0.0 ==> n <= 0
    ensures Mathf.Abs((n as real) * g) <= Mathf.Abs(s)
    ensures ((n as real) * g) * s >= 0.0
  {
    var t := s / g;
    assert s == t * g;
    assert Mathf.Abs(s) == Mathf.Abs(t) * Mathf.Abs(g);
    assert Mathf.Abs((n as real) * g) == Mathf.Abs(n as real) * Mathf.Abs(g);
    MulMonotone(Mathf.Abs(n as real), Mathf.Abs(t), Mathf.Abs(g));
    assert ((n as real) * g) * s == ((n as real) * t) * (g * g);
    assert (n as real) * t >= 0.0;
  }

  lemma MulMonotone(a: real, b: real, c: real)
    requires a <= b && c >= 0.0
    ensures a * c <= b * c
  {
  }

  /** A value already on the grid is left where it is by the scalar `GridPos`. */
  lemma GridPosScalarKeepsGridLines(k: int, g: real)
    ensures GridPosScalar(GridLine(k, g), g) == GridLine(k, g)
  {
    if g == 0.0 { return; }
    GridLineCell(k, g);
  }

  /** Grid line `k` is `k` cells from the origin. */
  lemma GridLineCell(k: int, g: real)
    requires g != 0.0
    ensures GridLine(k, g) / g == k as real
  {
  }

  /** The scalar `GridPos` is idempotent: truncating a truncated value changes nothing. */
  lemma GridPosScalarIdempotent(s: real, g: real)
    ensures GridPosScalar(GridPosScalar(s, g), g) == GridPosScalar(s, g)
  {
    if g == 0.0 { return; }
    var n := Mathf.Truncate(s / g);
    assert GridPosScalar(s, g) == GridLine(n, g);
    GridPosScalarKeepsGridLines(n, g);
  }

  /**
   * `IntPos`: every component cast to `int`, that is truncated toward zero; each
   * result component is integral and no larger in magnitude than the input.
   */
  function IntPos(pos: Vec3): (r: Vec3)
    ensures Mathf.IsIntegral(r.x) && Mathf.IsIntegral(r.y) && Mathf.IsIntegral(r.z)
    ensures Mathf.Abs(r.x) <= Mathf.Abs(pos.x) < Mathf.Abs(r.x) + 1.0
    ensures Mathf.Abs(r.y) <= Mathf.Abs(pos.y) < Mathf.Abs(r.y) + 1.0
    ensures Mathf.Abs(r.z) <= Mathf.Abs(pos.z) < Mathf.Abs(r.z) + 1.0
    ensures (pos.x >= 0.0 ==> r.x >= 0.0) && (pos.x <= 0.0 ==> r.x <= 0.0)
    ensures (pos.y >= 0.0 ==> r.y >= 0.0) && (pos.y <= 0.0 ==> r.y <= 0.0)
    ensures (pos.z >= 0.0 ==> r.z >= 0.0) && (pos.z <= 0.0 ==> r.z <= 0.0)
  {
    Vec3(Mathf.Truncate(pos.x) as real, Mathf.Truncate(pos.y) as real, Mathf.Truncate(pos.z) as real)
  }

  /** A position whose components are all whole numbers is left unchanged by `IntPos`. */
  lemma IntPosKeepsIntegral(pos: Vec3)
    requires Mathf.IsIntegral(pos.x) && Mathf.IsIntegral(pos.y) && Mathf.IsIntegral(pos.z)
    ensures IntPos(pos) == pos
  {
  }

  /** `IntPos` is idempotent. */
  lemma IntPosIdempotent(pos: Vec3)
    ensures IntPos(IntPos(pos)) == IntPos(pos)
  {
    IntPosKeepsIntegral(IntPos(pos));
  }
}

=== FILE: go_painter.dfy ===
/**
 * `GOPainter`: the editor tool's state and its scene-event handler. Hotkeys
 * switch tools and axes, the mouse paints, erases and drags layouts, the
 * scroll wheel adjusts the brush, the padding, the sweep and the canvas
 * height, and every stroke is recorded on an undo stack.
 *
 * Hit tests against the scene are not modelled: what a click or a brush
 * stroke hits arrives with the event (`Painted`, `BrushErased`,
 * `CursorDeleted`, the selection of a mass delete, the products standing
 * on occupied cells).
 */
module GOPainter {
  import opened Vectors
  import opened Scene
  import opened PainterControls
  import Extensions
  import Mathf
  import PA = PaintAction
  import OF = ObjectFactory

  datatype Painter = Painter(
    active: bool,
    mode: OperationMode,
    previousMode: OperationMode,
    canvasAxis: CanvasAxis,
    alignAxis: AlignAxis,
    alignWithStroke: bool,
    alignWithSurface: bool,
    rotationDelta: Vec3,          // currentRotationDelta
    rotationStep: int,
    holdingScale: Vec3,           // the holding object's localScale
    currentScale: Vec3,
    snapToGrid: bool,
    dynamicGrid: bool,
    gridSize: Vec3,
    fillRect: bool,
    hideCanvas: bool,
    isDragging: bool,
    cursorHasNoSurface: bool,
    paintCollection: seq<ObjId>,
    history: seq<PA.Action>,      // the undo stack, top last
    brushRadius: real,
    padding: real,
    degrees: real,                // the circle factory's sweep
    canvasPosition: Vec3,         // canvasPositionX, Y and Z
    paintCanvasSize: int,
    preventCanvasBelow0: bool,
    factory: OF.Factory)          // objectFactory, shared by the layout tools

  // ---- Scale mode ----

  /** Where submitting or leaving scale mode goes: the previous mode, or Freehand if that is the current mode. */
  function ReturnMode(p: Painter): (r: OperationMode)
    ensures r == p.previousMode || r == Freehand
    ensures r == p.mode ==> r == Freehand
  {
    if p.previousMode != p.mode then p.previousMode else Freehand
  }

  /** Key S outside scale mode: the mode and the holding object's scale are remembered, and scale mode starts. */
  function EnterScale(p: Painter): (r: Painter)
    ensures r.mode == Scale && r.previousMode == p.mode && r.currentScale == p.holdingScale
    ensures r.holdingScale == p.holdingScale && r.history == p.history
  {
    p.(previousMode := p.mode, currentScale := p.holdingScale, mode := Scale)
  }

  /** `SubmitScaleMode`: the held scale becomes the current scale and scale mode is left for the previous mode. */
  function SubmitScale(p: Painter): (r: Painter)
    ensures r.currentScale == p.holdingScale && r.holdingScale == p.holdingScale
    ensures p.mode == Scale ==> r.mode != Scale && (p.previousMode != Scale ==> r.mode == p.previousMode)
    ensures p.mode == Scale && p.previousMode == Scale ==> r.mode == Freehand
  {
    p.(currentScale := p.holdingScale, mode := ReturnMode(p))
  }

  /**
   * `CancelScaleMode`: the holding object goes back to the remembered scale;
   * with `leave` scale mode is left as on submit, otherwise it stays.
   */
  function CancelScale(p: Painter, leave: bool): (r: Painter)
    ensures r.holdingScale == p.currentScale && r.currentScale == p.currentScale
    ensures leave && p.mode == Scale ==> r.mode != Scale && (p.previousMode != Scale ==> r.mode == p.previousMode)
    ensures !leave ==> r.mode == p.mode
    ensures r.history == p.history
  {
    var q := p.(holdingScale := p.currentScale);
    if leave then q.(mode := ReturnMode(p)) else q
  }

  /**
   * Scale mode round trip: after entering from another mode and rescaling
   * the holding object, submitting keeps the new scale and cancelling
   * restores the old one; both return to the mode scale mode was entered
   * from, while cancelling with Ctrl+Z restores the scale and stays.
   */
  lemma ScaleModeRoundTrip(p: Painter, drift: Vec3)
    requires p.mode != Scale
    ensures var q := EnterScale(p).(holdingScale := drift);
            && SubmitScale(q).mode == p.mode && SubmitScale(q).currentScale == drift
            && CancelScale(q, true).mode == p.mode && CancelScale(q, true).holdingScale == p.holdingScale
            && CancelScale(q, false).mode == Scale && CancelScale(q, false).holdingScale == p.holdingScale
  {
  }

  // ---- Tool keys ----

  /** Key Q: Freehand, remembering the mode it came from. */
  function SelectFreehand(p: Painter): (r: Painter)
    ensures r.mode == Freehand && r.previousMode == p.mode
    ensures r == p.(mode := Freehand, previousMode := p.mode)
  {
    p.(previousMode := p.mode, mode := Freehand)
  }

  /**
   * Keys W, E and R: a layout tool, remembering the mode it came from; the
   * rotation delta and the factory's extra Euler angles are cleared, and E
   * pressed in Rect mode toggles filling.
   */
  function SelectLayoutTool(p: Painter, tool: OperationMode): (r: Painter)
    requires tool == Line || tool == Rect || tool == Circle
    ensures r.mode == tool && r.previousMode == p.mode
    ensures r.rotationDelta == Zero && r.factory == p.factory.(objectEuler := Zero)
    ensures r.fillRect == (if tool == Rect && p.mode == Rect then !p.fillRect else p.fillRect)
    ensures r.currentScale == p.currentScale && r.holdingScale == p.holdingScale && r.history == p.history
  {
    var fill := if tool == Rect && p.mode == Rect then !p.fillRect else p.fillRect;
    p.(fillRect := fill, rotationDelta := Zero, factory := p.factory.(objectEuler := Zero),
       previousMode := p.mode, mode := tool)
  }

  /**
   * A tool key pressed in scale mode leaves it without submitting or
   * cancelling: the holding object keeps its new scale while the scale
   * handed to the layout tools stays the old one.
   */
  lemma ToolKeyLeavesScaleUnsettled(p: Painter, tool: OperationMode)
    requires p.mode == Scale && (tool == Line || tool == Rect || tool == Circle)
    ensures var r := SelectLayoutTool(p, tool);
            r.mode == tool && r.previousMode == Scale && r.holdingScale == p.holdingScale && r.currentScale == p.currentScale
    ensures var r := SelectFreehand(p);
            r.mode == Freehand && r.holdingScale == p.holdingScale && r.currentScale == p.currentScale
  {
  }

  /** E from another tool selects Rect without touching fill; each further E toggles fill. */
  lemma RectKeyTogglesFill(p: Painter)
    requires p.mode != Rect
    ensures SelectLayoutTool(p, Rect).fillRect == p.fillRect
    ensures SelectLayoutTool(SelectLayoutTool(p, Rect), Rect).fillRect == !p.fillRect
    ensures SelectLayoutTool(SelectLayoutTool(SelectLayoutTool(p, Rect), Rect), Rect).fillRect == p.fillRect
  {
  }

  // ---- Axis and alignment keys ----

  /** Space: the next canvas axis; the rotation delta about the axis being left is cleared and the canvas is shown. */
  function CycleCanvasAxis(p: Painter): (r: Painter)
    ensures r.canvasAxis == NextCanvasAxis(p.canvasAxis) && !r.hideCanvas
    ensures Component(r.rotationDelta, p.canvasAxis) == 0.0
    ensures forall b | b != p.canvasAxis :: Component(r.rotationDelta, b) == Component(p.rotationDelta, b)
    ensures r == p.(canvasAxis := r.canvasAxis, rotationDelta := r.rotationDelta, hideCanvas := false)
  {
    p.(canvasAxis := NextCanvasAxis(p.canvasAxis),
       rotationDelta := WithComponent(p.rotationDelta, p.canvasAxis, 0.0),
       hideCanvas := false)
  }

  /** Three presses of Space bring the axis back with the whole rotation delta cleared. */
  lemma SpaceCycle(p: Painter)
    ensures var r := CycleCanvasAxis(CycleCanvasAxis(CycleCanvasAxis(p)));
            && r.canvasAxis == p.canvasAxis && r.rotationDelta == Zero
            && r == p.(rotationDelta := Zero, hideCanvas := false)
  {
    var a := p.canvasAxis;
    CanvasAxisCycle(a);
    var r := CycleCanvasAxis(CycleCanvasAxis(CycleCanvasAxis(p)));
    assert Component(r.rotationDelta, X) == 0.0 && Component(r.rotationDelta, Y) == 0.0 && Component(r.rotationDelta, Z) == 0.0;
  }

  /** Key A: the rotation delta is cleared and the alignment advances none, stroke, surface. */
  function CycleAlignment(p: Painter): (r: Painter)
    ensures r.rotationDelta == Zero
    ensures !(r.alignWithStroke && r.alignWithSurface)
    ensures AlignmentOf(r.alignWithStroke, r.alignWithSurface) == NextAlignment(AlignmentOf(p.alignWithStroke, p.alignWithSurface))
    ensures r == p.(alignWithStroke := r.alignWithStroke, alignWithSurface := r.alignWithSurface, rotationDelta := Zero)
  {
    var (stroke, surface) := ToggleAlignment(p.alignWithStroke, p.alignWithSurface);
    p.(rotationDelta := Zero, alignWithStroke := stroke, alignWithSurface := surface)
  }

  /** Key D: dynamic grid toggles; switching it off resets the grid to unit cells and truncates the canvas position onto it. */
  function ToggleDynamicGrid(p: Painter, fittedGrid: Vec3): (r: Painter)
    ensures r.dynamicGrid == !p.dynamicGrid
    ensures r.dynamicGrid ==> r.gridSize == fittedGrid && r.canvasPosition == p.canvasPosition
    ensures !r.dynamicGrid ==>
              && r.gridSize == One
              && Extensions.OnGrid(Component(r.canvasPosition, p.canvasAxis), 1.0)
              && Mathf.Abs(Component(r.canvasPosition, p.canvasAxis)) <= Mathf.Abs(Component(p.canvasPosition, p.canvasAxis))
              && forall b | b != p.canvasAxis :: Component(r.canvasPosition, b) == Component(p.canvasPosition, b)
    ensures r == p.(dynamicGrid := r.dynamicGrid, gridSize := r.gridSize, canvasPosition := r.canvasPosition)
  {
    if p.dynamicGrid then
      var c := Component(p.canvasPosition, p.canvasAxis);
      var snapped := Extensions.GridPosScalar(c, 1.0);
      p.(dynamicGrid := false, gridSize := One, canvasPosition := WithComponent(p.canvasPosition, p.canvasAxis, snapped))
    else p.(dynamicGrid := true, gridSize := fittedGrid)
  }

  // ---- Scroll wheel ----

  /**
   * Scroll without Shift: with Alt the rotation delta about the canvas axis
   * moves by one rotation step; with Ctrl the brush radius moves by one;
   * while dragging the padding moves by one step; otherwise nothing.
   */
  function MouseScroll(p: Painter, deltaY: real, alt: bool, control: bool): (r: Painter)
    ensures alt ==>
              && Component(r.rotationDelta, p.canvasAxis) == Component(p.rotationDelta, p.canvasAxis) + (p.rotationStep as real) * ScrollSign(deltaY)
              && (forall b | b != p.canvasAxis :: Component(r.rotationDelta, b) == Component(p.rotationDelta, b))
              && r == p.(rotationDelta := r.rotationDelta)
    ensures !alt && control ==> r == p.(brushRadius := ScrollBrush(p.brushRadius, deltaY))
    ensures !alt && !control && p.isDragging ==>
              r == p.(padding := ScrollPadding(p.padding, deltaY, p.snapToGrid, Component(p.gridSize, p.canvasAxis)))
    ensures !alt && !control && !p.isDragging ==> r == p
  {
    if alt then
      var c := Component(p.rotationDelta, p.canvasAxis);
      p.(rotationDelta := WithComponent(p.rotationDelta, p.canvasAxis, c + (p.rotationStep as real) * ScrollSign(deltaY)))
    else if control then p.(brushRadius := ScrollBrush(p.brushRadius, deltaY))
    else if p.isDragging then p.(padding := ScrollPadding(p.padding, deltaY, p.snapToGrid, Component(p.gridSize, p.canvasAxis)))
    else p
  }

  /** Shift+scroll: the sweep in Circle mode, otherwise the canvas position along the canvas axis. */
  function ShiftScroll(p: Painter, deltaY: real): (r: Painter)
    ensures p.mode == Circle ==> r == p.(degrees := ScrollDegrees(p.degrees, deltaY))
    ensures p.mode != Circle ==>
              && Component(r.canvasPosition, p.canvasAxis)
                 == ShiftCanvas(Component(p.canvasPosition, p.canvasAxis), deltaY, Component(p.gridSize, p.canvasAxis),
                                p.paintCanvasSize, p.preventCanvasBelow0 && p.canvasAxis == Y)
              && (forall b | b != p.canvasAxis :: Component(r.canvasPosition, b) == Component(p.canvasPosition, b))
              && r == p.(canvasPosition := r.canvasPosition)
  {
    if p.mode == Circle then p.(degrees := ScrollDegrees(p.degrees, deltaY))
    else
      var a := p.canvasAxis;
      var moved := ShiftCanvas(Component(p.canvasPosition, a), deltaY, Component(p.gridSize, a),
                               p.paintCanvasSize, p.preventCanvasBelow0 && a == Y);
      p.(canvasPosition := WithComponent(p.canvasPosition, a, moved))
  }

  // ---- History ----

  predicate HistoryAligned(h: seq<PA.Action>) {
    forall i | 0 <= i < |h| :: PA.Aligned(h[i])
  }

  /** The kind a Freehand stroke is recorded as: a removal when Ctrl is held at release, an addition otherwise. */
  function StrokeKind(control: bool): (k: PA.ActionType)
    ensures k == PA.Removed <==> control
  {
    if control then PA.Removed else PA.Added
  }

  /**
   * Releasing the left button in Freehand mode: a non-empty paint collection
   * becomes one undo entry, captured from the current scene, and is cleared;
   * otherwise nothing changes.
   */
  function PushStroke(p: Painter, w: World, control: bool): (r: Painter)
    ensures p.mode == Freehand && |p.paintCollection| > 0 ==>
              && r.history == p.history + [PA.Capture(w, p.paintCollection, StrokeKind(control))]
              && r.paintCollection == []
              && r == p.(history := r.history, paintCollection := [])
    ensures !(p.mode == Freehand && |p.paintCollection| > 0) ==> r == p
    ensures HistoryAligned(p.history) ==> HistoryAligned(r.history)
  {
    if p.mode == Freehand && |p.paintCollection| > 0 then
      p.(history := p.history + [PA.Capture(w, p.paintCollection, StrokeKind(control))], paintCollection := [])
    else p
  }

  /** Ctrl+Z outside scale mode: the top entry, if any, is popped and undone; the rest of the stack is kept. */
  function UndoLast(p: Painter, w: World): (r: (Painter, World))
    requires HistoryAligned(p.history)
    ensures |p.history| == 0 ==> r == (p, w)
    ensures |p.history| > 0 ==>
              && r.0.history + [p.history[|p.history| - 1]] == p.history
              && r.0.history == p.history[..|p.history| - 1]
              && r.1 == PA.Undo(p.history[|p.history| - 1], w)
              && r.0 == p.(history := r.0.history)
    ensures HistoryAligned(r.0.history)
    ensures w.Valid() ==> r.1.Valid()
  {
    if |p.history| == 0 then (p, w)
    else
      var n := |p.history|;
      (p.(history := p.history[..n - 1]), PA.Undo(p.history[n - 1], w))
  }

  /** A placed holding object joins the paint collection. */
  function Painted(p: Painter, id: ObjId): (r: Painter)
    ensures r.paintCollection == p.paintCollection + [id]
    ensures r == p.(paintCollection := r.paintCollection)
  {
    p.(paintCollection := p.paintCollection + [id])
  }

  /** A brush-erase stroke: every object under the brush is deactivated and joins the paint collection. */
  function BrushErased(p: Painter, w: World, hits: seq<ObjId>): (r: (Painter, World))
    ensures r.0 == p.(paintCollection := p.paintCollection + hits)
    ensures r.1.objects.Keys == w.objects.Keys && r.1.nextId == w.nextId
    ensures forall id | id in w.objects :: r.1.objects[id] == if id in hits then w.objects[id].(active := false) else w.objects[id]
  {
    (p.(paintCollection := p.paintCollection + hits), SetActiveAll(w, hits, false))
  }

  /** Ctrl+click on an object: it is deactivated and recorded on its own as a removal. */
  function CursorDeleted(p: Painter, w: World, target: ObjId): (r: (Painter, World))
    requires target in w.objects
    ensures r.1 == Put(w, target, w.objects[target].(active := false))
    ensures r.0 == p.(history := p.history + [PA.FromObject(r.1, target, PA.Removed)])
    ensures HistoryAligned(p.history) ==> HistoryAligned(r.0.history)
  {
    var w' := Put(w, target, w.objects[target].(active := false));
    (p.(history := p.history + [PA.FromObject(w', target, PA.Removed)]), w')
  }

  /**
   * Erase then undo: a brush stroke over active objects, released with Ctrl
   * held, and undone with Ctrl+Z leaves the scene and the history as they
   * were.
   */
  lemma EraseStrokeUndoRestores(p: Painter, w: World, hits: seq<ObjId>)
    requires p.mode == Freehand && p.paintCollection == [] && |hits| > 0 && HistoryAligned(p.history)
    requires forall i | 0 <= i < |hits| :: hits[i] in w.objects && w.objects[hits[i]].active
    ensures var (p1, w1) := BrushErased(p, w, hits);
            var p2 := PushStroke(p1, w1, true);
            var (p3, w3) := UndoLast(p2, w1);
            p3.history == p.history && p3.paintCollection == [] && w3.objects == w.objects
  {
    var (p1, w1) := BrushErased(p, w, hits);
    var a := PA.Capture(w1, hits, PA.Removed);
    assert p1.paintCollection == hits;
    assert PushStroke(p1, w1, true).history == p.history + [a];
    ErasedUndoRestores(w, hits);
  }

  /** Undoing the removal captured right after deactivating active objects gives back the scene before. */
  lemma ErasedUndoRestores(w: World, hits: seq<ObjId>)
    requires forall i | 0 <= i < |hits| :: hits[i] in w.objects && w.objects[hits[i]].active
    ensures var w1 := SetActiveAll(w, hits, false);
            PA.Undo(PA.Capture(w1, hits, PA.Removed), w1).objects == w.objects
  {
    var w1 := SetActiveAll(w, hits, false);
    var a := PA.Capture(w1, hits, PA.Removed);
    PA.UndoRemovedRestoresCapture(a, w1, w1);
    var w3 := PA.Undo(a, w1);
    forall id | id in w.objects
      ensures w3.objects[id] == w.objects[id]
    {
      if id in hits {
        assert id in a.objects;
      }
    }
  }

  /**
   * The recorded kind follows Ctrl at release, not what the stroke did: an
   * erase stroke released after letting go of Ctrl is recorded as an
   * addition, and undoing it destroys the erased objects.
   */
  lemma EraseReleasedWithoutCtrlIsDestroyedOnUndo(p: Painter, w: World, hits: seq<ObjId>)
    requires p.mode == Freehand && p.paintCollection == [] && |hits| > 0 && HistoryAligned(p.history)
    requires forall i | 0 <= i < |hits| :: hits[i] in w.objects
    ensures var (p1, w1) := BrushErased(p, w, hits);
            var p2 := PushStroke(p1, w1, false);
            var (p3, w3) := UndoLast(p2, w1);
            forall i | 0 <= i < |hits| :: hits[i] !in w3.objects
  {
    var (p1, w1) := BrushErased(p, w, hits);
    assert p1.paintCollection == hits;
    var p2 := PushStroke(p1, w1, false);
    assert p2.history[|p2.history| - 1] == PA.Capture(w1, hits, PA.Added);
  }

  // ---- Drag tools ----

  /**
   * Products that would stand on occupied cells, and inactive ones, are
   * destroyed when a snapped, stroke-unaligned layout is released;
   * `blocked` stands for the collision test.
   */
  function DestroyBlocked(f: OF.Factory, w: World, blocked: set<ObjId>): (r: World)
    ensures r.nextId == w.nextId && r.objects.Keys <= w.objects.Keys
    ensures forall id | id in w.objects ::
              id !in r.objects <==> id in OF.List(f) && (!w.objects[id].active || id in blocked)
    ensures forall id | id in r.objects :: r.objects[id] == w.objects[id]
    ensures r.Valid() <== w.Valid()
  {
    World(map id | id in w.objects && !(id in OF.List(f) && (!w.objects[id].active || id in blocked)) :: w.objects[id], w.nextId)
  }

  /**
   * Releasing a Line, Rect or Circle drag. With Ctrl the selection is
   * recorded as a removal (if not empty) and deactivated. Otherwise, if the
   * factory holds products, the blocked ones are destroyed (only when
   * snapping and not aligning with the stroke), the active survivors are
   * recorded as one addition, and the factory is released so that they
   * stay in the scene.
   */
  function ReleaseMassTools(p: Painter, w: World, control: bool, selection: seq<ObjId>, blocked: set<ObjId>): (r: (Painter, World))
    ensures control ==>
              && r.0.history == p.history + (if |selection| > 0 then [PA.Capture(w, selection, PA.Removed)] else [])
              && r.1 == SetActiveAll(w, selection, false)
              && r.0 == p.(history := r.0.history)
    ensures !control && OF.IsEmpty(p.factory) ==> r == (p, w)
    ensures !control && !OF.IsEmpty(p.factory) ==>
              && r.1 == (if p.snapToGrid && !p.alignWithStroke then DestroyBlocked(p.factory, w, blocked) else w)
              && r.0.history == p.history + [PA.Capture(r.1, OF.GetActiveProducts(p.factory, r.1), PA.Added)]
              && r.0.factory == OF.Release(p.factory)
              && r.0 == p.(history := r.0.history, factory := r.0.factory)
    ensures HistoryAligned(p.history) ==> HistoryAligned(r.0.history)
    ensures w.Valid() ==> r.1.Valid()
  {
    if control then
      var h := if |selection| > 0 then p.history + [PA.Capture(w, selection, PA.Removed)] else p.history;
      (p.(history := h), SetActiveAll(w, selection, false))
    else if !OF.IsEmpty(p.factory) then
      var w1 := if p.snapToGrid && !p.alignWithStroke then DestroyBlocked(p.factory, w, blocked) else w;
      var a := PA.Capture(w1, OF.GetActiveProducts(p.factory, w1), PA.Added);
      (p.(history := p.history + [a], factory := OF.Release(p.factory)), w1)
    else (p, w)
  }

  /** Undoing a released layout destroys exactly its surviving active products; the rest of the scene stays. */
  lemma MassReleaseUndo(p: Painter, w: World, blocked: set<ObjId>)
    requires !OF.IsEmpty(p.factory) && HistoryAligned(p.history)
    ensures var (p1, w1) := ReleaseMassTools(p, w, false, [], blocked);
            var (p2, w2) := UndoLast(p1, w1);
            && p2.history == p.history
            && OF.IsEmpty(p1.factory)
            && forall id :: id in w2.objects <==>
                 id in w1.objects && !(id in OF.List(p.factory) && w1.objects[id].active)
  {
    var (p1, w1) := ReleaseMassTools(p, w, false, [], blocked);
    assert p1.history[..|p1.history| - 1] == p.history;
  }

  /** `CancelDragging`: dragging stops and every product of the layout is destroyed. */
  function CancelDragging(p: Painter, w: World): (r: (Painter, World))
    ensures !r.0.isDragging && OF.IsEmpty(r.0.factory)
    ensures r.0 == p.(isDragging := false, factory := r.0.factory)
    ensures r.1 == OF.DestroyAll(p.factory, w).1
    ensures w.Valid() ==> r.1.Valid()
  {
    var (f, w') := OF.DestroyAll(p.factory, w);
    (p.(isDragging := false, factory := f), w')
  }

  /** `OnDeactivation`, as far as this state goes: the factory is released, dragging stops and the tool is inactive. */
  function Deactivate(p: Painter): (r: Painter)
    ensures !r.active && !r.isDragging && r.factory == OF.Release(p.factory)
    ensures r == p.(active := false, isDragging := false, factory := r.factory)
  {
    p.(factory := OF.Release(p.factory), isDragging := false, active := false)
  }

  // ---- Events ----

  datatype Key = KeyZ | KeyS | KeyA | KeyX | KeyG | KeyQ | KeyW | KeyE | KeyR
               | KeyD(fittedGrid: Vec3)   // the grid fitted to the holding object's bounds
               | KeySpace | KeyEscape | OtherKey

  datatype Event =
    | LeftMouseDrag(alt: bool, onPlane: bool)
    | LeftMouseUp(control: bool, selection: seq<ObjId>, blocked: set<ObjId>)
    | LeftMouseDown
    | RightMouseUp
    | MouseMove(hit: bool, scale: Vec3)        // `scale`: the holding object's scale after a scale-mode move
    | ScrollWheel(deltaY: real, shift: bool, alt: bool, control: bool)
    | KeyDown(key: Key, control: bool, rightDown: bool)
    | Placed(id: ObjId)                        // a Freehand click or drag placed the holding object
    | Erased(hits: seq<ObjId>)                 // a Freehand brush-erase drag hit these objects
    | Deleted(target: ObjId)                   // a Freehand Ctrl+click hit this object

  /** What an event needs to be meaningful: the objects it names are alive. */
  predicate EventOk(w: World, e: Event) {
    match e
    case Erased(hits) => forall i | 0 <= i < |hits| :: hits[i] in w.objects
    case Deleted(target) => target in w.objects
    case _ => true
  }

  /**
   * A fitted grid is a bounds size, so no cell is negative; a flat object
   * gives a zero cell, which snapping maps to 0.
   */
  predicate FittedCells(g: Vec3) {
    g.x >= 0.0 && g.y >= 0.0 && g.z >= 0.0
  }

  /** The cells a key press may bring in: only `D` fits the grid to the holding object. */
  predicate KeyCells(key: Key) {
    key.KeyD? ==> FittedCells(key.fittedGrid)
  }

  /** The keyboard branch of the handler; keys guarded by the right button fall through to the prefab keys, which ignore letters. */
  function HandleKey(p: Painter, w: World, key: Key, control: bool, rightDown: bool): (r: (Painter, World))
    requires HistoryAligned(p.history)
    ensures !(key.KeyZ? && control) && !key.KeyEscape? ==> r.1 == w
    ensures key.OtherKey? ==> r == (p, w)
    ensures rightDown && (key.KeyS? || key.KeyA? || key.KeyQ? || key.KeyW? || key.KeyE? || key.KeyD?) ==> r == (p, w)
  {
    match key
    case KeyZ =>
      if control then (if p.mode == Scale then (CancelScale(p, false), w) else UndoLast(p, w))
      else (p.(hideCanvas := !p.hideCanvas), w)
    case KeyS =>
      if rightDown then (p, w)
      else if control then (Deactivate(p), w)
      else if p.mode != Scale then (EnterScale(p), w)
      else (SubmitScale(p), w)
    case KeyA => (if rightDown then p else CycleAlignment(p), w)
    case KeyX => (p.(alignAxis := NextAlignAxis(p.alignAxis)), w)
    case KeyG => (p.(snapToGrid := !p.snapToGrid), w)
    case KeyQ => (if rightDown then p else SelectFreehand(p), w)
    case KeyW => (if rightDown then p else SelectLayoutTool(p, Line), w)
    case KeyE => (if rightDown then p else SelectLayoutTool(p, Rect), w)
    case KeyR => (SelectLayoutTool(p, Circle), w)
    case KeyD(g) => (if rightDown then p else ToggleDynamicGrid(p, g), w)
    case KeySpace => (CycleCanvasAxis(p), w)
    case KeyEscape =>
      if p.isDragging then CancelDragging(p, w)
      else if p.mode == Scale then (CancelScale(p, true), w)
      else (Deactivate(p), w)
    case OtherKey => (p, w)
  }

  /** The mouse and stroke branches, before the closing "any mouse-up stops dragging". */
  function HandleMouse(p: Painter, w: World, e: Event): (r: (Painter, World))
    requires !e.KeyDown? && !e.ScrollWheel?
    requires EventOk(w, e)
    ensures e.LeftMouseDrag? || e.LeftMouseDown? || e.MouseMove? || e.Placed? ==> r.1 == w
    ensures e.LeftMouseUp? && p.cursorHasNoSurface ==> r == (p, w)
    ensures (e.Placed? || e.Erased? || e.Deleted?) && p.mode != Freehand ==> r == (p, w)
    ensures e.MouseMove? && p.isDragging ==> r == (p, w)
  {
    match e
    case LeftMouseDrag(alt, onPlane) =>
      (if !alt && !p.cursorHasNoSurface && onPlane then p.(isDragging := true) else p, w)
    case LeftMouseUp(control, selection, blocked) =>
      if p.cursorHasNoSurface then (p, w)
      else if p.mode == Freehand then (PushStroke(p, w, control), w)
      else if p.isDragging then ReleaseMassTools(p, w, control, selection, blocked)
      else (p, w)
    case LeftMouseDown =>
      (if !p.cursorHasNoSurface && p.mode == Scale then SubmitScale(p) else p, w)
    case RightMouseUp =>
      if p.isDragging then CancelDragging(p, w)
      else (if p.mode == Scale then CancelScale(p, true) else p, w)
    case MouseMove(hit, scale) =>
      if p.isDragging then (p, w)
      else (p.(cursorHasNoSurface := !hit, holdingScale := if hit && p.mode == Scale then scale else p.holdingScale), w)
    case Placed(id) => (if p.mode == Freehand then Painted(p, id) else p, w)
    case Erased(hits) => if p.mode == Freehand then BrushErased(p, w, hits) else (p, w)
    case Deleted(target) => if p.mode == Freehand then CursorDeleted(p, w, target) else (p, w)
  }

  /** `HandleSceneEvents`: one event, dispatched in the handler's order; every mouse-up ends dragging. */
  function HandleSceneEvent(p: Painter, w: World, e: Event): (r: (Painter, World))
    requires HistoryAligned(p.history) && EventOk(w, e)
    ensures (e.LeftMouseUp? || e.RightMouseUp?) ==> !r.0.isDragging
  {
    match e
    case KeyDown(key, control, rightDown) => HandleKey(p, w, key, control, rightDown)
    case ScrollWheel(deltaY, shift, alt, control) =>
      (if shift then ShiftScroll(p, deltaY) else MouseScroll(p, deltaY, alt, control), w)
    case _ =>
      var (p1, w1) := HandleMouse(p, w, e);
      if e.LeftMouseUp? || e.RightMouseUp? then (p1.(isDragging := false), w1) else (p1, w1)
  }

  /** Ctrl+Z outside scale mode undoes the top entry: the stack loses exactly that entry and the scene is the entry's undo. */
  lemma CtrlZPopsOne(p: Painter, w: World, rightDown: bool)
    requires HistoryAligned(p.history) && p.mode != Scale
    ensures var r := HandleSceneEvent(p, w, KeyDown(KeyZ, true, rightDown));
            && (|p.history| == 0 ==> r == (p, w))
            && (|p.history| > 0 ==>
                  && r.0.history == p.history[..|p.history| - 1]
                  && r.1 == PA.Undo(p.history[|p.history| - 1], w))
  {
  }

  /** Ctrl+Z in scale mode only restores the scale: the stack and the scene are untouched and the mode stays. */
  lemma CtrlZInScaleKeepsHistory(p: Painter, w: World, rightDown: bool)
    requires HistoryAligned(p.history) && p.mode == Scale
    ensures var r := HandleSceneEvent(p, w, KeyDown(KeyZ, true, rightDown));
            r.0.history == p.history && r.1 == w && r.0.mode == Scale && r.0.holdingScale == p.currentScale
  {
  }

  /** `h` keeps every entry of `h0` and adds at most one on top. */
  predicate Grows(h0: seq<PA.Action>, h: seq<PA.Action>) {
    |h0| <= |h| <= |h0| + 1 && h[..|h0|] == h0
  }

  lemma GrowsByAppend(h0: seq<PA.Action>, extra: seq<PA.Action>)
    requires |extra| <= 1
    ensures Grows(h0, h0 + extra)
  {
    assert (h0 + extra)[..|h0|] == h0;
  }

  lemma GrowsSame(h0: seq<PA.Action>)
    ensures Grows(h0, h0)
  {
    assert h0[..|h0|] == h0;
  }

  lemma FlagKeysKeepHistory(p: Painter, w: World, key: Key, control: bool, rightDown: bool)
    requires HistoryAligned(p.history)
    requires key == KeyA || key == KeyX || key == KeyG || key == KeySpace || key == OtherKey || key.KeyD?
    ensures HandleKey(p, w, key, control, rightDown).0.history == p.history
  {
  }

  lemma ModeKeysKeepHistory(p: Painter, w: World, key: Key, control: bool, rightDown: bool)
    requires HistoryAligned(p.history)
    requires key == KeyQ || key == KeyW || key == KeyE || key == KeyR || key == KeyS || key == KeyEscape
             || (key == KeyZ && !(control && p.mode != Scale))
    ensures HandleKey(p, w, key, control, rightDown).0.history == p.history
  {
  }

  lemma KeyHistory(p: Painter, w: World, key: Key, control: bool, rightDown: bool)
    requires HistoryAligned(p.history)
    ensures var h := HandleKey(p, w, key, control, rightDown).0.history;
            || Grows(p.history, h)
            || (key == KeyZ && control && p.mode != Scale && |p.history| > 0 && h == p.history[..|p.history| - 1])
  {
    GrowsSame(p.history);
    match key
    case KeyZ =>
      if !(control && p.mode != Scale) {
        ModeKeysKeepHistory(p, w, key, control, rightDown);
      }
    case KeyQ => ModeKeysKeepHistory(p, w, key, control, rightDown);
    case KeyW => ModeKeysKeepHistory(p, w, key, control, rightDown);
    case KeyE => ModeKeysKeepHistory(p, w, key, control, rightDown);
    case KeyR => ModeKeysKeepHistory(p, w, key, control, rightDown);
    case KeyS => ModeKeysKeepHistory(p, w, key, control, rightDown);
    case KeyEscape => ModeKeysKeepHistory(p, w, key, control, rightDown);
    case _ => FlagKeysKeepHistory(p, w, key, control, rightDown);
  }

  lemma ReleaseGrows(p: Painter, w: World, control: bool, selection: seq<ObjId>, blocked: set<ObjId>)
    ensures Grows(p.history, ReleaseMassTools(p, w, control, selection, blocked).0.history)
    ensures ReleaseMassTools(p, w, control, selection, blocked).0.mode == p.mode
  {
    var (p1, w1) := ReleaseMassTools(p, w, control, selection, blocked);
    if control {
      GrowsByAppend(p.history, if |selection| > 0 then [PA.Capture(w, selection, PA.Removed)] else []);
    } else if !OF.IsEmpty(p.factory) {
      GrowsByAppend(p.history, [PA.Capture(w1, OF.GetActiveProducts(p.factory, w1), PA.Added)]);
    } else {
      GrowsSame(p.history);
    }
  }

  lemma PushGrows(p: Painter, w: World, control: bool)
    ensures Grows(p.history, PushStroke(p, w, control).history)
  {
    if p.mode == Freehand && |p.paintCollection| > 0 {
      GrowsByAppend(p.history, [PA.Capture(w, p.paintCollection, StrokeKind(control))]);
    } else {
      GrowsSame(p.history);
    }
  }

  lemma MouseUpHistory(p: Painter, w: World, e: Event)
    requires e.LeftMouseUp?
    ensures Grows(p.history, HandleMouse(p, w, e).0.history)
  {
    if p.cursorHasNoSurface {
      GrowsSame(p.history);
    } else if p.mode == Freehand {
      PushGrows(p, w, e.control);
    } else if p.isDragging {
      ReleaseGrows(p, w, e.control, e.selection, e.blocked);
    } else {
      GrowsSame(p.history);
    }
  }

  lemma DeletedGrows(p: Painter, w: World, target: ObjId)
    requires target in w.objects
    ensures Grows(p.history, CursorDeleted(p, w, target).0.history)
  {
    GrowsByAppend(p.history, [PA.FromObject(CursorDeleted(p, w, target).1, target, PA.Removed)]);
  }

  lemma MouseHistory(p: Painter, w: World, e: Event)
    requires !e.KeyDown? && !e.ScrollWheel? && EventOk(w, e)
    ensures Grows(p.history, HandleMouse(p, w, e).0.history)
  {
    match e
    case LeftMouseUp(control, selection, blocked) => MouseUpHistory(p, w, e);
    case Deleted(target) =>
      if p.mode == Freehand {
        DeletedGrows(p, w, target);
      } else {
        GrowsSame(p.history);
      }
    case RightMouseUp =>
      GrowsSame(p.history);
      if p.isDragging {
        assert CancelDragging(p, w).0.history == p.history;
      }
    case LeftMouseDrag(alt, onPlane) => GrowsSame(p.history);
    case LeftMouseDown => GrowsSame(p.history);
    case MouseMove(hit, scale) => GrowsSame(p.history);
    case Placed(id) => GrowsSame(p.history);
    case Erased(hits) => GrowsSame(p.history);
  }

  /**
   * The history is a stack: an event either keeps the old entries and adds
   * at most one on top, or it is Ctrl+Z outside scale mode and removes the
   * top entry.
   */
  lemma HistoryIsStack(p: Painter, w: World, e: Event)
    requires HistoryAligned(p.history) && EventOk(w, e)
    ensures var h := HandleSceneEvent(p, w, e).0.history;
            || Grows(p.history, h)
            || (e.KeyDown? && e.key == KeyZ && e.control && p.mode != Scale && |p.history| > 0 && h == p.history[..|p.history| - 1])
  {
    match e
    case KeyDown(key, control, rightDown) => KeyHistory(p, w, key, control, rightDown);
    case ScrollWheel(deltaY, shift, alt, control) =>
      if shift {
        ShiftScrollKeepsHistory(p, deltaY);
      } else {
        ScrollKeepsHistory(p, deltaY, alt, control);
      }
      GrowsSame(p.history);
    case _ =>
      MouseHistory(p, w, e);
  }

  lemma ScrollKeepsHistory(p: Painter, deltaY: real, alt: bool, control: bool)
    ensures MouseScroll(p, deltaY, alt, control).history == p.history
  {
  }

  lemma ShiftScrollKeepsHistory(p: Painter, deltaY: real)
    ensures ShiftScroll(p, deltaY).history == p.history
  {
    if p.mode != Circle {
      var q := ShiftScroll(p, deltaY);
      assert q == p.(canvasPosition := q.canvasPosition);
    }
  }

  /**
   * Scale mode through events: S from another mode, a mouse move that
   * rescales the holding object, and then Escape or a right click restores
   * the scale and returns to the mode S was pressed in, while a left click
   * keeps the new scale.
   */
  lemma ScaleModeByEvents(p: Painter, w: World, scale: Vec3)
    requires HistoryAligned(p.history) && p.mode != Scale && !p.isDragging
    ensures var (p1, w1) := HandleSceneEvent(p, w, KeyDown(KeyS, false, false));
            var (p2, w2) := HandleSceneEvent(p1, w1, MouseMove(true, scale));
            && p2.mode == Scale && p2.holdingScale == scale
            && HandleSceneEvent(p2, w2, KeyDown(KeyEscape, false, false)).0.mode == p.mode
            && HandleSceneEvent(p2, w2, KeyDown(KeyEscape, false, false)).0.holdingScale == p.holdingScale
            && HandleSceneEvent(p2, w2, RightMouseUp).0.mode == p.mode
            && HandleSceneEvent(p2, w2, RightMouseUp).0.holdingScale == p.holdingScale
            && HandleSceneEvent(p2, w2, LeftMouseDown).0.mode == p.mode
            && HandleSceneEvent(p2, w2, LeftMouseDown).0.currentScale == scale
  {
  }

  // ---- The invariant every event keeps ----

  /**
   * The ranges the handler keeps: brush radius in [0, 100], padding in
   * [0.25, 10], sweep in [0, 360], the canvas position inside the canvas,
   * exclusive alignment flags, a scale mode that remembers a mode outside
   * it, grid cells with no negative component, and undo entries with aligned
   * lists.
   */
  predicate Inv(p: Painter, w: World) {
    && w.Valid()
    && HistoryAligned(p.history)
    && 0.0 <= p.brushRadius <= MaxBrushRadius
    && MinPadding <= p.padding <= MaxPadding
    && 0.0 <= p.degrees <= FullSweep
    && p.paintCanvasSize >= 2
    && FittedCells(p.gridSize)
    && InCanvas(p.canvasPosition.x, p.paintCanvasSize)
    && InCanvas(p.canvasPosition.y, p.paintCanvasSize)
    && InCanvas(p.canvasPosition.z, p.paintCanvasSize)
    && !(p.alignWithStroke && p.alignWithSurface)
    && (p.mode == Scale ==> p.previousMode != Scale)
  }

  /** Every canvas coordinate is inside the canvas. */
  lemma InCanvasComponents(v: Vec3, size: int)
    requires InCanvas(v.x, size) && InCanvas(v.y, size) && InCanvas(v.z, size)
    ensures forall b :: InCanvas(Component(v, b), size)
  {
    forall b ensures InCanvas(Component(v, b), size) {
      match b
      case X =>
      case Y =>
      case Z =>
    }
  }

  /** Changing one coordinate to a value inside the canvas keeps the position inside. */
  lemma WithComponentInCanvas(v: Vec3, a: CanvasAxis, c: real, size: int)
    requires InCanvas(v.x, size) && InCanvas(v.y, size) && InCanvas(v.z, size) && InCanvas(c, size)
    ensures var u := WithComponent(v, a, c); InCanvas(u.x, size) && InCanvas(u.y, size) && InCanvas(u.z, size)
  {
  }

  lemma ShiftScrollKeepsInv(p: Painter, w: World, deltaY: real)
    requires Inv(p, w)
    ensures Inv(ShiftScroll(p, deltaY), w)
  {
    if p.mode != Circle {
      var a := p.canvasAxis;
      InCanvasComponents(p.canvasPosition, p.paintCanvasSize);
      assert Component(p.gridSize, a) >= 0.0;
      var moved := ShiftCanvas(Component(p.canvasPosition, a), deltaY, Component(p.gridSize, a),
                               p.paintCanvasSize, p.preventCanvasBelow0 && a == Y);
      ShiftCanvasStaysInside(Component(p.canvasPosition, a), deltaY, Component(p.gridSize, a),
                             p.paintCanvasSize, p.preventCanvasBelow0 && a == Y);
      WithComponentInCanvas(p.canvasPosition, a, moved, p.paintCanvasSize);
    }
  }

  lemma MouseScrollKeepsInv(p: Painter, w: World, deltaY: real, alt: bool, control: bool)
    requires Inv(p, w)
    ensures Inv(MouseScroll(p, deltaY, alt, control), w)
  {
  }

  /** Truncating onto the unit grid keeps a canvas coordinate inside the canvas. */
  lemma TruncateInCanvas(c: real, size: int)
    requires size >= 2 && InCanvas(c, size)
    ensures InCanvas(Extensions.GridPosScalar(c, 1.0), size)
  {
    var r := Extensions.GridPosScalar(c, 1.0);
    Mathf.CsDivNegate(size, 2);
    assert Mathf.CsDiv(size, 2) >= 1;
    if c >= 0.0 {
      assert r >= 0.0 || r == 0.0;
    }
  }

  lemma DynamicGridKeepsInv(p: Painter, w: World, g: Vec3)
    requires Inv(p, w) && FittedCells(g)
    ensures Inv(ToggleDynamicGrid(p, g), w)
  {
    if p.dynamicGrid {
      var a := p.canvasAxis;
      InCanvasComponents(p.canvasPosition, p.paintCanvasSize);
      var c := Component(p.canvasPosition, a);
      TruncateInCanvas(c, p.paintCanvasSize);
      WithComponentInCanvas(p.canvasPosition, a, Extensions.GridPosScalar(c, 1.0), p.paintCanvasSize);
    }
  }

  lemma FlagKeysKeepInv(p: Painter, w: World, key: Key, control: bool, rightDown: bool)
    requires Inv(p, w)
    requires key == KeyA || key == KeyX || key == KeyG || key == KeySpace || key == OtherKey
    ensures Inv(HandleKey(p, w, key, control, rightDown).0, HandleKey(p, w, key, control, rightDown).1)
  {
  }

  lemma ToolKeysKeepInv(p: Painter, w: World, key: Key, control: bool, rightDown: bool)
    requires Inv(p, w)
    requires key == KeyQ || key == KeyW || key == KeyE || key == KeyR
    ensures Inv(HandleKey(p, w, key, control, rightDown).0, HandleKey(p, w, key, control, rightDown).1)
  {
  }

  lemma UndoKeyKeepsInv(p: Painter, w: World, control: bool, rightDown: bool)
    requires Inv(p, w)
    ensures Inv(HandleKey(p, w, KeyZ, control, rightDown).0, HandleKey(p, w, KeyZ, control, rightDown).1)
  {
    if control && p.mode != Scale {
      UndoLastKeepsInv(p, w);
    } else if control {
      CancelScaleKeepsInv(p, w, false);
    }
  }

  lemma UndoLastKeepsInv(p: Painter, w: World)
    requires Inv(p, w)
    ensures Inv(UndoLast(p, w).0, UndoLast(p, w).1)
  {
    var r := UndoLast(p, w);
    assert r.0 == p.(history := r.0.history);
  }

  lemma EnterScaleKeepsInv(p: Painter, w: World)
    requires Inv(p, w) && p.mode != Scale
    ensures Inv(EnterScale(p), w)
  {
  }

  lemma LeaveScaleKeepsInv(p: Painter, w: World)
    requires Inv(p, w) && p.mode == Scale
    ensures Inv(SubmitScale(p), w)
  {
  }

  lemma CancelScaleKeepsInv(p: Painter, w: World, leave: bool)
    requires Inv(p, w) && (leave ==> p.mode == Scale)
    ensures Inv(CancelScale(p, leave), w)
  {
  }

  lemma DeactivateKeepsInv(p: Painter, w: World)
    requires Inv(p, w)
    ensures Inv(Deactivate(p), w)
  {
  }

  lemma ScaleKeyKeepsInv(p: Painter, w: World, control: bool, rightDown: bool)
    requires Inv(p, w)
    ensures Inv(HandleKey(p, w, KeyS, control, rightDown).0, HandleKey(p, w, KeyS, control, rightDown).1)
  {
    if rightDown {
    } else if control {
      DeactivateKeepsInv(p, w);
    } else if p.mode != Scale {
      EnterScaleKeepsInv(p, w);
    } else {
      LeaveScaleKeepsInv(p, w);
    }
  }

  lemma EscapeKeepsInv(p: Painter, w: World, control: bool, rightDown: bool)
    requires Inv(p, w)
    ensures Inv(HandleKey(p, w, KeyEscape, control, rightDown).0, HandleKey(p, w, KeyEscape, control, rightDown).1)
  {
    if p.isDragging {
      CancelDraggingKeepsInv(p, w);
    } else if p.mode == Scale {
      CancelScaleKeepsInv(p, w, true);
    } else {
      DeactivateKeepsInv(p, w);
    }
  }

  lemma KeyKeepsInv(p: Painter, w: World, key: Key, control: bool, rightDown: bool)
    requires Inv(p, w) && KeyCells(key)
    ensures Inv(HandleKey(p, w, key, control, rightDown).0, HandleKey(p, w, key, control, rightDown).1)
  {
    match key
    case KeyZ => UndoKeyKeepsInv(p, w, control, rightDown);
    case KeyS => ScaleKeyKeepsInv(p, w, control, rightDown);
    case KeyEscape => EscapeKeepsInv(p, w, control, rightDown);
    case KeyD(g) =>
      if !rightDown {
        DynamicGridKeepsInv(p, w, g);
      }
    case KeyQ => ToolKeysKeepInv(p, w, key, control, rightDown);
    case KeyW => ToolKeysKeepInv(p, w, key, control, rightDown);
    case KeyE => ToolKeysKeepInv(p, w, key, control, rightDown);
    case KeyR => ToolKeysKeepInv(p, w, key, control, rightDown);
    case _ => FlagKeysKeepInv(p, w, key, control, rightDown);
  }

  lemma ReleaseKeepsInv(p: Painter, w: World, control: bool, selection: seq<ObjId>, blocked: set<ObjId>)
    requires Inv(p, w)
    ensures Inv(ReleaseMassTools(p, w, control, selection, blocked).0, ReleaseMassTools(p, w, control, selection, blocked).1)
  {
  }

  lemma PushStrokeKeepsInv(p: Painter, w: World, control: bool)
    requires Inv(p, w)
    ensures Inv(PushStroke(p, w, control), w)
  {
  }

  lemma CancelDraggingKeepsInv(p: Painter, w: World)
    requires Inv(p, w)
    ensures Inv(CancelDragging(p, w).0, CancelDragging(p, w).1)
  {
  }

  lemma MouseUpKeepsInv(p: Painter, w: World, e: Event)
    requires Inv(p, w) && e.LeftMouseUp?
    ensures Inv(HandleMouse(p, w, e).0, HandleMouse(p, w, e).1)
  {
    if p.cursorHasNoSurface {
    } else if p.mode == Freehand {
      PushStrokeKeepsInv(p, w, e.control);
    } else if p.isDragging {
      ReleaseKeepsInv(p, w, e.control, e.selection, e.blocked);
    }
  }

  lemma PaintedKeepsInv(p: Painter, w: World, id: ObjId)
    requires Inv(p, w)
    ensures Inv(Painted(p, id), w)
  {
  }

  lemma BrushErasedKeepsInv(p: Painter, w: World, hits: seq<ObjId>)
    requires Inv(p, w)
    ensures Inv(BrushErased(p, w, hits).0, BrushErased(p, w, hits).1)
  {
    var r := BrushErased(p, w, hits);
    assert r.1.Valid();
  }

  lemma CursorDeletedKeepsInv(p: Painter, w: World, target: ObjId)
    requires Inv(p, w) && target in w.objects
    ensures Inv(CursorDeleted(p, w, target).0, CursorDeleted(p, w, target).1)
  {
    var r := CursorDeleted(p, w, target);
    assert r.0 == p.(history := r.0.history);
  }

  lemma StrokeOutcomeKeepsInv(p: Painter, w: World, e: Event)
    requires Inv(p, w) && EventOk(w, e) && (e.Placed? || e.Erased? || e.Deleted?)
    ensures Inv(HandleMouse(p, w, e).0, HandleMouse(p, w, e).1)
  {
    if p.mode != Freehand {
    } else if e.Placed? {
      PaintedKeepsInv(p, w, e.id);
    } else if e.Erased? {
      BrushErasedKeepsInv(p, w, e.hits);
    } else {
      CursorDeletedKeepsInv(p, w, e.target);
    }
  }

  lemma RightMouseUpKeepsInv(p: Painter, w: World)
    requires Inv(p, w)
    ensures Inv(HandleMouse(p, w, RightMouseUp).0, HandleMouse(p, w, RightMouseUp).1)
  {
    if p.isDragging {
      CancelDraggingKeepsInv(p, w);
    } else if p.mode == Scale {
      CancelScaleKeepsInv(p, w, true);
    }
  }

  lemma MouseKeepsInv(p: Painter, w: World, e: Event)
    requires Inv(p, w) && EventOk(w, e) && !e.KeyDown? && !e.ScrollWheel?
    ensures Inv(HandleMouse(p, w, e).0, HandleMouse(p, w, e).1)
  {
    match e
    case LeftMouseDrag(alt, onPlane) =>
    case LeftMouseUp(control, selection, blocked) => MouseUpKeepsInv(p, w, e);
    case LeftMouseDown =>
      if !p.cursorHasNoSurface && p.mode == Scale {
        LeaveScaleKeepsInv(p, w);
      }
    case RightMouseUp => RightMouseUpKeepsInv(p, w);
    case MouseMove(hit, scale) =>
    case Placed(id) => StrokeOutcomeKeepsInv(p, w, e);
    case Erased(hits) => StrokeOutcomeKeepsInv(p, w, e);
    case Deleted(target) => StrokeOutcomeKeepsInv(p, w, e);
  }

  /** Every event keeps the invariant. */
  lemma HandleKeepsInv(p: Painter, w: World, e: Event)
    requires Inv(p, w) && EventOk(w, e) && (e.KeyDown? ==> KeyCells(e.key))
    ensures Inv(HandleSceneEvent(p, w, e).0, HandleSceneEvent(p, w, e).1)
  {
    match e
    case KeyDown(key, control, rightDown) => KeyKeepsInv(p, w, key, control, rightDown);
    case ScrollWheel(deltaY, shift, alt, control) =>
      if shift {
        ShiftScrollKeepsInv(p, w, deltaY);
      } else {
        MouseScrollKeepsInv(p, w, deltaY, alt, control);
      }
    case _ =>
      MouseKeepsInv(p, w, e);
      var r := HandleMouse(p, w, e);
      DragStopKeepsInv(r.0, r.1);
  }

  lemma DragStopKeepsInv(p: Painter, w: World)
    requires Inv(p, w)
    ensures Inv(p.(isDragging := false), w)
  {
  }
}

=== FILE: go_switcher.dfy ===
/**
 * `GOSwitcher`: after every painted or produced object, switches the
 * painter to another of a configured list of paint-object ids, either at
 * random or in order.
 */
module GOSwitcher {
  import opened Wrappers
  import opened Scene
  import Mathf
  import OF = ObjectFactory

  datatype Mode = Randomly | Sequentially

  /** The switcher's configuration and its position in the id list. */
  datatype Switcher = Switcher(paintObjectIds: seq<int>, currentIndex: int, mode: Mode, enabled: bool)

  /** A new switcher: ids 0 to 3, random order. */
  const Initial: Switcher := Switcher([0, 1, 2, 3], 0, Randomly, true)

  /**
   * The sequential step: an index past the end resets to 0, any other
   * advances by one and wraps through C#'s truncating `%`. From an index
   * below -1 that remainder can be negative, and a negative result is an
   * index the array read rejects.
   */
  function NextSequentialIndex(current: int, len: int): (r: int)
    requires len > 0
    ensures -len < r < len
    ensures r >= 0 <==> current >= -1 || (current + 1) % len == 0
    ensures current >= len ==> r == 0
    ensures -1 <= current < len - 1 ==> r == current + 1
    ensures current == len - 1 ==> r == 0
  {
    if current >= len then 0 else Mathf.CsMod(current + 1, len)
  }

  /**
   * A pick does not throw: the id list is not empty (random mode reads the
   * first entry of an empty list, sequential mode divides by its length) and,
   * in sequential mode, the next index is not negative.
   */
  predicate CanPick(sw: Switcher) {
    |sw.paintObjectIds| > 0 && (sw.mode == Sequentially ==> NextSequentialIndex(sw.currentIndex, |sw.paintObjectIds|) >= 0)
  }

  /**
   * `CalculateNextIndex`: the switcher after the pick and the id to switch to,
   * or `None` where the source throws. `roll` stands for
   * `Random.Range(0, length)` and is only read in random mode.
   */
  function CalculateNextIndex(sw: Switcher, roll: int): (r: Option<(Switcher, int)>)
    requires sw.mode == Randomly && |sw.paintObjectIds| > 0 ==> 0 <= roll < |sw.paintObjectIds|
    ensures r.Some? <==> CanPick(sw)
    ensures r.Some? ==> r.value.1 in sw.paintObjectIds && r.value.0 == sw.(currentIndex := r.value.0.currentIndex)
    ensures r.Some? && sw.mode == Randomly ==> r.value == (sw, sw.paintObjectIds[roll])
    ensures r.Some? && sw.mode == Sequentially ==>
              && r.value.0.currentIndex == NextSequentialIndex(sw.currentIndex, |sw.paintObjectIds|)
              && r.value.1 == sw.paintObjectIds[r.value.0.currentIndex]
  {
    if |sw.paintObjectIds| == 0 then None
    else if sw.mode == Randomly then Some((sw, sw.paintObjectIds[roll]))
    else
      var i := NextSequentialIndex(sw.currentIndex, |sw.paintObjectIds|);
      if i < 0 then None else Some((sw.(currentIndex := i), sw.paintObjectIds[i]))
  }

  /** `Register` restarts the sequence (the event subscriptions are not modelled). */
  function Register(sw: Switcher): (r: Switcher)
    ensures r.currentIndex == 0
    ensures r == sw.(currentIndex := r.currentIndex)
  {
    sw.(currentIndex := 0)
  }

  /** After `Register` the first sequential pick is the id at position `1 % length`: the first id is skipped. */
  lemma RegisterThenPick(sw: Switcher, roll: int)
    requires sw.mode == Sequentially && |sw.paintObjectIds| > 0
    ensures var r := CalculateNextIndex(Register(sw), roll);
            r.Some? && r.value.1 == sw.paintObjectIds[1 % |sw.paintObjectIds|]
  {
    var len := |sw.paintObjectIds|;
    if len == 1 {
      assert 1 % len == 0;
    } else {
      assert 1 % len == 1;
    }
  }

  /** The switcher after `k` sequential picks. */
  function Picks(sw: Switcher, k: nat): (r: Switcher)
    requires CanPick(sw) && sw.mode == Sequentially
    ensures CanPick(r) && r.mode == Sequentially && r == sw.(currentIndex := r.currentIndex)
    decreases k
  {
    if k == 0 then sw
    else
      var prev := Picks(sw, k - 1);
      CalculateNextIndex(prev, 0).value.0
  }

  /**
   * In sequential mode the switcher walks the id list cyclically: after `k`
   * picks from an index inside the list it stands at `(index + k) % length`.
   */
  lemma {:induction false} PicksCycle(sw: Switcher, k: nat)
    requires CanPick(sw) && sw.mode == Sequentially && 0 <= sw.currentIndex < |sw.paintObjectIds|
    ensures Picks(sw, k).currentIndex == (sw.currentIndex + k) % |sw.paintObjectIds|
  {
    var n := |sw.paintObjectIds|;
    if k == 0 {
      Mathf.ModUnique(sw.currentIndex, n, 0, sw.currentIndex);
    } else {
      PicksCycle(sw, k - 1);
      Mathf.ModNext(sw.currentIndex + k - 1, n);
    }
  }

  /** What a handler call does: nothing, a switch to the id `id`, or an exception. */
  datatype Switch = Ignored | Switched(next: Switcher, id: int) | Threw

  /**
   * `SwitchPrefab` (the painted-object handler): nothing happens unless the
   * switcher is enabled and the painter is in Freehand mode; otherwise the
   * painter is switched to the next id, returned here, or the pick throws.
   */
  function SwitchPrefab(sw: Switcher, freehand: bool, roll: int): (r: Switch)
    requires sw.mode == Randomly && |sw.paintObjectIds| > 0 ==> 0 <= roll < |sw.paintObjectIds|
    ensures r.Ignored? <==> !sw.enabled || !freehand
    ensures r.Threw? <==> sw.enabled && freehand && !CanPick(sw)
    ensures r.Switched? ==> r.id in sw.paintObjectIds && CalculateNextIndex(sw, roll) == Some((r.next, r.id))
  {
    if !sw.enabled || !freehand then Ignored
    else match CalculateNextIndex(sw, roll)
      case None => Threw
      case Some((sw', id)) => Switched(sw', id)
  }

  /**
   * The painter's paint-object slot `id` holds an object: the id indexes the
   * array and the slot is not null (`None`).
   */
  predicate HoldsObject(paintObjects: seq<Option<OF.Template>>, id: int) {
    0 <= id < |paintObjects| && paintObjects[id].Some?
  }

  /**
   * The produced-object handler throws when the pick throws, when the picked
   * id is outside the paint-object array, and when its slot is empty, for
   * `Instantiate` of a null object throws.
   */
  predicate ProducedThrows(sw: Switcher, paintObjects: seq<Option<OF.Template>>, roll: int)
    requires sw.mode == Randomly && |sw.paintObjectIds| > 0 ==> 0 <= roll < |sw.paintObjectIds|
  {
    match CalculateNextIndex(sw, roll)
    case None => true
    case Some((_, id)) => !HoldsObject(paintObjects, id)
  }

  /**
   * `SwitchProduced` (the produced-object handler) as written: when enabled,
   * the product at `index` is replaced through `SwapProductObject` by a copy
   * of the next paint object, which lands at the old product's position moved
   * once more by the factory offset; no other product changes. `None` is an
   * exception.
   */
  function SwitchProduced(sw: Switcher, f: OF.Factory, w: World, index: nat, paintObjects: seq<Option<OF.Template>>, roll: int)
    : (r: Option<(Switcher, OF.Factory, World)>)
    requires sw.mode == Randomly && |sw.paintObjectIds| > 0 ==> 0 <= roll < |sw.paintObjectIds|
    requires sw.enabled ==> w.Valid() && index < OF.Count(f) && OF.List(f)[index] in w.objects
    ensures !sw.enabled ==> r == Some((sw, f, w))
    ensures sw.enabled ==> (r.None? <==> ProducedThrows(sw, paintObjects, roll))
    ensures sw.enabled && r.Some? ==>
              var (sw', id) := CalculateNextIndex(sw, roll).value;
              var old_ := OF.List(f)[index];
              && r.value.0 == sw'
              && r.value.2.Valid()
              && OF.Count(r.value.1) == OF.Count(f)
              && (forall i | 0 <= i < OF.Count(f) && i != index :: OF.List(r.value.1)[i] == OF.List(f)[i])
              && OF.List(r.value.1)[index] !in w.objects
              && r.value.2.objects == (w.objects - {old_})[OF.List(r.value.1)[index] :=
                   OF.CreatedObject(f, paintObjects[id].value, w.objects[old_].pos)]
              && r.value.2.objects[OF.List(r.value.1)[index]].pos == OF.CalcPos(f, w.objects[old_].pos)
  {
    if !sw.enabled then Some((sw, f, w))
    else match CalculateNextIndex(sw, roll)
      case None => None
      case Some((sw', id)) =>
        if !HoldsObject(paintObjects, id) then None
        else
          var (f', w') := OF.SwapProductObject(f, w, index, paintObjects[id].value);
          Some((sw', f', w'))
  }

  /**
   * The evident intent of the handler: the same switch through `SwapInPlace`,
   * so the replacement keeps the old product's position.
   */
  function SwitchProducedInPlace(sw: Switcher, f: OF.Factory, w: World, index: nat, paintObjects: seq<Option<OF.Template>>, roll: int)
    : (r: Option<(Switcher, OF.Factory, World)>)
    requires sw.mode == Randomly && |sw.paintObjectIds| > 0 ==> 0 <= roll < |sw.paintObjectIds|
    requires sw.enabled ==> w.Valid() && index < OF.Count(f) && OF.List(f)[index] in w.objects
    ensures !sw.enabled ==> r == Some((sw, f, w))
    ensures sw.enabled ==> (r.None? <==> ProducedThrows(sw, paintObjects, roll))
    ensures sw.enabled && r.Some? ==> OF.Count(r.value.1) == OF.Count(f)
    ensures sw.enabled && r.Some? ==>
              var n := OF.List(r.value.1)[index];
              && r.value.0 == CalculateNextIndex(sw, roll).value.0
              && r.value.2.Valid()
              && (forall i | 0 <= i < OF.Count(f) && i != index :: OF.List(r.value.1)[i] == OF.List(f)[i])
              && n !in w.objects && n in r.value.2.objects
              && r.value.2.objects[n].pos == w.objects[OF.List(f)[index]].pos
              && r.value.2.objects == (w.objects - {OF.List(f)[index]})[n := r.value.2.objects[n]]
  {
    if !sw.enabled then Some((sw, f, w))
    else match CalculateNextIndex(sw, roll)
      case None => None
      case Some((sw', id)) =>
        if !HoldsObject(paintObjects, id) then None
        else
          var (f', w') := OF.SwapInPlace(f, w, index, paintObjects[id].value);
          Some((sw', f', w'))
  }

  /**
   * The two handlers fail on the same inputs and otherwise differ exactly by
   * the offset: with a non-zero position offset the as-written switch moves
   * the product, the corrected one does not.
   */
  lemma SwitchProducedMovesByOffset(sw: Switcher, f: OF.Factory, w: World, index: nat, paintObjects: seq<Option<OF.Template>>, roll: int)
    requires sw.mode == Randomly && |sw.paintObjectIds| > 0 ==> 0 <= roll < |sw.paintObjectIds|
    requires sw.enabled && w.Valid() && index < OF.Count(f) && OF.List(f)[index] in w.objects
    ensures var a := SwitchProduced(sw, f, w, index, paintObjects, roll);
            var b := SwitchProducedInPlace(sw, f, w, index, paintObjects, roll);
            && (a.None? <==> b.None?)
            && (a.Some? ==>
                  a.value.2.objects[OF.List(a.value.1)[index]].pos.Minus(b.value.2.objects[OF.List(b.value.1)[index]].pos)
                    == (if f.relativePos then f.positionOffset.Plus(f.origin) else f.positionOffset))
  {
    var a := SwitchProduced(sw, f, w, index, paintObjects, roll);
    var b := SwitchProducedInPlace(sw, f, w, index, paintObjects, roll);
    if a.Some? {
      assert b.value.2.objects[OF.List(b.value.1)[index]].pos == w.objects[OF.List(f)[index]].pos;
    }
  }
}

=== FILE: grid_transform.dfy ===
/**
 * `GridTransform`: a component that gives an object a custom grid anchor,
 * an offset from its transform position, and a footprint in cells.
 */
module GridTransform {
  import opened Vectors

  /** The object's transform position, the offset and the three cell counts. */
  datatype GridTransform = GridTransform(transformPosition: Vec3, offset: Vec3, sizeX: int, sizeY: int, sizeZ: int)

  /** A freshly added component: offset (-0.5, 0, -0.5) and one cell along every axis. */
  function Added(transformPosition: Vec3): (g: GridTransform)
    ensures g.transformPosition == transformPosition
    ensures g.offset == Vec3(-0.5, 0.0, -0.5) && g.sizeX == 1 && g.sizeY == 1 && g.sizeZ == 1
  {
    GridTransform(transformPosition, Vec3(-0.5, 0.0, -0.5), 1, 1, 1)
  }

  /** Reading `Position`: the grid anchor, the transform position moved by the offset. */
  function Position(g: GridTransform): (p: Vec3)
    ensures p.Minus(g.offset) == g.transformPosition
  {
    g.transformPosition.Plus(g.offset)
  }

  /** Setting `Position`: the transform moves so that the anchor lands on `v`; offset and sizes stay. */
  function SetPosition(g: GridTransform, v: Vec3): (r: GridTransform)
    ensures r.transformPosition.Plus(g.offset) == v
    ensures r == g.(transformPosition := r.transformPosition)
  {
    g.(transformPosition := v.Minus(g.offset))
  }

  /** Setting `Position` and reading it back gives the value set. */
  lemma PositionRoundTrip(g: GridTransform, v: Vec3)
    ensures Position(SetPosition(g, v)) == v
    ensures SetPosition(g, v).offset == g.offset
    ensures SetPosition(g, v).sizeX == g.sizeX && SetPosition(g, v).sizeY == g.sizeY && SetPosition(g, v).sizeZ == g.sizeZ
  {
  }

  /** Setting `Position` to what it reads changes nothing. */
  lemma SetPositionToItself(g: GridTransform)
    ensures SetPosition(g, Position(g)) == g
  {
  }

  /** Setting `Offset`: a plain store; the transform stays, so the anchor moves with the offset. */
  function SetOffset(g: GridTransform, v: Vec3): (r: GridTransform)
    ensures r.offset == v
    ensures r.transformPosition == g.transformPosition && r.sizeX == g.sizeX && r.sizeY == g.sizeY && r.sizeZ == g.sizeZ
    ensures Position(r).Minus(Position(g)) == v.Minus(g.offset)
  {
    g.(offset := v)
  }

  /**
   * Setting `SizeX`, `SizeY` or `SizeZ`: plain stores. The inspector's
   * range of 0 to 10 is not enforced, so any value is kept as given.
   */
  function SetSizeX(g: GridTransform, v: int): (r: GridTransform)
    ensures r.sizeX == v && r == g.(sizeX := r.sizeX)
  {
    g.(sizeX := v)
  }

  function SetSizeY(g: GridTransform, v: int): (r: GridTransform)
    ensures r.sizeY == v && r == g.(sizeY := r.sizeY)
  {
    g.(sizeY := v)
  }

  function SetSizeZ(g: GridTransform, v: int): (r: GridTransform)
    ensures r.sizeZ == v && r == g.(sizeZ := r.sizeZ)
  {
    g.(sizeZ := v)
  }

  /** A size outside the inspector's range survives the setter, and the anchor does not move. */
  lemma SizesAreNotClamped(g: GridTransform)
    ensures SetSizeX(g, 11).sizeX == 11 && SetSizeY(g, -1).sizeY == -1
    ensures Position(SetSizeZ(g, 42)) == Position(g)
  {
  }
}

=== FILE: line_factory.dfy ===
/**
 * `LineFactory`: places products evenly along the segment from the drag
 * start to the drag end, in the absolute-position mode the painter uses.
 */
module LineFactory {
  import opened Vectors
  import opened Wrappers
  import opened Scene
  import opened Extensions
  import Mathf
  import OF = ObjectFactory

  /**
   * The settings the painter hands the line factory for one drag frame.
   * `trimStart` and `trimEnd` cut the segment at those fractions of its
   * length; `animate` makes the products crawl along the line.
   */
  datatype LineSettings = LineSettings(
    startPos: Vec3,
    endPos: Vec3,
    trimStart: real,
    trimEnd: real,
    snapToGrid: bool,
    gridSize: Vec3,
    alignObjects: bool,
    padding: real,
    animate: bool,
    animationSpeed: real)

  /** What one `Produce` call lays out: the segment count, the positions, the look direction and the new animation timer. */
  datatype LineLayout = LineLayout(count: int, positions: seq<Vec3>, direction: Vec3, timer: real)

  /** The segment start after trimming, before snapping. */
  function TrimmedStart(s: LineSettings): (r: Vec3)
    ensures s.trimStart <= 0.0001 ==> r == s.startPos
    ensures s.trimStart > 0.0001 ==> r == s.startPos.Plus(s.endPos.Minus(s.startPos).Scale(s.trimStart))
  {
    if s.trimStart > 0.0001 then s.startPos.Plus(s.endPos.Minus(s.startPos).Scale(s.trimStart)) else s.startPos
  }

  /** The segment end after trimming; the end trim is measured from the untrimmed start too. */
  function TrimmedEnd(s: LineSettings): (r: Vec3)
    ensures s.trimEnd >= 0.9999 ==> r == s.endPos
    ensures s.trimEnd < 0.9999 ==> r == s.startPos.Plus(s.endPos.Minus(s.startPos).Scale(s.trimEnd))
  {
    if s.trimEnd < 0.9999 then s.startPos.Plus(s.endPos.Minus(s.startPos).Scale(s.trimEnd)) else s.endPos
  }

  /** A point on the grid when snapping is on, unchanged otherwise. */
  function MaybeSnap(s: LineSettings, p: Vec3): (r: Vec3)
    ensures !s.snapToGrid ==> r == p
    ensures s.snapToGrid ==> r == GridPosV(p, s.gridSize) && OnGrid3(r, s.gridSize.x, s.gridSize.y, s.gridSize.z)
  {
    if s.snapToGrid then GridPosV(p, s.gridSize) else p
  }

  function Start(s: LineSettings): Vec3
  {
    MaybeSnap(s, TrimmedStart(s))
  }

  function End(s: LineSettings): Vec3
  {
    MaybeSnap(s, TrimmedEnd(s))
  }

  /** The painter's settings, no trimming, keep the drag endpoints (snapped when snapping). */
  lemma UntrimmedEndpoints(s: LineSettings)
    requires s.trimStart == 0.0 && s.trimEnd == 1.0
    ensures Start(s) == MaybeSnap(s, s.startPos) && End(s) == MaybeSnap(s, s.endPos)
  {
  }

  /**
   * `numberOfSegments`: `CeilToInt((length + 0.0001) / (padding * objectLength))`,
   * with a negative count (a negative object length) read as 1. Zero means
   * nothing is placed. A zero spacing (a zero padding, or products without
   * renderers or colliders, whose average dimension is 0) makes the float
   * quotient infinite or NaN, which `CeilToInt` turns into `int.MinValue`, so
   * the count is read as 1 there too.
   */
  function SegmentCount(length: real, padding: real, objectLength: real): (n: int)
    ensures n >= 0
    ensures padding * objectLength == 0.0 ==> n == 1
    ensures padding * objectLength != 0.0 && n > 0 ==>
              n == 1 || n == Mathf.CeilToInt((length + 0.0001) / (padding * objectLength))
    ensures padding * objectLength != 0.0 && Mathf.CeilToInt((length + 0.0001) / (padding * objectLength)) > 0 ==>
              n == Mathf.CeilToInt((length + 0.0001) / (padding * objectLength))
    ensures padding * objectLength != 0.0 && Mathf.CeilToInt((length + 0.0001) / (padding * objectLength)) == 0 ==> n == 0
    ensures padding * objectLength != 0.0 && Mathf.CeilToInt((length + 0.0001) / (padding * objectLength)) < 0 ==> n == 1
  {
    if padding * objectLength == 0.0 then 1
    else
      var n := Mathf.CeilToInt((length + 0.0001) / (padding * objectLength));
      if n < 0 then 1 else n
  }

  /** For a positive spacing the segments cover the length: `(n - 1) * spacing < length + 0.0001 <= n * spacing`. */
  lemma SegmentCountCovers(length: real, padding: real, objectLength: real)
    requires padding * objectLength > 0.0 && length >= 0.0
    ensures var n := SegmentCount(length, padding, objectLength);
            && n >= 1
            && ((n - 1) as real) * (padding * objectLength) < length + 0.0001 <= (n as real) * (padding * objectLength)
  {
    var d := padding * objectLength;
    var q := (length + 0.0001) / d;
    assert q > 0.0;
    var n := Mathf.CeilToInt(q);
    assert q * d == length + 0.0001;
    assert ((n - 1) as real) * d < q * d;
    assert q * d <= (n as real) * d;
  }

  /** The divisor of the spacing: `numberOfSegments - 1`, or 2 for a single segment. */
  function Divisor(n: int): (d: int)
    requires n >= 1
    ensures d >= 1
  {
    if n == 1 then 2 else n - 1
  }

  /** The unsnapped position of product `i`: the fraction `(i + timer) / Divisor(n)` along the trail. */
  function LinePoint(start: Vec3, trail: Vec3, n: int, timer: real, i: nat): Vec3
    requires n >= 1
  {
    start.Plus(trail.Scale((i as real + timer) / (Divisor(n) as real)))
  }

  /** The animation timer: it grows by `deltaTime * animationSpeed` and wraps back into `[0, 1)`; without animation it stays 0. */
  function NextTimer(s: LineSettings, timer: real, deltaTime: real): (t: real)
    ensures !s.animate ==> t == 0.0
    ensures s.animate && timer + deltaTime * s.animationSpeed >= 0.0 ==> 0.0 <= t < 1.0
    ensures s.animate ==> Mathf.IsIntegral(timer + deltaTime * s.animationSpeed - t)
  {
    if s.animate then Mathf.FloatModOne(timer + deltaTime * s.animationSpeed) else 0.0
  }

  /**
   * The layout of one `Produce` call; `None` when the count comes out zero.
   * `magnitude` stands for `Vector3.magnitude`; `objectLength` is the
   * factory's average product dimension.
   */
  function Layout(s: LineSettings, magnitude: Vec3 -> real, objectLength: real, timer: real, deltaTime: real): (r: Option<LineLayout>)
    ensures r.None? <==> SegmentCount(magnitude(End(s).Minus(Start(s))), s.padding, objectLength) == 0
    ensures r.Some? ==>
              var trail := End(s).Minus(Start(s));
              && r.value.count == SegmentCount(magnitude(trail), s.padding, objectLength) >= 1
              && |r.value.positions| == (if s.animate then r.value.count - 1 else r.value.count)
              && r.value.timer == NextTimer(s, timer, deltaTime)
              && r.value.direction == trail
              && forall i | 0 <= i < |r.value.positions| ::
                   r.value.positions[i] == MaybeSnap(s, LinePoint(Start(s), trail, r.value.count, r.value.timer, i))
  {
    var start := Start(s);
    var trail := End(s).Minus(start);
    var n := SegmentCount(magnitude(trail), s.padding, objectLength);
    if n == 0 then None
    else
      var len := if s.animate then n - 1 else n;
      var t := NextTimer(s, timer, deltaTime);
      Some(LineLayout(n, seq(len, i requires 0 <= i < len => MaybeSnap(s, LinePoint(start, trail, n, t, i))), trail, t))
  }

  /** Without animation or snapping the line runs exactly from the start to the end. */
  lemma LayoutHitsEndpoints(s: LineSettings, magnitude: Vec3 -> real, objectLength: real, timer: real, deltaTime: real)
    requires !s.animate && !s.snapToGrid
    ensures var r := Layout(s, magnitude, objectLength, timer, deltaTime);
            r.Some? ==>
              && r.value.positions[0] == Start(s)
              && (r.value.count >= 2 ==> r.value.positions[r.value.count - 1] == End(s))
  {
    var r := Layout(s, magnitude, objectLength, timer, deltaTime);
    if r.Some? {
      var n := r.value.count;
      LinePointFirst(Start(s), End(s).Minus(Start(s)), n);
      if n >= 2 {
        LinePointLast(Start(s), End(s), n);
      }
    }
  }

  /** Without animation the first line point is the start. */
  lemma LinePointFirst(start: Vec3, trail: Vec3, n: int)
    requires n >= 1
    ensures LinePoint(start, trail, n, 0.0, 0) == start
  {
    assert (0 as real + 0.0) / (Divisor(n) as real) == 0.0;
  }

  /** Without animation point `n - 1` of `n >= 2` is the end. */
  lemma LinePointLast(start: Vec3, end: Vec3, n: int)
    requires n >= 2
    ensures LinePoint(start, end.Minus(start), n, 0.0, n - 1) == end
  {
    assert ((n - 1) as real + 0.0) / (Divisor(n) as real) == 1.0;
    PlusMinusCancel(start, end);
  }

  /**
   * Consecutive line points are one equal step apart: the trail divided by
   * `Divisor(n)`. Without snapping these are the layout's positions.
   */
  lemma LinePointsEvenlySpaced(start: Vec3, trail: Vec3, n: int, timer: real, i: nat)
    requires n >= 1
    ensures LinePoint(start, trail, n, timer, i + 1).Minus(LinePoint(start, trail, n, timer, i))
            == trail.Scale(1.0 / (Divisor(n) as real))
  {
    var d := Divisor(n) as real;
    var a := (i as real + timer) / d;
    var b := ((i + 1) as real + timer) / d;
    RayDifference(start, trail, a, b);
    assert b - a == 1.0 / d;
  }

  /** With snapping every product lies on the grid. */
  lemma LayoutOnGrid(s: LineSettings, magnitude: Vec3 -> real, objectLength: real, timer: real, deltaTime: real)
    requires s.snapToGrid
    ensures var r := Layout(s, magnitude, objectLength, timer, deltaTime);
            r.Some? ==> forall i | 0 <= i < |r.value.positions| ::
              OnGrid3(r.value.positions[i], s.gridSize.x, s.gridSize.y, s.gridSize.z)
  {
  }

  /**
   * Products with no measurable size (average dimension 0) give one segment:
   * without animation a single product at the start, with animation none.
   */
  lemma ZeroLengthObjectsPlaceOne(s: LineSettings, magnitude: Vec3 -> real, timer: real, deltaTime: real)
    ensures var r := Layout(s, magnitude, 0.0, timer, deltaTime);
            && r.Some? && r.value.count == 1
            && (s.animate ==> r.value.positions == [])
            && (!s.animate ==> r.value.positions == [MaybeSnap(s, LinePoint(Start(s), End(s).Minus(Start(s)), 1, 0.0, 0))])
  {
    var r := Layout(s, magnitude, 0.0, timer, deltaTime);
    assert s.padding * 0.0 == 0.0;
    if !s.animate {
      assert r.value.positions[0] == MaybeSnap(s, LinePoint(Start(s), End(s).Minus(Start(s)), 1, 0.0, 0));
    }
  }

  /**
   * A drag of length 10 along x with padding 1 and objects of size 1 places
   * 11 products, one per unit from 0 to 10: the 0.0001 added before rounding
   * up pushes the count past 10.
   */
  lemma TenUnitLineHasElevenProducts(s: LineSettings, magnitude: Vec3 -> real, timer: real, deltaTime: real)
    requires s.startPos == Zero && s.endPos == Vec3(10.0, 0.0, 0.0)
    requires s.trimStart == 0.0 && s.trimEnd == 1.0 && !s.snapToGrid && !s.animate && s.padding == 1.0
    requires magnitude(Vec3(10.0, 0.0, 0.0)) == 10.0
    ensures var r := Layout(s, magnitude, 1.0, timer, deltaTime);
            && r.Some? && r.value.count == 11 && |r.value.positions| == 11
            && forall i | 0 <= i < 11 :: r.value.positions[i] == Vec3(i as real, 0.0, 0.0)
  {
    assert End(s).Minus(Start(s)) == Vec3(10.0, 0.0, 0.0);
    assert (10.0 + 0.0001) / (1.0 * 1.0) == 10.0001;
    assert Mathf.CeilToInt(10.0001) == 11;
    var r := Layout(s, magnitude, 1.0, timer, deltaTime);
    forall i | 0 <= i < 11
      ensures r.value.positions[i] == Vec3(i as real, 0.0, 0.0)
    {
      assert r.value.positions[i] == LinePoint(Zero, Vec3(10.0, 0.0, 0.0), 11, 0.0, i);
      assert (i as real + 0.0) / 10.0 * 10.0 == i as real;
    }
  }

  /**
   * `Produce`: activates the live products, lays the line out and updates the
   * products through `MassProduceOrUpdate`, aligned with the segment when
   * `alignObjects` is set; returns the first product and the layout. A zero
   * count leaves everything as the activation left it.
   */
  method Produce(s: LineSettings, f: OF.Factory, w: World, magnitude: Vec3 -> real, objectLength: real, timer: real, deltaTime: real)
    returns (f': OF.Factory, w': World, first: Option<ObjId>, layout: Option<LineLayout>)
    requires w.Valid() && OF.WellFormed(f, w) && f.objectLimit >= 0
    // an animated single segment places nothing, and a null product list then fails in the source
    requires var l := Layout(s, magnitude, objectLength, timer, deltaTime);
             l.Some? ==> f.products.Some? || OF.Limited(f, |l.value.positions|) > 0
    ensures layout == Layout(s, magnitude, objectLength, timer, deltaTime)
    ensures w'.Valid() && OF.WellFormed(f', w')
    ensures layout.None? ==> f' == f && w' == OF.ActivateProducts(f, w) && first.None?
    ensures layout.Some? ==>
              var n := OF.Limited(f, |layout.value.positions|);
              && first == OF.GetAt(f', 0)
              && OF.Count(f') >= n
              && forall i | 0 <= i < n ::
                   && w'.objects[OF.List(f')[i]].pos == OF.CalcPos(f, layout.value.positions[i])
                   && w'.objects[OF.List(f')[i]].rot
                      == OF.Turned(f, if i < OF.Count(f) then w.objects[OF.List(f)[i]].rot else OF.CreatedRotation(f, f.objectToCreate),
                                   if s.alignObjects then layout.value.direction else Zero)
    ensures layout.Some? ==>
              forall i | OF.Limited(f, |layout.value.positions|) <= i < OF.Count(f') :: !w'.objects[OF.List(f')[i]].active
    ensures OF.Count(f) <= OF.Count(f') && OF.List(f')[..OF.Count(f)] == OF.List(f)
    ensures forall id | id in w.objects && id !in OF.List(f) :: id in w'.objects && w'.objects[id] == w.objects[id]
  {
    layout := Layout(s, magnitude, objectLength, timer, deltaTime);
    if layout.None? {
      f', w', first := f, OF.ActivateProducts(f, w), None;
      return;
    }
    var dir := if s.alignObjects then layout.value.direction else Zero;
    f', w' := OF.ActivateAndUpdate(f, w, layout.value.positions, None, dir);
    first := OF.GetAt(f', 0);
  }
}

=== FILE: mathf.dfy ===
/**
 * The parts of Unity's `Mathf` and of C# numeric conversion that the placement
 * rules rely on, stated over unbounded integers and exact reals.
 */
module Mathf {

  function Abs(r: real): (a: real)
    ensures a >= 0.0
    ensures a == r || a == -r
  {
    if r < 0.0 then -r else r
  }

  function Max(a: real, b: real): (m: real)
    ensures m >= a && m >= b
    ensures m == a || m == b
  {
    if a >= b then a else b
  }

  function Min(a: real, b: real): (m: real)
    ensures m <= a && m <= b
    ensures m == a || m == b
  {
    if a <= b then a else b
  }

  /** `Mathf.CeilToInt`: the least integer not below `r`. */
  function CeilToInt(r: real): (n: int)
    ensures (n as real) - 1.0 < r <= n as real
  {
    -((-r).Floor)
  }

  /** A C# `(int)` cast of a float: truncation toward zero. */
  function Truncate(r: real): (n: int)
    ensures Abs(n as real) <= Abs(r) < Abs(n as real) + 1.0
    ensures r >= 0.0 ==> n >= 0
    ensures r <= 0.0 ==> n <= 0
  {
    if r >= 0.0 then r.Floor else -((-r).Floor)
  }

  predicate IsEven(n: int) {
    n % 2 == 0
  }

  /**
   * `Mathf.RoundToInt`: round to the nearest integer; a value exactly halfway
   * between two integers goes to the even one (banker's rounding).
   */
  function RoundToInt(r: real): (n: int)
    ensures Abs(r - n as real) <= 0.5
    ensures Abs(r - n as real) < 0.5 || IsEven(n)
  {
    var f := r.Floor;
    var frac := r - f as real;
    if frac < 0.5 then f
    else if frac > 0.5 then f + 1
    else if IsEven(f) then f
    else f + 1
  }

  /** Rounding leaves integers alone. */
  lemma RoundToIntOfInt(k: int)
    ensures RoundToInt(k as real) == k
  {
    assert (k as real).Floor == k;
  }

  /**
   * `Mathf.Approximately(1, p)`: `|p - 1| < max(1e-6 * max(1, |p|), 8 * float.Epsilon)`.
   * The second operand of the outer maximum is below 1e-44 and never wins
   * against the first, which is at least 1e-6, so it is dropped.
   */
  predicate ApproximatelyOne(p: real) {
    Abs(p - 1.0) < 0.000001 * Max(1.0, Abs(p))
  }

  /** C# integer division by a positive divisor: the quotient is truncated toward zero. */
  function CsDiv(a: int, b: int): (q: int)
    requires b > 0
    ensures a >= 0 ==> 0 <= a - q * b < b
    ensures a <= 0 ==> -b < a - q * b <= 0
  {
    if a >= 0 then a / b else -((-a) / b)
  }

  /** Truncating division is odd: `(-a) / b == -(a / b)`. */
  lemma CsDivNegate(a: int, b: int)
    requires b > 0
    ensures CsDiv(-a, b) == -CsDiv(a, b)
  {
  }

  /** C# `%` by a positive divisor: the remainder of the truncating division, with the dividend's sign. */
  function CsMod(a: int, b: int): (r: int)
    requires b > 0
    ensures a == CsDiv(a, b) * b + r
    ensures a >= 0 ==> r == a % b
    ensures a < 0 ==> -b < r <= 0
    ensures r == 0 <==> a % b == 0
  {
    var r := a - CsDiv(a, b) * b;
    CsModZero(a, b, r);
    r
  }

  /** The truncated remainder is zero exactly when the Euclidean one is. */
  lemma CsModZero(a: int, b: int, r: int)
    requires b > 0 && r == a - CsDiv(a, b) * b
    ensures r == 0 <==> a % b == 0
  {
    if a < 0 {
      if r == 0 {
        ModUnique(a, b, CsDiv(a, b), 0);
      } else {
        ModUnique(a, b, CsDiv(a, b) - 1, r + b);
      }
    }
  }

  /** A real with no fractional part. */
  predicate IsIntegral(r: real) {
    (r.Floor as real) == r
  }

  /**
   * The C# float remainder `a % 1`: what is left after truncating toward zero,
   * so its sign follows `a`.
   */
  function FloatModOne(a: real): (r: real)
    ensures a >= 0.0 ==> 0.0 <= r < 1.0
    ensures a <= 0.0 ==> -1.0 < r <= 0.0
    ensures IsIntegral(a - r)
  {
    a - Truncate(a) as real
  }

  // ---- Remainders on unbounded integers, used by the cyclic index arguments ----

  lemma MulAtLeast(d: int, n: int)
    requires d >= 1 && n > 0
    ensures d * n >= n
  {
  }

  /** `a % n` is the remainder of any decomposition `a == q * n + r` with `0 <= r < n`. */
  lemma ModUnique(a: int, n: int, q: int, r: int)
    requires n > 0 && 0 <= r < n && a == q * n + r
    ensures a % n == r
  {
    var q' := a / n;
    var r' := a % n;
    assert a == q' * n + r';
    assert (q - q') * n == r' - r;
    if q > q' {
      MulAtLeast(q - q', n);
    } else if q < q' {
      MulAtLeast(q' - q, n);
    }
  }

  /** One step past `x % n` lands on `(x + 1) % n`: the next remainder, or 0 after `n - 1`. */
  lemma ModNext(x: int, n: int)
    requires x >= 0 && n > 0
    ensures (x + 1) % n == (if x % n + 1 < n then x % n + 1 else 0)
    ensures (x % n + 1) % n == (x + 1) % n
  {
    var q, m := x / n, x % n;
    if m + 1 < n {
      ModUnique(x + 1, n, q, m + 1);
      ModUnique(m + 1, n, 0, m + 1);
    } else {
      ModUnique(x + 1, n, q + 1, 0);
      ModUnique(m + 1, n, 1, 0);
    }
  }
}

=== FILE: object_factory.dfy ===
/**
 * `ObjectFactory`: the list of "products" a layout tool places. Products are
 * reused between frames, extended when more are needed, deactivated when
 * fewer are, and finally released so that a new batch ("charge") can start.
 */
module ObjectFactory {
  import opened Vectors
  import opened Wrappers
  import opened Scene
  import Strings
  import Mathf

  /**
   * The object a factory copies. `instanceName` is the name the engine gives a
   * fresh copy (the template's name followed by "(Clone)", or the prefab
   * asset's name for a prefab instance); `active` is the template's own
   * activation, which a copy inherits; `hasCenter` says whether it has a child
   * named "Center", which receives the extra Euler angles instead of the copy.
   */
  datatype Template = Template(instanceName: string, euler: Vec3, active: bool, hasCenter: bool)

  datatype Factory = Factory(
    products: Option<seq<ObjId>>,   // None is the C# null list
    charge: int,
    objectToCreate: Template,
    relativePos: bool,
    origin: Vec3,                   // the factory's own transform.position
    positionOffset: Vec3,
    objectEuler: Vec3,
    upAxis: Vec3,
    objectLimit: int,
    appendChargeNumber: bool,
    appendIndexNumber: bool,
    pickedPrefix: string)

  const CloneSuffix: string := "(Clone)"

  /** The product list, reading a null list as empty. */
  function List(f: Factory): seq<ObjId> {
    f.products.GetOr([])
  }

  /** `Count()`: zero for a null list. */
  function Count(f: Factory): (n: nat)
    ensures f.products.None? ==> n == 0
    ensures f.products.Some? ==> n == |f.products.value|
  {
    |List(f)|
  }

  predicate Distinct(s: seq<ObjId>) {
    forall i, j | 0 <= i < j < |s| :: s[i] != s[j]
  }

  /**
   * What the factory keeps true on its own: every listed product is alive and
   * no product is listed twice. Only an outside `DestroyImmediate` of a
   * product breaks it.
   */
  predicate WellFormed(f: Factory, w: World) {
    && Distinct(List(f))
    && forall i | 0 <= i < |List(f)| :: List(f)[i] in w.objects
  }

  /** `IsEmpty()`. */
  predicate IsEmpty(f: Factory) {
    f.products.None? || |f.products.value| == 0
  }

  /** `GetAt(index)`: the product at `index`, or null for a null or short list. */
  function GetAt(f: Factory, index: nat): (r: Option<ObjId>)
    ensures r.Some? <==> index < Count(f)
    ensures r.Some? ==> r.value == List(f)[index]
  {
    if f.products.None? || |f.products.value| == 0 then None
    else if index >= |f.products.value| then None
    else Some(f.products.value[index])
  }

  /** `CalcPos`: the requested position moved by the offset, and by the factory's position when relative. */
  function CalcPos(f: Factory, position: Vec3): (r: Vec3)
    ensures r.Minus(position) == (if f.relativePos then f.positionOffset.Plus(f.origin) else f.positionOffset)
  {
    var pos := position.Plus(f.positionOffset);
    if f.relativePos then pos.Plus(f.origin) else pos
  }

  /** `CalcPos` is a translation: it keeps the differences between positions, so a layout keeps its shape. */
  lemma CalcPosKeepsShape(f: Factory, p: Vec3, q: Vec3)
    ensures CalcPos(f, p).Minus(CalcPos(f, q)) == p.Minus(q)
  {
  }

  /** The appendix "_<charge>" and "_<index>", each only when its flag is set. */
  function Appendix(f: Factory, index: nat): (s: string)
    ensures f.appendChargeNumber && f.appendIndexNumber ==>
              s == "_" + Strings.IntToString(f.charge) + "_" + Strings.IntToString(index)
    ensures f.appendChargeNumber && !f.appendIndexNumber ==> s == "_" + Strings.IntToString(f.charge)
    ensures !f.appendChargeNumber && f.appendIndexNumber ==> s == "_" + Strings.IntToString(index)
    ensures !f.appendChargeNumber && !f.appendIndexNumber ==> s == ""
  {
    (if f.appendChargeNumber then "_" + Strings.IntToString(f.charge) else "")
    + (if f.appendIndexNumber then "_" + Strings.IntToString(index) else "")
  }

  /**
   * The naming fix of `CreateFromTemplate`: a leading picked-prefix is cut,
   * then a trailing "(Clone)", then the appendix is added.
   */
  function ProductName(f: Factory, instanceName: string, index: nat): (r: string)
    ensures var base := Strings.DropSuffix(Strings.DropPrefix(instanceName, f.pickedPrefix), CloneSuffix);
            r == base + Appendix(f, index)
  {
    var n1 := if Strings.StartsWith(instanceName, f.pickedPrefix) then instanceName[|f.pickedPrefix|..] else instanceName;
    var n2 := if Strings.EndsWith(n1, CloneSuffix) then n1[..|n1| - |CloneSuffix|] else n1;
    n2 + Appendix(f, index)
  }

  /** The rotation a fresh copy gets: the template's, unless `objectEuler` overrides it on the copy itself. */
  function CreatedRotation(f: Factory, template: Template): Rotation {
    if f.objectEuler != Zero && !template.hasCenter then Euler(f.objectEuler) else Euler(template.euler)
  }

  /** The object `CreateFromTemplate` makes, before it is added to the list. */
  function CreatedObject(f: Factory, template: Template, position: Vec3): GameObject {
    GameObject(template.active, CalcPos(f, position), CreatedRotation(f, template),
               ProductName(f, template.instanceName, Count(f)))
  }

  /** `CreateFromTemplate`: a new object at `CalcPos(position)`, named after the current count. */
  function CreateFromTemplate(f: Factory, w: World, template: Template, position: Vec3): (r: (ObjId, World))
    requires w.Valid()
    ensures r.1.Valid()
    ensures r.0 !in w.objects
    ensures w.nextId <= r.0 < r.1.nextId
    ensures r.1.objects == w.objects[r.0 := CreatedObject(f, template, position)]
    ensures r.1.objects[r.0].pos == CalcPos(f, position)
  {
    Instantiate(w, CreatedObject(f, template, position))
  }

  /** `Produce`: exactly one new product is appended; the list is created first if it was null. */
  function Produce(f: Factory, w: World, position: Vec3): (r: (Factory, ObjId, World))
    requires w.Valid()
    ensures r.0 == f.(products := Some(List(f) + [r.1]))
    ensures r.1 !in w.objects
    ensures w.nextId <= r.1 < r.2.nextId
    ensures r.2.Valid()
    ensures r.2.objects == w.objects[r.1 := CreatedObject(f, f.objectToCreate, position)]
    ensures WellFormed(f, w) ==> WellFormed(r.0, r.2)
  {
    var (id, w') := CreateFromTemplate(f, w, f.objectToCreate, position);
    (f.(products := Some(List(f) + [id])), id, w')
  }

  /**
   * `ProduceOrUpdate`: the first product is moved to `CalcPos(position)` and
   * activated; when there is none (or it was destroyed) one is produced.
   */
  function ProduceOrUpdate(f: Factory, w: World, position: Vec3): (r: (Factory, ObjId, World))
    requires w.Valid()
    ensures r.2.Valid()
    ensures r.1 in r.2.objects && r.2.objects[r.1].pos == CalcPos(f, position)
    ensures WellFormed(f, w) ==> GetAt(r.0, 0) == Some(r.1) && WellFormed(r.0, r.2)
    ensures WellFormed(f, w) && Count(f) > 0 ==> r.0 == f && r.2.objects.Keys == w.objects.Keys
  {
    var first := GetAt(f, 0);
    if first.None? || first.value !in w.objects then Produce(f, w, position)
    else
      var id := first.value;
      (f, id, Put(w, id, w.objects[id].(pos := CalcPos(f, position), active := true)))
  }

  /** The direction product `i` is turned toward: its normal when normals are given, else the common direction. */
  function LookDirection(normals: Option<seq<Vec3>>, lookDir: Vec3, i: nat): Vec3
    requires normals.Some? ==> i < |normals.value|
  {
    if normals.Some? then normals.value[i] else lookDir
  }

  /** The rotation a product ends with, given the one it had before facing `dir`. */
  function Turned(f: Factory, before: Rotation, dir: Vec3): Rotation {
    if dir == Zero then before
    else LookAt(dir, f.upAxis, if f.objectEuler != Zero then f.objectEuler else f.objectToCreate.euler)
  }

  /**
   * What `MassProduceOrUpdate` makes of list position `i`: a reused product
   * (`current`) is moved and activated; a new one is a fresh copy named after
   * its index, whose activation is the template's. Either is then turned
   * toward `dir`.
   */
  function Place(f: Factory, current: Option<GameObject>, position: Vec3, dir: Vec3, i: nat): (r: GameObject)
    ensures r.pos == CalcPos(f, position)
    ensures current.Some? ==> r.active && r.name == current.value.name
    ensures current.None? ==> r.active == f.objectToCreate.active && r.name == ProductName(f, f.objectToCreate.instanceName, i)
    ensures dir == Zero ==> r.rot == (if current.Some? then current.value.rot else CreatedRotation(f, f.objectToCreate))
    ensures dir != Zero ==> r.rot.LookAt? && r.rot.forward == dir && r.rot.up == f.upAxis
  {
    var moved :=
      if current.Some? then current.value.(pos := CalcPos(f, position), active := true)
      else CreatedObject(f, f.objectToCreate, position).(name := ProductName(f, f.objectToCreate.instanceName, i));
    moved.(rot := Turned(f, moved.rot, dir))
  }

  /**
   * Every entry of the list is an id `w` has handed out. A destroyed product
   * keeps its id in the list, and that id is never handed out again: a new
   * object is never mistaken for a destroyed one.
   */
  predicate Issued(f: Factory, w: World) {
    forall i | 0 <= i < Count(f) :: List(f)[i] < w.nextId
  }

  /** The live product at list position `i` before the call, when there is one. */
  function Existing(f: Factory, w: World, i: nat): Option<GameObject> {
    if i < Count(f) && List(f)[i] in w.objects then Some(w.objects[List(f)[i]]) else None
  }

  /** `Place` reads only the factory's settings, not its product list. */
  lemma PlaceIgnoresProducts(f: Factory, g: Factory, current: Option<GameObject>, position: Vec3, dir: Vec3, i: nat)
    requires g == f.(products := g.products)
    ensures Place(f, current, position, dir, i) == Place(g, current, position, dir, i)
  {
  }

  /**
   * One round of the placing loop of `MassProduceOrUpdate`: a live product at
   * position `i` is updated in place; with no entry there, or a destroyed
   * one, a new product is appended at the end, named after the list's length.
   */
  method PlaceAt(f: Factory, w: World, position: Vec3, dir: Vec3, i: nat) returns (f': Factory, id: ObjId, w': World)
    requires w.Valid()
    ensures w'.Valid() && w.nextId <= w'.nextId
    ensures f'.products.Some? && f' == f.(products := f'.products)
    ensures Existing(f, w, i).Some? ==> List(f') == List(f) && id == List(f)[i]
    ensures Existing(f, w, i).None? ==> List(f') == List(f) + [id] && id !in w.objects && w.nextId <= id
    ensures w'.objects == w.objects[id := Place(f, Existing(f, w, i), position, dir, Count(f))]
    ensures WellFormed(f, w) && i <= Count(f) ==>
              && WellFormed(f', w')
              && List(f') == (if i < Count(f) then List(f) else List(f) + [id])
              && List(f')[i] == id
              && (i == Count(f) ==> id !in w.objects)
              && w'.objects == w.objects[id := Place(f, Existing(f, w, i), position, dir, i)]
  {
    var product := GetAt(f, i);
    if product.None? || product.value !in w.objects {
      var r := Produce(f, w, position);
      f', id, w' := r.0, r.1, r.2;
    } else {
      id := product.value;
      f' := f.(products := Some(List(f)));
      w' := Put(w, id, w.objects[id].(pos := CalcPos(f, position), active := true));
    }
    if dir != Zero {
      w' := Put(w', id, w'.objects[id].(rot := Turned(f, w'.objects[id].rot, dir)));
    }
  }

  /** The number of positions `MassProduceOrUpdate` uses: the array is cut to `objectLimit`. */
  function Limited(f: Factory, len: nat): (n: nat)
    requires f.objectLimit >= 0
    ensures n <= len && n <= f.objectLimit
    ensures n == len || n == f.objectLimit
  {
    if len > f.objectLimit then f.objectLimit else len
  }

  /** The entries from list position `from` on. */
  function Tail(f: Factory, from: nat): seq<ObjId> {
    if from <= Count(f) then List(f)[from..] else []
  }

  /**
   * The deactivating loop: every product from list position `from` on is
   * deactivated, and nothing else changes. A destroyed product there makes
   * `SetActive` throw (`None`).
   */
  method DeactivateFrom(f: Factory, w: World, from: nat) returns (r: Option<World>)
    requires w.Valid()
    ensures r.None? <==> exists k | from <= k < Count(f) :: List(f)[k] !in w.objects
    ensures r.Some? ==> r.value.Valid() && r.value.nextId == w.nextId && r.value.objects.Keys == w.objects.Keys
    ensures r.Some? ==> forall id | id in w.objects ::
              r.value.objects[id] == if id in Tail(f, from) then w.objects[id].(active := false) else w.objects[id]
  {
    var list := List(f);
    if from >= |list| {
      assert Tail(f, from) == [];
      return Some(w);
    }
    var v := w;
    var j := from;
    while j < |list|
      invariant from <= j <= |list|
      invariant v.Valid() && v.nextId == w.nextId && v.objects.Keys == w.objects.Keys
      invariant forall k | from <= k < j :: list[k] in w.objects
      invariant forall id | id in w.objects ::
                  v.objects[id] == if id in list[from..j] then w.objects[id].(active := false) else w.objects[id]
    {
      if list[j] !in v.objects {
        return None;
      }
      assert forall id :: id in list[from..j + 1] <==> id in list[from..j] || id == list[j];
      v := Put(v, list[j], v.objects[list[j]].(active := false));
      j := j + 1;
    }
    assert list[from..j] == Tail(f, from);
    r := Some(v);
  }

  /**
   * `DeactivateProducts`: every product is deactivated and nothing else
   * changes; a destroyed product makes `SetActive` throw (`None`), and a null
   * list is left alone.
   */
  method DeactivateProducts(f: Factory, w: World) returns (r: Option<World>)
    requires w.Valid()
    ensures r.None? <==> exists k | 0 <= k < Count(f) :: List(f)[k] !in w.objects
    ensures r.Some? ==> r.value.objects.Keys == w.objects.Keys
    ensures r.Some? ==> forall id | id in w.objects ::
              r.value.objects[id] == if id in List(f) then w.objects[id].(active := false) else w.objects[id]
  {
    r := DeactivateFrom(f, w, 0);
    assert Tail(f, 0) == List(f);
  }

  /**
   * What the placing loop of `MassProduceOrUpdate` keeps whatever the list
   * holds, after `i` rounds from factory `f` in world `w`: `g` and `v` are the
   * factory and world reached. The old entries stay where they were, entries
   * past the old end are new live objects, no object is destroyed, and no
   * object outside the old list changes.
   */
  predicate Grown(f: Factory, w: World, i: nat, g: Factory, v: World) {
    && v.Valid() && w.nextId <= v.nextId
    && g == f.(products := g.products)
    && (i > 0 ==> g.products.Some?)
    && (i == 0 ==> g == f && v == w)
    && i <= |List(g)| && Count(f) <= |List(g)| && List(g)[..Count(f)] == List(f)
    && (forall k | Count(f) <= k < |List(g)| :: w.nextId <= List(g)[k] && List(g)[k] in v.objects)
    && (forall id | id in w.objects :: id in v.objects)
    && (forall id | id in v.objects && id !in w.objects :: w.nextId <= id)
    && (forall id | id in w.objects && id !in List(f) :: v.objects[id] == w.objects[id])
  }

  /** One round of the placing loop, as `PlaceAt` describes it, keeps `Grown`. */
  lemma GrownStep(f: Factory, w: World, i: nat, g: Factory, v: World, id: ObjId, obj: GameObject, g': Factory, v': World)
    requires w.Valid() && Grown(f, w, i, g, v)
    requires v'.Valid() && v.nextId <= v'.nextId
    requires g'.products.Some? && g' == g.(products := g'.products)
    requires Existing(g, v, i).Some? ==> List(g') == List(g) && id == List(g)[i]
    requires Existing(g, v, i).None? ==> List(g') == List(g) + [id] && id !in v.objects && v.nextId <= id
    requires v'.objects == v.objects[id := obj]
    ensures Grown(f, w, i + 1, g', v')
  {
    assert List(g')[..Count(f)] == List(g)[..Count(f)];
    forall id' | id' in w.objects && id' !in List(f)
      ensures v'.objects[id'] == w.objects[id']
    {
      if Existing(g, v, i).Some? && i < Count(f) {
        assert id == List(f)[i];
      }
    }
  }

  /**
   * The state after the placing loop of `MassProduceOrUpdate` has handled
   * positions `[0, i)` of a well-formed list, starting from factory `f` in
   * world `w`: `g` and `v` are the factory and world reached.
   */
  predicate Progress(f: Factory, w: World, positions: seq<Vec3>, normals: Option<seq<Vec3>>, lookDir: Vec3,
                     i: nat, g: Factory, v: World)
    requires WellFormed(f, w)
    requires i <= |positions| && (normals.Some? ==> i <= |normals.value|)
  {
    && v.Valid() && WellFormed(g, v)
    && g == f.(products := g.products)
    && (i > 0 ==> g.products.Some?)
    && (i == 0 ==> g == f && v == w)
    && |List(g)| == (if Count(f) >= i then Count(f) else i)
    && List(g)[..Count(f)] == List(f)
    && (forall k | Count(f) <= k < |List(g)| :: List(g)[k] !in w.objects)
    && (forall k | 0 <= k < i ::
          v.objects[List(g)[k]] == Place(f, Existing(f, w, k), positions[k], LookDirection(normals, lookDir, k), k))
    && (forall k | i <= k < Count(f) :: v.objects[List(f)[k]] == w.objects[List(f)[k]])
    && (forall id | id in w.objects && id !in List(f) :: id in v.objects && v.objects[id] == w.objects[id])
  }

  /** What one round of the placing loop has done to go from `g`, `v` to `g'`, `v'`: placed position `i` as `id`. */
  predicate StepDone(f: Factory, w: World, positions: seq<Vec3>, normals: Option<seq<Vec3>>, lookDir: Vec3,
                     i: nat, g: Factory, v: World, id: ObjId, g': Factory, v': World)
  {
    && w.Valid() && WellFormed(f, w) && WellFormed(g, v)
    && i < |positions| && (normals.Some? ==> i < |normals.value|)
    && g'.products.Some? && g' == g.(products := g'.products)
    && v'.Valid() && WellFormed(g', v')
    && List(g') == (if i < Count(g) then List(g) else List(g) + [id])
    && i < |List(g')| && List(g')[i] == id
    && (i == Count(g) ==> id !in v.objects)
    && v'.objects == v.objects[id := Place(g, Existing(g, v, i), positions[i], LookDirection(normals, lookDir, i), i)]
  }

  /** The placed part of `Progress` after one more round. */
  lemma StepPlaced(f: Factory, w: World, positions: seq<Vec3>, normals: Option<seq<Vec3>>, lookDir: Vec3,
                   i: nat, g: Factory, v: World, id: ObjId, g': Factory, v': World)
    requires StepDone(f, w, positions, normals, lookDir, i, g, v, id, g', v')
    requires Progress(f, w, positions, normals, lookDir, i, g, v)
    ensures forall k | 0 <= k < i + 1 ::
              v'.objects[List(g')[k]] == Place(f, Existing(f, w, k), positions[k], LookDirection(normals, lookDir, k), k)
  {
    assert Existing(g, v, i) == Existing(f, w, i);
    PlaceIgnoresProducts(f, g, Existing(f, w, i), positions[i], LookDirection(normals, lookDir, i), i);
    forall k | 0 <= k < i
      ensures v'.objects[List(g')[k]] == Place(f, Existing(f, w, k), positions[k], LookDirection(normals, lookDir, k), k)
    {
      assert List(g')[k] == List(g)[k] != id;
    }
  }

  /** The untouched part of `Progress` after one more round. */
  lemma StepFrame(f: Factory, w: World, positions: seq<Vec3>, normals: Option<seq<Vec3>>, lookDir: Vec3,
                  i: nat, g: Factory, v: World, id: ObjId, g': Factory, v': World)
    requires StepDone(f, w, positions, normals, lookDir, i, g, v, id, g', v')
    requires Progress(f, w, positions, normals, lookDir, i, g, v)
    ensures List(g')[..Count(f)] == List(f)
    ensures forall k | i + 1 <= k < Count(f) :: v'.objects[List(f)[k]] == w.objects[List(f)[k]]
    ensures forall id' | id' in w.objects && id' !in List(f) :: id' in v'.objects && v'.objects[id'] == w.objects[id']
  {
    assert List(g')[..Count(f)] == List(g)[..Count(f)];
    forall k | i + 1 <= k < Count(f)
      ensures v'.objects[List(f)[k]] == w.objects[List(f)[k]]
    {
      assert List(f)[k] == List(g)[k] != id;
    }
  }

  /** One round of the placing loop keeps `Progress`. */
  lemma ProgressStep(f: Factory, w: World, positions: seq<Vec3>, normals: Option<seq<Vec3>>, lookDir: Vec3,
                     i: nat, g: Factory, v: World, id: ObjId, g': Factory, v': World)
    requires StepDone(f, w, positions, normals, lookDir, i, g, v, id, g', v')
    requires Progress(f, w, positions, normals, lookDir, i, g, v)
    ensures Progress(f, w, positions, normals, lookDir, i + 1, g', v')
  {
    StepPlaced(f, w, positions, normals, lookDir, i, g, v, id, g', v');
    StepFrame(f, w, positions, normals, lookDir, i, g, v, id, g', v');
  }

  /** Before the first round nothing is placed and nothing has changed. */
  lemma ProgressStart(f: Factory, w: World, positions: seq<Vec3>, normals: Option<seq<Vec3>>, lookDir: Vec3)
    requires w.Valid() && WellFormed(f, w)
    ensures Progress(f, w, positions, normals, lookDir, 0, f, w)
  {
    assert List(f)[..Count(f)] == List(f);
  }

  /**
   * The placing loop of `MassProduceOrUpdate`, over the first `n` positions.
   * Whatever the list holds it keeps `Grown`; on a well-formed list each of
   * the first `n` positions holds its placed product.
   */
  method PlaceAll(f: Factory, w: World, positions: seq<Vec3>, normals: Option<seq<Vec3>>, lookDir: Vec3, n: nat)
    returns (f': Factory, w': World)
    requires w.Valid()
    requires n <= |positions| && (normals.Some? ==> n <= |normals.value|)
    ensures Grown(f, w, n, f', w')
    ensures WellFormed(f, w) ==> Progress(f, w, positions, normals, lookDir, n, f', w')
  {
    f' := f;
    w' := w;
    var dir := lookDir;
    var i := 0;
    if WellFormed(f, w) {
      ProgressStart(f, w, positions, normals, lookDir);
    }
    while i < n
      invariant 0 <= i <= n
      invariant Grown(f, w, i, f', w')
      invariant WellFormed(f, w) ==> Progress(f, w, positions, normals, lookDir, i, f', w')
      invariant normals.None? ==> dir == lookDir
    {
      if normals.Some? {
        dir := normals.value[i];
      }
      assert dir == LookDirection(normals, lookDir, i);
      var f1, id, w1 := PlaceAt(f', w', positions[i], dir, i);
      GrownStep(f, w, i, f', w', id, Place(f', Existing(f', w', i), positions[i], dir, Count(f')), f1, w1);
      if WellFormed(f, w) {
        ProgressStep(f, w, positions, normals, lookDir, i, f', w', id, f1, w1);
      }
      f', w' := f1, w1;
      i := i + 1;
    }
  }

  /**
   * After the placing loop, the surplus entries hold a destroyed product
   * exactly when the old list held one at or past the limit: the entries
   * past the old end are new and alive.
   */
  lemma SurplusDestroyed(f: Factory, w: World, n: nat, g: Factory, v: World)
    requires w.Valid() && Issued(f, w) && Grown(f, w, n, g, v)
    ensures (exists k | n <= k < Count(g) :: List(g)[k] !in v.objects) <==>
            (exists k | n <= k < Count(f) :: List(f)[k] !in w.objects)
  {
    forall k | 0 <= k < Count(f)
      ensures List(g)[k] == List(f)[k] && (List(f)[k] in v.objects <==> List(f)[k] in w.objects)
    {
      assert List(g)[k] == List(g)[..Count(f)][k];
    }
  }

  /**
   * The end state of `MassProduceOrUpdate` on any list: after the placing
   * loop and a deactivating loop that did not throw, every entry from the
   * limit on is live and inactive, and no object outside the old list has
   * changed.
   */
  lemma SurplusOutcome(f: Factory, w: World, n: nat, g: Factory, v: World, w': World)
    requires w.Valid() && Grown(f, w, n, g, v)
    requires !exists k | n <= k < Count(g) :: List(g)[k] !in v.objects
    requires w'.objects.Keys == v.objects.Keys
    requires forall id | id in v.objects ::
               w'.objects[id] == if id in Tail(g, n) then v.objects[id].(active := false) else v.objects[id]
    ensures forall i | n <= i < |List(g)| :: List(g)[i] in w'.objects && !w'.objects[List(g)[i]].active
    ensures forall id | id in w.objects && id !in List(f) :: id in w'.objects && w'.objects[id] == w.objects[id]
  {
    forall i | n <= i < |List(g)|
      ensures List(g)[i] in Tail(g, n)
    {
      assert List(g)[i] == Tail(g, n)[i - n];
    }
    forall id, k | id in w.objects && id !in List(f) && 0 <= k < Count(g)
      ensures List(g)[k] != id
    {
      if k < Count(f) {
        assert List(g)[k] == List(g)[..Count(f)][k];
      }
    }
  }

  /**
   * The end state of `MassProduceOrUpdate` on a list of live distinct
   * products: the placed positions keep what the loop put there, and the
   * surplus is the old products, deactivated.
   */
  lemma WellFormedOutcome(f: Factory, w: World, positions: seq<Vec3>, normals: Option<seq<Vec3>>, lookDir: Vec3,
                          n: nat, g: Factory, v: World, w': World)
    requires w.Valid() && WellFormed(f, w)
    requires n <= |positions| && (normals.Some? ==> n <= |normals.value|)
    requires Progress(f, w, positions, normals, lookDir, n, g, v)
    requires w'.objects.Keys == v.objects.Keys
    requires forall id | id in v.objects ::
               w'.objects[id] == if id in Tail(g, n) then v.objects[id].(active := false) else v.objects[id]
    ensures WellFormed(g, w')
    ensures forall i | 0 <= i < n ::
              w'.objects[List(g)[i]] == Place(f, Existing(f, w, i), positions[i], LookDirection(normals, lookDir, i), i)
    ensures forall i | n <= i < |List(g)| :: w'.objects[List(g)[i]] == w.objects[List(f)[i]].(active := false)
  {
    forall i | n <= i < |List(g)|
      ensures List(g)[i] in Tail(g, n) && i < Count(f) && List(g)[i] == List(f)[i]
    {
      assert List(g)[i] == Tail(g, n)[i - n];
      assert List(g)[i] == List(g)[..Count(f)][i];
    }
  }

  /**
   * `MassProduceOrUpdate(positions, normals, lookDir)`. With `n` the number of
   * positions cut to `objectLimit`, the call throws (`None`) exactly when the
   * limit is negative (`Array.Resize`), when there is nothing to place and
   * the list is null (`products.Count`), or when an entry at or past `n` is a
   * destroyed product (`SetActive`). Otherwise every entry from `n` on ends up
   * live and inactive, entries are only appended, and no object outside the
   * list changes. On a well-formed list, product `i < n` ends up as `Place`
   * says, turned toward `normals[i]` when normals are given and toward
   * `lookDir` otherwise; existing products are reused in place and new ones
   * are produced only past the old end.
   */
  method MassProduceOrUpdate(f: Factory, w: World, positions: seq<Vec3>, normals: Option<seq<Vec3>>, lookDir: Vec3)
    returns (r: Option<(Factory, World)>)
    requires w.Valid() && Issued(f, w)
    requires normals.Some? && f.objectLimit >= 0 ==> |normals.value| >= Limited(f, |positions|)
    ensures r.None? <==>
              || f.objectLimit < 0
              || (f.products.None? && Limited(f, |positions|) == 0)
              || (exists k | Limited(f, |positions|) <= k < Count(f) :: List(f)[k] !in w.objects)
    ensures r.Some? ==>
              var f', w' := r.value.0, r.value.1;
              && w'.Valid()
              && f'.products.Some? && f' == f.(products := f'.products)
              && Count(f) <= |List(f')| && Limited(f, |positions|) <= |List(f')|
              && List(f')[..Count(f)] == List(f)
              && (forall i | Count(f) <= i < |List(f')| :: List(f')[i] !in w.objects)
              && (forall i | Limited(f, |positions|) <= i < |List(f')| ::
                    List(f')[i] in w'.objects && !w'.objects[List(f')[i]].active)
              && (forall id | id in w.objects && id !in List(f) :: id in w'.objects && w'.objects[id] == w.objects[id])
    ensures r.Some? && WellFormed(f, w) ==>
              var f', w' := r.value.0, r.value.1;
              && WellFormed(f', w')
              && |List(f')| == (if Count(f) >= Limited(f, |positions|) then Count(f) else Limited(f, |positions|))
              && (forall i | 0 <= i < Limited(f, |positions|) ::
                    w'.objects[List(f')[i]] == Place(f, Existing(f, w, i), positions[i], LookDirection(normals, lookDir, i), i))
              && (forall i | Limited(f, |positions|) <= i < |List(f')| ::
                    w'.objects[List(f')[i]] == w.objects[List(f)[i]].(active := false))
  {
    if f.objectLimit < 0 {
      return None;
    }
    var n := Limited(f, |positions|);
    var f', v := PlaceAll(f, w, positions, normals, lookDir, n);
    if f'.products.None? {
      return None;
    }
    SurplusDestroyed(f, w, n, f', v);
    var d := DeactivateFrom(f', v, n);
    if d.None? {
      return None;
    }
    var w' := d.value;
    SurplusOutcome(f, w, n, f', v, w');
    if WellFormed(f, w) {
      WellFormedOutcome(f, w, positions, normals, lookDir, n, f', v, w');
    }
    r := Some((f', w'));
  }

  /** `ActivateProducts`: every live product is activated; destroyed ones are skipped. */
  function ActivateProducts(f: Factory, w: World): (r: World)
    ensures r.Valid() <== w.Valid()
    ensures r.objects.Keys == w.objects.Keys
    ensures forall id | id in w.objects ::
              r.objects[id] == if id in List(f) then w.objects[id].(active := true) else w.objects[id]
  {
    SetActiveAll(w, List(f), true)
  }

  /**
   * A product placed after `ActivateProducts` sits at the computed position
   * and keeps the rotation it had before the activation (or a new copy's),
   * turned toward `dir`: the activation touches nothing but the flags.
   */
  lemma PlacedAfterActivation(f: Factory, w: World, position: Vec3, dir: Vec3, i: nat)
    requires WellFormed(f, w)
    ensures WellFormed(f, ActivateProducts(f, w))
    ensures var r := Place(f, Existing(f, ActivateProducts(f, w), i), position, dir, i);
            && r.pos == CalcPos(f, position)
            && r.rot == Turned(f, if i < Count(f) then w.objects[List(f)[i]].rot else CreatedRotation(f, f.objectToCreate), dir)
  {
    var w1 := ActivateProducts(f, w);
    assert WellFormed(f, w1);
    if i < Count(f) {
      assert w1.objects[List(f)[i]].rot == w.objects[List(f)[i]].rot;
    }
  }

  /**
   * `ActivateProducts` and then `MassProduceOrUpdate`, the order every layout
   * factory follows, on a list of live distinct products, stated against the
   * world before the activation: each placed product sits at its computed
   * position with its old rotation (or a new copy's) turned toward its
   * direction, the surplus is inactive, the list only grows at its end, and
   * no object outside it changes.
   */
  method ActivateAndUpdate(f: Factory, w: World, positions: seq<Vec3>, normals: Option<seq<Vec3>>, lookDir: Vec3)
    returns (f': Factory, w': World)
    requires w.Valid() && WellFormed(f, w) && f.objectLimit >= 0
    requires normals.Some? ==> |normals.value| >= Limited(f, |positions|)
    requires f.products.Some? || Limited(f, |positions|) > 0
    ensures w'.Valid() && WellFormed(f', w')
    ensures f'.products.Some? && f' == f.(products := f'.products)
    ensures Count(f) <= Count(f') && Limited(f, |positions|) <= Count(f') && List(f')[..Count(f)] == List(f)
    ensures forall i | 0 <= i < Limited(f, |positions|) ::
              && w'.objects[List(f')[i]].pos == CalcPos(f, positions[i])
              && w'.objects[List(f')[i]].rot
                 == Turned(f, if i < Count(f) then w.objects[List(f)[i]].rot else CreatedRotation(f, f.objectToCreate),
                           LookDirection(normals, lookDir, i))
    ensures forall i | Limited(f, |positions|) <= i < Count(f') :: !w'.objects[List(f')[i]].active
    ensures forall id | id in w.objects && id !in List(f) :: id in w'.objects && w'.objects[id] == w.objects[id]
  {
    var w1 := ActivateProducts(f, w);
    assert WellFormed(f, w1) && Issued(f, w1);
    var r := MassProduceOrUpdate(f, w1, positions, normals, lookDir);
    f', w' := r.value.0, r.value.1;
    forall i | 0 <= i < Limited(f, |positions|)
      ensures && w'.objects[List(f')[i]].pos == CalcPos(f, positions[i])
              && w'.objects[List(f')[i]].rot
                 == Turned(f, if i < Count(f) then w.objects[List(f)[i]].rot else CreatedRotation(f, f.objectToCreate),
                           LookDirection(normals, lookDir, i))
    {
      PlacedAfterActivation(f, w, positions[i], LookDirection(normals, lookDir, i), i);
    }
  }

  /** `DestroyAll`: every product is destroyed and the list is emptied; a null list stays null. */
  function DestroyAll(f: Factory, w: World): (r: (Factory, World))
    ensures r.0 == f.(products := if f.products.None? then None else Some([]))
    ensures IsEmpty(r.0)
    ensures r.1.Valid() <== w.Valid()
    ensures forall id | id in w.objects :: id in r.1.objects <==> id !in List(f)
    ensures forall id | id in r.1.objects :: id in w.objects && r.1.objects[id] == w.objects[id]
  {
    if f.products.None? then (f, w)
    else (f.(products := Some([])), DestroyAllOf(w, List(f)))
  }

  /** The live, active products of `list`, in list order (the predicate of `GetActiveProducts`). */
  function ActiveOf(list: seq<ObjId>, w: World): (r: seq<ObjId>)
    ensures |r| <= |list|
    ensures forall id :: id in r <==> id in list && id in w.objects && w.objects[id].active
  {
    if |list| == 0 then []
    else
      var rest := ActiveOf(list[1..], w);
      var id := list[0];
      assert forall o :: o in list <==> o == id || o in list[1..];
      if id in w.objects && w.objects[id].active then [id] + rest else rest
  }

  /** `ActiveOf` filters piecewise: the active products of a joined list are those of each part, in order. */
  lemma {:induction false} ActiveOfAppend(a: seq<ObjId>, b: seq<ObjId>, w: World)
    ensures ActiveOf(a + b, w) == ActiveOf(a, w) + ActiveOf(b, w)
  {
    if |a| > 0 {
      assert (a + b)[1..] == a[1..] + b;
      ActiveOfAppend(a[1..], b, w);
    } else {
      assert a + b == b;
    }
  }

  /** `ActiveOf` of a list without repetitions has none either. */
  lemma {:induction false} ActiveOfDistinct(list: seq<ObjId>, w: World)
    requires Distinct(list)
    ensures Distinct(ActiveOf(list, w))
  {
    if |list| > 0 {
      assert Distinct(list[1..]);
      ActiveOfDistinct(list[1..], w);
      assert list[0] !in list[1..];
    }
  }

  /** `GetActiveProducts`: the list must exist, as the source calls `FindAll` on it. */
  function GetActiveProducts(f: Factory, w: World): (r: seq<ObjId>)
    requires f.products.Some?
    ensures forall id :: id in r <==> id in f.products.value && id in w.objects && w.objects[id].active
  {
    ActiveOf(f.products.value, w)
  }

  /** `RemoveFirst`: the first product is destroyed and dropped from the list and returned; nothing happens to an empty list. */
  function RemoveFirst(f: Factory, w: World): (r: (Factory, World, Option<ObjId>))
    ensures IsEmpty(f) ==> r == (f, w, None)
    ensures !IsEmpty(f) ==>
              && r.2 == Some(List(f)[0])
              && r.0 == f.(products := Some(List(f)[1..]))
              && r.1 == Destroy(w, List(f)[0])
  {
    if IsEmpty(f) then (f, w, None)
    else (f.(products := Some(List(f)[1..])), Destroy(w, List(f)[0]), Some(List(f)[0]))
  }

  /** `RemoveLast`: the last product is destroyed and dropped from the list and returned; nothing happens to an empty list. */
  function RemoveLast(f: Factory, w: World): (r: (Factory, World, Option<ObjId>))
    ensures IsEmpty(f) ==> r == (f, w, None)
    ensures !IsEmpty(f) ==>
              && r.2 == Some(List(f)[Count(f) - 1])
              && r.0 == f.(products := Some(List(f)[..Count(f) - 1]))
              && r.1 == Destroy(w, List(f)[Count(f) - 1])
  {
    if IsEmpty(f) then (f, w, None)
    else
      var last := |List(f)| - 1;
      (f.(products := Some(List(f)[..last])), Destroy(w, List(f)[last]), Some(List(f)[last]))
  }

  /** Removing keeps the factory well-formed and shortens the list by one. */
  lemma RemoveKeepsWellFormed(f: Factory, w: World)
    requires WellFormed(f, w)
    ensures WellFormed(RemoveFirst(f, w).0, RemoveFirst(f, w).1)
    ensures WellFormed(RemoveLast(f, w).0, RemoveLast(f, w).1)
    ensures !IsEmpty(f) ==> Count(RemoveFirst(f, w).0) == Count(f) - 1 == Count(RemoveLast(f, w).0)
  {
    if !IsEmpty(f) {
      var l := List(f);
      assert forall i | 1 <= i < |l| :: l[i] != l[0];
      assert forall i | 0 <= i < |l| - 1 :: l[i] != l[|l| - 1];
    }
  }

  /** `Release`: the factory forgets its products (the objects stay in the scene) and starts the next charge. */
  function Release(f: Factory): (r: Factory)
    ensures r.products.None? && IsEmpty(r)
    ensures r.charge == f.charge + 1
    ensures r == f.(products := None, charge := f.charge + 1)
  {
    f.(products := None, charge := f.charge + 1)
  }

  /** After `Release` the next product starts a new numbering: it is named with the new charge and index 0. */
  lemma ReleaseRestartsNaming(f: Factory, w: World, position: Vec3)
    requires w.Valid()
    requires f.appendChargeNumber && f.appendIndexNumber
    ensures var p := Produce(Release(f), w, position);
            && List(p.0) == [p.1]
            && p.2.objects[p.1].name
               == Strings.DropSuffix(Strings.DropPrefix(f.objectToCreate.instanceName, f.pickedPrefix), CloneSuffix)
                  + "_" + Strings.IntToString(f.charge + 1) + "_" + Strings.IntToString(0)
  {
  }

  /** The highest list position below `hi` whose product is active. */
  function LatestActiveBelow(list: seq<ObjId>, w: World, hi: nat): (r: Option<nat>)
    requires hi <= |list|
    requires forall i | 0 <= i < |list| :: list[i] in w.objects
    ensures r.Some? ==> r.value < hi && w.objects[list[r.value]].active
    ensures r.Some? ==> forall j | r.value < j < hi :: !w.objects[list[j]].active
    ensures r.None? ==> forall j | 0 <= j < hi :: !w.objects[list[j]].active
  {
    if hi == 0 then None
    else if w.objects[list[hi - 1]].active then Some(hi - 1)
    else LatestActiveBelow(list, w, hi - 1)
  }

  /**
   * `GetLatest`: the last active product, or null when none is active. The
   * source reads `activeSelf` on every product it passes, so it needs all of
   * them alive.
   */
  function GetLatest(f: Factory, w: World): (r: Option<ObjId>)
    requires WellFormed(f, w)
    ensures r.Some? ==> r.value in List(f) && w.objects[r.value].active
    ensures r.Some? ==> exists i | 0 <= i < Count(f) :: List(f)[i] == r.value
                          && forall j | i < j < Count(f) :: !w.objects[List(f)[j]].active
    ensures r.None? <==> forall i | 0 <= i < Count(f) :: !w.objects[List(f)[i]].active
  {
    var i := LatestActiveBelow(List(f), w, |List(f)|);
    if i.Some? then Some(List(f)[i.value]) else None
  }

  /**
   * `SwapProductObject` as written: the product at `index` is destroyed and a
   * copy of `template` takes its list place, created through `CalcPos` at the
   * old product's position, so the offset is applied a second time. The
   * source only warns about a bad index and then indexes anyway, and it reads
   * the old product's position, so both must be valid.
   */
  function SwapProductObject(f: Factory, w: World, index: nat, template: Template): (r: (Factory, World))
    requires w.Valid() && index < Count(f) && List(f)[index] in w.objects
    ensures r.1.Valid()
    ensures r.0.products.Some? && r.0 == f.(products := r.0.products)
    ensures Count(r.0) == Count(f)
    ensures forall i | 0 <= i < Count(f) && i != index :: List(r.0)[i] == List(f)[i]
    ensures var id := List(r.0)[index];
            && id !in w.objects
            && r.1.objects == (w.objects - {List(f)[index]})[id := CreatedObject(f, template, w.objects[List(f)[index]].pos)]
  {
    var old_ := List(f)[index];
    var position := w.objects[old_].pos;
    var w1 := Destroy(w, old_);
    var (id, w2) := CreateFromTemplate(f, w1, template, position);
    (f.(products := Some(List(f)[index := id])), w2)
  }

  /** The swapped-in object of `SwapProductObject` is moved off its place by the position offset (and the factory position when relative). */
  lemma SwapProductObjectShifts(f: Factory, w: World, index: nat, template: Template)
    requires w.Valid() && index < Count(f) && List(f)[index] in w.objects
    ensures var r := SwapProductObject(f, w, index, template);
            r.1.objects[List(r.0)[index]].pos.Minus(w.objects[List(f)[index]].pos)
              == (if f.relativePos then f.positionOffset.Plus(f.origin) else f.positionOffset)
  {
  }

  /** A concrete case: with the painter's usual offset (0.5, 0, 0.5) the swapped-in object lands half a cell away. */
  lemma SwapProductObjectShiftExample(f: Factory, w: World, template: Template)
    requires w.Valid() && Count(f) > 0 && List(f)[0] in w.objects
    requires !f.relativePos && f.positionOffset == Vec3(0.5, 0.0, 0.5)
    requires w.objects[List(f)[0]].pos == Vec3(2.5, 0.0, 3.5)
    ensures var r := SwapProductObject(f, w, 0, template);
            r.1.objects[List(r.0)[0]].pos == Vec3(3.0, 0.0, 4.0)
  {
    var r := SwapProductObject(f, w, 0, template);
    assert r.1.objects[List(r.0)[0]].pos == CalcPos(f, Vec3(2.5, 0.0, 3.5));
  }

  /**
   * The evident intent of `SwapProductObject`: the replacement takes the old
   * product's list place and its position.
   */
  function SwapInPlace(f: Factory, w: World, index: nat, template: Template): (r: (Factory, World))
    requires w.Valid() && index < Count(f) && List(f)[index] in w.objects
    ensures r.1.Valid()
    ensures Count(r.0) == Count(f)
    ensures forall i | 0 <= i < Count(f) && i != index :: List(r.0)[i] == List(f)[i]
    ensures WellFormed(f, w) ==> WellFormed(r.0, r.1)
    ensures var id := List(r.0)[index];
            && id !in w.objects
            && id in r.1.objects
            && r.1.objects[id].pos == w.objects[List(f)[index]].pos
            && r.1.objects == (w.objects - {List(f)[index]})[id := r.1.objects[id]]
  {
    var old_ := List(f)[index];
    var position := w.objects[old_].pos;
    var w1 := Destroy(w, old_);
    var (id, w2) := Instantiate(w1, CreatedObject(f, template, position).(pos := position));
    (f.(products := Some(List(f)[index := id])), w2)
  }
}

=== FILE: object_groups.dfy ===
/**
 * The painter's object groups: painted objects are parented under a group
 * object named after the object's name with copy numbers removed, and a
 * cleanup pass removes inactive members, empty groups and leftover
 * holding or picked objects.
 */
module ObjectGroups {
  import Strings
  import opened Wrappers

  const HoldingPrefix: string := "(Holding) "
  const PickedPrefix: string := "(Picked)"
  const GroupPrefix: string := "Group of: "

  /**
   * The characters of the replacement pattern `[( \(\d+\))(_\d+)+]`. It is a
   * single character class, so it matches one bracket, space, plus sign,
   * underscore or decimal digit anywhere in the name.
   */
  predicate Stripped(c: char) {
    c == '(' || c == ')' || c == ' ' || c == '+' || c == '_' || Strings.IsDigit(c)
  }

  /** Every match of the pattern replaced by the empty string. */
  function StripGroupChars(s: string): (r: string)
    ensures |r| <= |s|
    ensures forall i | 0 <= i < |r| :: !Stripped(r[i])
    decreases |s|
  {
    if |s| == 0 then []
    else (if Stripped(s[0]) then [] else [s[0]]) + StripGroupChars(s[1..])
  }

  /** Stripping works piece by piece. */
  lemma {:induction false} StripAppend(a: string, b: string)
    ensures StripGroupChars(a + b) == StripGroupChars(a) + StripGroupChars(b)
    decreases |a|
  {
    if |a| == 0 {
      assert a + b == b;
    } else {
      assert (a + b)[0] == a[0];
      assert (a + b)[1..] == a[1..] + b;
      StripAppend(a[1..], b);
    }
  }

  /** A string without pattern characters is left alone, so stripping twice is stripping once. */
  lemma {:induction false} StripClean(s: string)
    requires forall i | 0 <= i < |s| :: !Stripped(s[i])
    ensures StripGroupChars(s) == s
    decreases |s|
  {
    if |s| > 0 {
      StripClean(s[1..]);
    }
  }

  lemma StripIdempotent(s: string)
    ensures StripGroupChars(StripGroupChars(s)) == StripGroupChars(s)
  {
    StripClean(StripGroupChars(s));
  }

  /** A string of pattern characters only strips to nothing. */
  lemma {:induction false} StripAllStripped(s: string)
    requires forall i | 0 <= i < |s| :: Stripped(s[i])
    ensures StripGroupChars(s) == []
    decreases |s|
  {
    if |s| > 0 {
      StripAllStripped(s[1..]);
    }
  }

  /**
   * The name of the group an object belongs to (`GetObjectGroupFor`): the
   * group prefix, then the object's name without the holding prefix and
   * with every pattern character removed.
   */
  function GroupName(name: string): (r: string)
    ensures Strings.StartsWith(r, GroupPrefix)
    ensures forall i | |GroupPrefix| <= i < |r| :: !Stripped(r[i])
    ensures r == GroupPrefix + StripGroupChars(Strings.DropPrefix(name, HoldingPrefix))
  {
    GroupPrefix + StripGroupChars(Strings.DropPrefix(name, HoldingPrefix))
  }

  /** Copies numbered by the engine or the factory ("Tree (3)", "Tree_12") land in the group of the bare name. */
  lemma NumberedCopiesShareGroup(name: string, suffix: string)
    requires |name| >= |HoldingPrefix|
    requires forall i | 0 <= i < |suffix| :: Stripped(suffix[i])
    ensures GroupName(name + suffix) == GroupName(name)
  {
    var n := |HoldingPrefix|;
    assert (name + suffix)[..n] == name[..n];
    var base := Strings.DropPrefix(name, HoldingPrefix);
    if Strings.StartsWith(name, HoldingPrefix) {
      assert (name + suffix)[n..] == base + suffix;
    }
    assert Strings.DropPrefix(name + suffix, HoldingPrefix) == base + suffix;
    StripAppend(base, suffix);
    StripAllStripped(suffix);
  }

  /** The object being held, renamed with the holding prefix, belongs to the same group as once placed. */
  lemma HeldObjectSharesGroup(name: string)
    requires !Strings.StartsWith(name, HoldingPrefix)
    ensures GroupName(HoldingPrefix + name) == GroupName(name)
  {
    assert (HoldingPrefix + name)[..|HoldingPrefix|] == HoldingPrefix;
    assert (HoldingPrefix + name)[|HoldingPrefix|..] == name;
  }

  /**
   * Because the class matches anywhere, a digit, space or bracket inside a
   * name is dropped as well: "Rock1" and "Rock2" share a group, and
   * "Big Tree" is keyed as "BigTree".
   */
  lemma InnerCharacterDropped(a: string, c: char, b: string)
    requires Stripped(c)
    requires !Strings.StartsWith(a + [c] + b, HoldingPrefix) && !Strings.StartsWith(a + b, HoldingPrefix)
    ensures GroupName(a + [c] + b) == GroupName(a + b)
  {
    StripAppend(a + [c], b);
    StripAppend(a, [c]);
    StripAppend(a, b);
    assert StripGroupChars([c]) == [];
  }

  /**
   * Finding or creating the group: `children` are the names under the group
   * root and `tracked` the painter's list of groups. An existing child of
   * that name is reused; otherwise a new one is appended to both.
   */
  function GetObjectGroupFor(children: seq<string>, tracked: seq<string>, name: string): (r: (seq<string>, seq<string>, string))
    ensures r.2 == GroupName(name) && r.2 in r.0
    ensures GroupName(name) in children ==> r.0 == children && r.1 == tracked
    ensures GroupName(name) !in children ==> r.0 == children + [r.2] && r.1 == tracked + [r.2]
  {
    var key := GroupName(name);
    if key in children then (children, tracked, key)
    else (children + [key], tracked + [key], key)
  }

  /** Objects whose names agree after normalisation share one group, and at most one group is created for them. */
  lemma SameKeySameGroup(children: seq<string>, tracked: seq<string>, a: string, b: string)
    requires GroupName(a) == GroupName(b)
    ensures var r1 := GetObjectGroupFor(children, tracked, a);
            var r2 := GetObjectGroupFor(r1.0, r1.1, b);
            && r2.2 == r1.2
            && r2.0 == r1.0 && r2.1 == r1.1
            && |r2.0| <= |children| + 1
  {
  }

  // ---- CleanObjectGroups ----

  /** A child of the group root: its name and the `activeSelf` flags of its own children. */
  datatype Node = Node(name: string, members: seq<bool>)

  /** The number of active members. */
  function ActiveCount(flags: seq<bool>): nat
    decreases |flags|
  {
    if |flags| == 0 then 0 else (if flags[0] then 1 else 0) + ActiveCount(flags[1..])
  }

  /** The active flags only (the members that survive step 1): one entry per active member. */
  function ActiveOnly(flags: seq<bool>): (r: seq<bool>)
    ensures forall i | 0 <= i < |r| :: r[i]
    ensures |r| == ActiveCount(flags)
    decreases |flags|
  {
    if |flags| == 0 then []
    else (if flags[0] then [true] else []) + ActiveOnly(flags[1..])
  }

  /** Step 1: inside every group, the inactive members are destroyed. */
  function DropInactive(c: Node): (r: Node)
    ensures r.name == c.name
    ensures Strings.StartsWith(c.name, GroupPrefix) ==>
              |r.members| == ActiveCount(c.members) && forall i | 0 <= i < |r.members| :: r.members[i]
    ensures !Strings.StartsWith(c.name, GroupPrefix) ==> r == c
  {
    if Strings.StartsWith(c.name, GroupPrefix) then c.(members := ActiveOnly(c.members)) else c
  }

  /** Step 2: a holding or picked leftover, or a group left without members, is destroyed. */
  predicate Doomed(c: Node) {
    || Strings.StartsWith(c.name, HoldingPrefix)
    || Strings.StartsWith(c.name, PickedPrefix)
    || (Strings.StartsWith(c.name, GroupPrefix) && |c.members| == 0)
  }

  /** Both steps over the root's children, in order (destruction is immediate in the editor). */
  function CleanChildren(children: seq<Node>): (r: seq<Node>)
    ensures |r| <= |children|
    ensures forall k | 0 <= k < |r| :: !Doomed(r[k])
    ensures forall k | 0 <= k < |r| :: Strings.StartsWith(r[k].name, GroupPrefix) ==> forall i | 0 <= i < |r[k].members| :: r[k].members[i]
    decreases |children|
  {
    if |children| == 0 then []
    else
      var c := DropInactive(children[0]);
      var rest := CleanChildren(children[1..]);
      assert Strings.StartsWith(c.name, GroupPrefix) ==> forall i | 0 <= i < |c.members| :: c.members[i];
      (if Doomed(c) then [] else [c]) + rest
  }

  /** A child survives the cleanup, with its inactive members removed, exactly when that cleaned form is not doomed. */
  lemma {:induction false} CleanKeeps(children: seq<Node>, k: nat)
    requires k < |children|
    ensures DropInactive(children[k]) in CleanChildren(children) <==> !Doomed(DropInactive(children[k]))
    decreases |children|
  {
    var c := DropInactive(children[k]);
    var r := CleanChildren(children);
    if c in r {
      var j :| 0 <= j < |r| && r[j] == c;
    }
    if k > 0 {
      assert children[1..][k - 1] == children[k];
      CleanKeeps(children[1..], k - 1);
    }
  }

  /**
   * `CleanObjectGroups`: nothing happens without a group root; otherwise the
   * children are cleaned and, on activation, the surviving children become
   * the tracked groups (any other time the tracked list is cleared).
   */
  function CleanObjectGroups(root: Option<seq<Node>>, tracked: seq<string>, isOnActivation: bool): (r: (Option<seq<Node>>, seq<string>))
    ensures root.None? ==> r == (root, tracked)
    ensures root.Some? ==> r.0 == Some(CleanChildren(root.value))
    ensures root.Some? && !isOnActivation ==> r.1 == []
    ensures root.Some? && isOnActivation ==>
              |r.1| == |r.0.value| && forall i | 0 <= i < |r.1| :: r.1[i] == r.0.value[i].name
  {
    match root
    case None => (root, tracked)
    case Some(children) =>
      var kept := CleanChildren(children);
      (Some(kept), if isOnActivation then seq(|kept|, i requires 0 <= i < |kept| => kept[i].name) else [])
  }

  lemma {:induction false} ActiveOnlyIdempotent(flags: seq<bool>)
    requires forall i | 0 <= i < |flags| :: flags[i]
    ensures ActiveOnly(flags) == flags
    decreases |flags|
  {
    if |flags| > 0 {
      ActiveOnlyIdempotent(flags[1..]);
    }
  }

  /** A second cleanup finds nothing more to remove. */
  lemma {:induction false} CleanIdempotent(children: seq<Node>)
    ensures CleanChildren(CleanChildren(children)) == CleanChildren(children)
    decreases |children|
  {
    if |children| > 0 {
      var c := DropInactive(children[0]);
      var rest := CleanChildren(children[1..]);
      CleanIdempotent(children[1..]);
      var r := CleanChildren(children);
      if Doomed(c) {
        assert r == rest;
      } else {
        assert r == [c] + rest;
        assert r[0] == c && r[1..] == rest;
        if Strings.StartsWith(c.name, GroupPrefix) {
          assert forall i | 0 <= i < |c.members| :: c.members[i];
          ActiveOnlyIdempotent(c.members);
        }
        assert DropInactive(c) == c;
        assert CleanChildren(r) == [DropInactive(r[0])] + CleanChildren(r[1..]);
      }
    }
  }

  lemma FirstCharMismatch(s: string, prefix: string)
    requires |s| > 0 && |prefix| > 0 && s[0] != prefix[0]
    ensures !Strings.StartsWith(s, prefix)
  {
    if |prefix| <= |s| {
      assert s[..|prefix|][0] == s[0];
    }
  }

  /** A group whose members are all inactive goes; one with an active member stays, holding only its active members. */
  lemma CleanupExample()
    ensures CleanChildren([Node("Group of: Tree", [false, false])]) == []
    ensures CleanChildren([Node("Group of: Rock", [true, false, true])]) == [Node("Group of: Rock", [true, true])]
    ensures CleanChildren([Node("(Picked)Rock", []), Node("Props", [])]) == [Node("Props", [])]
  {
    assert Strings.StartsWith("Group of: Tree", GroupPrefix);
    assert Strings.StartsWith("Group of: Rock", GroupPrefix);
    assert Strings.StartsWith("(Picked)Rock", PickedPrefix);
    assert !Strings.StartsWith("Props", GroupPrefix) && !Strings.StartsWith("Props", HoldingPrefix) && !Strings.StartsWith("Props", PickedPrefix);
    assert ActiveOnly([false]) == [];
    assert [true, false, true][1..] == [false, true] && [false, true][1..] == [true];
    assert ActiveOnly([true]) == [true];
    assert ActiveOnly([false, true]) == [true];
    assert ActiveOnly([true, false, true]) == [true, true];
    FirstCharMismatch("Group of: Rock", HoldingPrefix);
    FirstCharMismatch("Group of: Rock", PickedPrefix);
    var rock := Node("Group of: Rock", [true, true]);
    assert DropInactive(Node("Group of: Rock", [true, false, true])) == rock && !Doomed(rock);
    assert [Node("Group of: Rock", [true, false, true])][1..] == [];
  }
}

=== FILE: paint_action.dfy ===
/**
 * `PaintAction`: one entry of the painter's undo history. It records which
 * objects a stroke added or removed, with the position and rotation each
 * had when the action was recorded, and undoes the stroke on request.
 */
module PaintAction {
  import opened Vectors
  import opened Scene

  datatype ActionType = Added | Removed

  /**
   * The recorded objects with, index by index, their captured positions and
   * rotations (`eulerAngles` in the source, kept here as the rotation itself).
   */
  datatype Action = Action(kind: ActionType, objects: seq<ObjId>, positions: seq<Vec3>, rotations: seq<Rotation>)

  /** The three lists have one entry per recorded object. */
  predicate Aligned(a: Action) {
    |a.objects| == |a.positions| == |a.rotations|
  }

  /** Every entry of `a` holds the position and rotation its object has in `w`. */
  predicate Snapshots(a: Action, w: World) {
    && Aligned(a)
    && forall i | 0 <= i < |a.objects| ::
         && a.objects[i] in w.objects
         && a.positions[i] == w.objects[a.objects[i]].pos
         && a.rotations[i] == w.objects[a.objects[i]].rot
  }

  /** The single-object constructor: exactly the one object, as it is now. */
  function FromObject(w: World, id: ObjId, kind: ActionType): (a: Action)
    requires id in w.objects
    ensures a.kind == kind && a.objects == [id]
    ensures Snapshots(a, w)
  {
    Action(kind, [id], [w.objects[id].pos], [w.objects[id].rot])
  }

  /** The live members of `ids`, in order: what the collection constructor keeps. */
  function LiveOf(ids: seq<ObjId>, w: World): (r: seq<ObjId>)
    ensures |r| <= |ids|
    ensures forall id :: id in r <==> id in ids && id in w.objects
    decreases |ids|
  {
    if |ids| == 0 then []
    else
      var last := ids[|ids| - 1];
      LiveOf(ids[..|ids| - 1], w) + (if last in w.objects then [last] else [])
  }

  /** What the collection constructor records, stated directly: the live members with their current position and rotation. */
  function Capture(w: World, ids: seq<ObjId>, kind: ActionType): (a: Action)
    ensures a.kind == kind && a.objects == LiveOf(ids, w)
    ensures Snapshots(a, w)
  {
    var live := LiveOf(ids, w);
    assert forall i | 0 <= i < |live| :: live[i] in live;
    Action(kind, live,
           seq(|live|, i requires 0 <= i < |live| => w.objects[live[i]].pos),
           seq(|live|, i requires 0 <= i < |live| => w.objects[live[i]].rot))
  }

  /** One more member of `ids` adds itself to the live ones exactly when it is alive. */
  lemma LiveOfStep(ids: seq<ObjId>, i: nat, w: World)
    requires i < |ids|
    ensures LiveOf(ids[..i + 1], w) == LiveOf(ids[..i], w) + (if ids[i] in w.objects then [ids[i]] else [])
  {
    assert ids[..i + 1][..i] == ids[..i];
  }

  /** Recording one more live object, as it is now, keeps every entry a snapshot. */
  lemma SnapshotsAppend(a: Action, w: World, id: ObjId)
    requires Snapshots(a, w) && id in w.objects
    ensures Snapshots(Action(a.kind, a.objects + [id], a.positions + [w.objects[id].pos], a.rotations + [w.objects[id].rot]), w)
  {
    var b := Action(a.kind, a.objects + [id], a.positions + [w.objects[id].pos], a.rotations + [w.objects[id].rot]);
    forall i | 0 <= i < |b.objects|
      ensures b.objects[i] in w.objects && b.positions[i] == w.objects[b.objects[i]].pos && b.rotations[i] == w.objects[b.objects[i]].rot
    {
      if i < |a.objects| {
        assert b.objects[i] == a.objects[i] && b.positions[i] == a.positions[i] && b.rotations[i] == a.rotations[i];
      }
    }
  }

  /** An action of snapshots is determined by its kind and its objects: it is the capture of them. */
  lemma SnapshotsAreCapture(a: Action, w: World, ids: seq<ObjId>)
    requires Snapshots(a, w) && a.objects == LiveOf(ids, w)
    ensures a == Capture(w, ids, a.kind)
  {
    var c := Capture(w, ids, a.kind);
    assert a.positions == c.positions;
    assert a.rotations == c.rotations;
  }

  /** The collection constructor: destroyed (null) members are skipped, the others captured as they are now. */
  method FromCollection(w: World, ids: seq<ObjId>, kind: ActionType) returns (a: Action)
    ensures a.kind == kind
    ensures a.objects == LiveOf(ids, w)
    ensures Snapshots(a, w)
    ensures a == Capture(w, ids, kind)
  {
    var objects: seq<ObjId> := [];
    var positions: seq<Vec3> := [];
    var rotations: seq<Rotation> := [];
    var i := 0;
    while i < |ids|
      invariant 0 <= i <= |ids|
      invariant objects == LiveOf(ids[..i], w)
      invariant Snapshots(Action(kind, objects, positions, rotations), w)
    {
      var id := ids[i];
      LiveOfStep(ids, i, w);
      if id in w.objects {
        SnapshotsAppend(Action(kind, objects, positions, rotations), w, id);
        objects := objects + [id];
        positions := positions + [w.objects[id].pos];
        rotations := rotations + [w.objects[id].rot];
      }
      i := i + 1;
    }
    assert ids[..i] == ids;
    a := Action(kind, objects, positions, rotations);
    SnapshotsAreCapture(a, w, ids);
  }

  /** Entry `i` is the last one that records its object. */
  predicate LastEntry(a: Action, i: nat, n: nat)
    requires i < n <= |a.objects|
  {
    forall j | i < j < n :: a.objects[j] != a.objects[i]
  }

  /** Putting entry `i` of a removal back: a live object is reactivated at its captured position and rotation; a dead one is skipped. */
  function RestoreEntry(a: Action, w: World, i: nat): (r: World)
    requires Aligned(a) && i < |a.objects|
    ensures r.nextId == w.nextId && r.objects.Keys == w.objects.Keys
    ensures forall id | id in w.objects && id != a.objects[i] :: r.objects[id] == w.objects[id]
    ensures forall id | id in w.objects :: r.objects[id].name == w.objects[id].name
    ensures a.objects[i] in w.objects ==>
              r.objects[a.objects[i]] == w.objects[a.objects[i]].(active := true, pos := a.positions[i], rot := a.rotations[i])
  {
    var id := a.objects[i];
    if id !in w.objects then w
    else Put(w, id, w.objects[id].(active := true, pos := a.positions[i], rot := a.rotations[i]))
  }

  /** The undo loop of a removal over its first `n` entries: nothing but the recorded objects changes, and no object appears or disappears. */
  function RestoreUpTo(a: Action, w: World, n: nat): (r: World)
    requires Aligned(a) && n <= |a.objects|
    ensures r.nextId == w.nextId && r.objects.Keys == w.objects.Keys
    ensures forall id | id in w.objects :: r.objects[id].name == w.objects[id].name
    decreases n
  {
    if n == 0 then w
    else RestoreEntry(a, RestoreUpTo(a, w, n - 1), n - 1)
  }

  /** An object none of the first `n` entries records is left as it was. */
  lemma {:induction false} RestoreUpToFrame(a: Action, w: World, n: nat, id: ObjId)
    requires Aligned(a) && n <= |a.objects|
    requires id in w.objects && id !in a.objects[..n]
    ensures RestoreUpTo(a, w, n).objects[id] == w.objects[id]
    decreases n
  {
    if n > 0 {
      assert a.objects[..n] == a.objects[..n - 1] + [a.objects[n - 1]];
      RestoreUpToFrame(a, w, n - 1, id);
    }
  }

  /** The state entry `i` of a removal puts its live object back into. */
  function Restored(a: Action, w: World, i: nat): GameObject
    requires Aligned(a) && i < |a.objects| && a.objects[i] in w.objects
  {
    w.objects[a.objects[i]].(active := true, pos := a.positions[i], rot := a.rotations[i])
  }

  /** Each live recorded object ends as the last of its entries among the first `n` put it back. */
  lemma {:induction false} RestoreUpToLastEntry(a: Action, w: World, n: nat, i: nat)
    requires Aligned(a) && i < n <= |a.objects|
    requires a.objects[i] in w.objects && LastEntry(a, i, n)
    ensures RestoreUpTo(a, w, n).objects[a.objects[i]] == Restored(a, w, i)
    decreases n
  {
    var id := a.objects[i];
    var prev := RestoreUpTo(a, w, n - 1);
    if i < n - 1 {
      RestoreUpToLastEntry(a, w, n - 1, i);
      assert prev.objects[id] == Restored(a, w, i);
    }
  }

  /**
   * `Undo`: an addition is undone by destroying every recorded object that
   * still exists, a removal by putting the recorded objects back.
   */
  function Undo(a: Action, w: World): (r: World)
    requires Aligned(a)
    ensures r.Valid() <== w.Valid()
    ensures forall id | id !in a.objects :: (id in r.objects <==> id in w.objects)
    ensures forall id | id in r.objects && id !in a.objects :: r.objects[id] == w.objects[id]
    ensures a.kind == Added ==> forall id :: id in r.objects <==> id in w.objects && id !in a.objects
    ensures a.kind == Removed ==> r.objects.Keys == w.objects.Keys
  {
    if a.kind == Added then DestroyAllOf(w, a.objects)
    else
      assert a.objects[..|a.objects|] == a.objects;
      var r := RestoreUpTo(a, w, |a.objects|);
      assert forall id | id in w.objects && id !in a.objects :: r.objects[id] == w.objects[id] by {
        forall id | id in w.objects && id !in a.objects
          ensures r.objects[id] == w.objects[id]
        {
          RestoreUpToFrame(a, w, |a.objects|, id);
        }
      }
      r
  }

  /**
   * Capture and undo of a removal round-trip: whatever happened to the
   * recorded objects since, undoing puts every one still alive back,
   * active, at the position and rotation captured, and changes nothing else.
   */
  lemma {:induction false} UndoRemovedRestoresCapture(a: Action, before: World, w: World)
    requires a.kind == Removed && Snapshots(a, before)
    ensures var r := Undo(a, w);
            && r.objects.Keys == w.objects.Keys
            && (forall id | id in w.objects && id in a.objects ::
                  r.objects[id] == w.objects[id].(active := true, pos := before.objects[id].pos, rot := before.objects[id].rot))
            && (forall id | id in w.objects && id !in a.objects :: r.objects[id] == w.objects[id])
  {
    var n := |a.objects|;
    assert a.objects[..n] == a.objects;
    forall id | id in w.objects && id in a.objects
      ensures Undo(a, w).objects[id] == w.objects[id].(active := true, pos := before.objects[id].pos, rot := before.objects[id].rot)
    {
      var i := LastIndexOf(a.objects, id);
      RestoreUpToLastEntry(a, w, n, i);
    }
  }

  /** The index of the last occurrence of `id` in `s`. */
  function LastIndexOf(s: seq<ObjId>, id: ObjId): (i: nat)
    requires id in s
    ensures i < |s| && s[i] == id
    ensures forall j | i < j < |s| :: s[j] != id
    decreases |s|
  {
    if s[|s| - 1] == id then |s| - 1 else LastIndexOf(s[..|s| - 1], id)
  }

  /** Undoing an addition destroys exactly the recorded objects that are still alive. */
  lemma UndoAddedDestroysRecorded(w0: World, ids: seq<ObjId>, a: Action, w: World)
    requires a.kind == Added && a.objects == LiveOf(ids, w0) && Aligned(a)
    ensures forall id :: id in Undo(a, w).objects <==> id in w.objects && !(id in ids && id in w0.objects)
  {
  }
}

=== FILE: painter_controls.dfy ===
/**
 * The painter's hotkey cycles and scroll-wheel clamps: the canvas axis
 * (Space), the align axis (X), the stroke/surface alignment (A), and the
 * ranges that brush radius, padding, circle sweep and canvas position are
 * kept in.
 */
module PainterControls {
  import opened Vectors
  import Mathf

  datatype OperationMode = Freehand | Line | Rect | Circle | Scale
  datatype CanvasAxis = X | Y | Z
  datatype AlignAxis = PositiveX | NegativeX | PositiveY | NegativeY | PositiveZ | NegativeZ

  const MinPadding: real := 0.25
  const MaxPadding: real := 10.0
  const MaxBrushRadius: real := 100.0
  const DegreesStep: real := 10.0
  const FullSweep: real := 360.0

  // ---- Canvas axis (Space) ----

  /** Space: the canvas axis after `a`, in the order X, Y, Z. */
  function NextCanvasAxis(a: CanvasAxis): (r: CanvasAxis)
    ensures r != a
  {
    match a
    case X => Y
    case Y => Z
    case Z => X
  }

  /** The component of `v` along the canvas axis `a`. */
  function Component(v: Vec3, a: CanvasAxis): real {
    match a
    case X => v.x
    case Y => v.y
    case Z => v.z
  }

  /** `v` with its component along `a` replaced by `c`. */
  function WithComponent(v: Vec3, a: CanvasAxis, c: real): (r: Vec3)
    ensures Component(r, a) == c
    ensures forall b | b != a :: Component(r, b) == Component(v, b)
  {
    match a
    case X => v.(x := c)
    case Y => v.(y := c)
    case Z => v.(z := c)
  }

  /** Three presses of Space bring the canvas axis back. */
  lemma CanvasAxisCycle(a: CanvasAxis)
    ensures NextCanvasAxis(NextCanvasAxis(NextCanvasAxis(a))) == a
    ensures NextCanvasAxis(a) != a && NextCanvasAxis(NextCanvasAxis(a)) != a
  {
  }

  // ---- Align axis (X) ----

  /** The enum's underlying value. */
  function AlignOrdinal(a: AlignAxis): (n: nat)
    ensures n < 6
  {
    match a
    case PositiveX => 0
    case NegativeX => 1
    case PositiveY => 2
    case NegativeY => 3
    case PositiveZ => 4
    case NegativeZ => 5
  }

  /** The enum value with underlying value `n` (the cast back after `++`). */
  function AlignOfOrdinal(n: nat): (a: AlignAxis)
    requires n < 6
    ensures AlignOrdinal(a) == n
  {
    if n == 0 then PositiveX
    else if n == 1 then NegativeX
    else if n == 2 then PositiveY
    else if n == 3 then NegativeY
    else if n == 4 then PositiveZ
    else NegativeZ
  }

  lemma AlignOrdinalInjective(a: AlignAxis, b: AlignAxis)
    requires AlignOrdinal(a) == AlignOrdinal(b)
    ensures a == b
  {
  }

  /** Key X: `NegativeZ` wraps to `PositiveX`, every other value is incremented. */
  function NextAlignAxis(a: AlignAxis): (r: AlignAxis)
    ensures AlignOrdinal(r) == (AlignOrdinal(a) + 1) % 6
  {
    if a == NegativeZ then PositiveX else AlignOfOrdinal(AlignOrdinal(a) + 1)
  }

  /** The align axis after `k` presses of X. */
  function AlignPresses(a: AlignAxis, k: nat): AlignAxis
    decreases k
  {
    if k == 0 then a else NextAlignAxis(AlignPresses(a, k - 1))
  }

  /** After `k` presses the align axis stands `k` places further, modulo six. */
  lemma {:induction false} AlignPressesOrdinal(a: AlignAxis, k: nat)
    ensures AlignOrdinal(AlignPresses(a, k)) == (AlignOrdinal(a) + k) % 6
    decreases k
  {
    var o := AlignOrdinal(a);
    if k == 0 {
      Mathf.ModUnique(o, 6, 0, o);
    } else {
      AlignPressesOrdinal(a, k - 1);
      Mathf.ModNext(o + k - 1, 6);
    }
  }

  /** X presses cycle through all six axes: `k` presses give the start back exactly when `k` is a multiple of six. */
  lemma AlignAxisCycle(a: AlignAxis, k: nat)
    ensures AlignPresses(a, k) == a <==> k % 6 == 0
  {
    var o := AlignOrdinal(a);
    AlignPressesOrdinal(a, k);
    if k % 6 == 0 {
      Mathf.ModUnique(o + k, 6, k / 6, o);
      AlignOrdinalInjective(AlignPresses(a, k), a);
    } else if AlignPresses(a, k) == a {
      Mathf.ModUnique(k, 6, (o + k) / 6, 0);
      assert false;
    }
  }

  // ---- Stroke / surface alignment (A) ----

  datatype Alignment = NoAlignment | WithStroke | WithSurface

  /** The alignment the two flags select; the stroke flag is tested first. */
  function AlignmentOf(stroke: bool, surface: bool): Alignment {
    if stroke then WithStroke else if surface then WithSurface else NoAlignment
  }

  /** The alignment after `a`, in the order none, stroke, surface. */
  function NextAlignment(a: Alignment): (r: Alignment)
    ensures r != a
  {
    match a
    case NoAlignment => WithStroke
    case WithStroke => WithSurface
    case WithSurface => NoAlignment
  }

  /** Key A on the flags `(alignWithStroke, alignWithSurface)`. */
  function ToggleAlignment(stroke: bool, surface: bool): (r: (bool, bool))
    ensures !(r.0 && r.1)
    ensures AlignmentOf(r.0, r.1) == NextAlignment(AlignmentOf(stroke, surface))
  {
    if stroke then (false, true)
    else if surface then (false, false)
    else (true, surface)
  }

  /**
   * Three presses of A give the same alignment back, and the flags
   * themselves once they are exclusive (the inspector may set both).
   */
  lemma AlignmentCycle(stroke: bool, surface: bool)
    ensures var (s1, f1) := ToggleAlignment(stroke, surface);
            var (s2, f2) := ToggleAlignment(s1, f1);
            var (s3, f3) := ToggleAlignment(s2, f2);
            && AlignmentOf(s3, f3) == AlignmentOf(stroke, surface)
            && (!(stroke && surface) ==> (s3, f3) == (stroke, surface))
  {
  }

  // ---- Scroll clamps ----

  /** `e.delta.y < 0 ? 1 : -1`: scrolling up is the positive step. */
  function ScrollSign(deltaY: real): (s: real)
    ensures s == 1.0 || s == -1.0
    ensures s > 0.0 <==> deltaY < 0.0
  {
    if deltaY < 0.0 then 1.0 else -1.0
  }

  /** Ctrl+scroll: the brush radius moves by one and is clamped to [0, 100]. */
  function ScrollBrush(radius: real, deltaY: real): (r: real)
    ensures 0.0 <= r <= MaxBrushRadius
    ensures var wanted := radius + ScrollSign(deltaY);
            && (0.0 <= wanted <= MaxBrushRadius ==> r == wanted)
            && (wanted < 0.0 ==> r == 0.0)
            && (wanted > MaxBrushRadius ==> r == MaxBrushRadius)
  {
    Mathf.Min(MaxBrushRadius, Mathf.Max(0.0, radius + ScrollSign(deltaY)))
  }

  /** Inside the range a notch up and a notch down cancel, and a whole radius stays whole. */
  lemma BrushScrollUpDown(radius: real)
    requires 0.0 <= radius <= MaxBrushRadius - 1.0
    ensures ScrollBrush(ScrollBrush(radius, -1.0), 1.0) == radius
    ensures Mathf.IsIntegral(radius) ==> Mathf.IsIntegral(ScrollBrush(radius, -1.0))
  {
    if Mathf.IsIntegral(radius) {
      assert (radius + 1.0).Floor == radius.Floor + 1;
    }
  }

  /**
   * Scroll while dragging: padding moves by the grid cell along the canvas
   * axis when snapping, by the minimum padding otherwise (up on a positive
   * delta); below the minimum it becomes 1 when snapping and the minimum
   * otherwise, above the maximum it becomes the maximum.
   */
  function ScrollPadding(padding: real, deltaY: real, snap: bool, gridAxis: real): (r: real)
    ensures MinPadding <= r <= MaxPadding
    ensures var step := if snap then gridAxis else MinPadding;
            var wanted := padding + (if deltaY > 0.0 then step else -step);
            && (MinPadding <= wanted <= MaxPadding ==> r == wanted)
            && (wanted < MinPadding ==> r == (if snap then 1.0 else MinPadding))
            && (wanted > MaxPadding ==> r == MaxPadding)
  {
    var step := if snap then gridAxis else MinPadding;
    var p := padding + (if deltaY > 0.0 then step else -step);
    var p' := if p < MinPadding then (if snap then 1.0 else MinPadding) else p;
    if p' > MaxPadding then MaxPadding else p'
  }

  /** Without snapping, a notch down undoes a notch up inside the range. */
  lemma PaddingScrollUpDown(padding: real, gridAxis: real)
    requires MinPadding <= padding <= MaxPadding - MinPadding
    ensures ScrollPadding(ScrollPadding(padding, 1.0, false, gridAxis), -1.0, false, gridAxis) == padding
  {
  }

  /** With snapping on a unit grid, scrolling down from 1 stays at 1: the snapped padding never drops below one cell. */
  lemma SnappedPaddingFloor()
    ensures ScrollPadding(1.0, -1.0, true, 1.0) == 1.0
    ensures ScrollPadding(1.0, 0.0, true, 1.0) == 1.0
  {
  }

  /** Shift+scroll in Circle mode: the sweep moves by 10 degrees and is clamped to [0, 360]. */
  function ScrollDegrees(degrees: real, deltaY: real): (r: real)
    ensures 0.0 <= r <= FullSweep
    ensures var wanted := degrees + DegreesStep * ScrollSign(deltaY);
            && (0.0 < wanted < FullSweep ==> r == wanted)
            && (wanted >= FullSweep ==> r == FullSweep)
            && (wanted <= 0.0 ==> r == 0.0)
  {
    var d := degrees + (if deltaY < 0.0 then DegreesStep else -DegreesStep);
    var d' := if d >= FullSweep then FullSweep else d;
    if d' <= 0.0 then 0.0 else d'
  }

  /** A sweep that is a whole number of 10-degree steps stays one. */
  lemma DegreesStayOnSteps(degrees: real, deltaY: real)
    requires Mathf.IsIntegral(degrees / DegreesStep)
    ensures Mathf.IsIntegral(ScrollDegrees(degrees, deltaY) / DegreesStep)
  {
    var q := degrees / DegreesStep;
    var r := ScrollDegrees(degrees, deltaY);
    var wanted := degrees + DegreesStep * ScrollSign(deltaY);
    if 0.0 < wanted < FullSweep {
      assert r / DegreesStep == q + ScrollSign(deltaY);
      if ScrollSign(deltaY) == 1.0 {
        assert (q + 1.0).Floor == q.Floor + 1;
      } else {
        assert (q - 1.0).Floor == q.Floor - 1;
      }
    } else if wanted >= FullSweep {
      assert r / DegreesStep == 36.0;
    } else {
      assert r / DegreesStep == 0.0;
    }
  }

  /** A notch down undoes a notch up strictly inside the sweep range. */
  lemma DegreesScrollUpDown(degrees: real)
    requires 0.0 < degrees < FullSweep - DegreesStep
    ensures ScrollDegrees(ScrollDegrees(degrees, -1.0), 1.0) == degrees
  {
  }

  // ---- Canvas position (shift+scroll outside Circle mode) ----

  /** `paintCanvasSize / 2` in C# integer arithmetic. */
  function HalfSize(size: int): real {
    Mathf.CsDiv(size, 2) as real
  }

  /** `-paintCanvasSize / 2`: the negation is applied before the truncating division. */
  function LowBound(size: int): real {
    Mathf.CsDiv(-size, 2) as real
  }

  /**
   * Moving the canvas along its axis by one cell `g`: up when the delta is
   * negative and the position is below `size - 1`, clamped to `size/2 - 1`
   * once it reaches `size/2`; down when the delta is positive and the
   * position is above `-size/2`, clamped to `-size/2`. With `preventBelow0`
   * (the Y axis with `preventCanvasBelow0`) a position at or below 0 does not
   * move down.
   */
  function ShiftCanvas(pos: real, deltaY: real, g: real, size: int, preventBelow0: bool): (r: real)
    ensures deltaY < 0.0 && pos < (size - 1) as real ==>
              && r < HalfSize(size)
              && (pos + g < HalfSize(size) ==> r == pos + g)
              && (pos + g >= HalfSize(size) ==> r == HalfSize(size) - 1.0)
    ensures deltaY > 0.0 && pos > LowBound(size) && !(preventBelow0 && pos <= 0.0) ==>
              && r >= LowBound(size)
              && (pos - g >= LowBound(size) ==> r == pos - g)
              && (pos - g < LowBound(size) ==> r == LowBound(size))
    ensures deltaY < 0.0 && pos >= (size - 1) as real ==> r == pos
    ensures deltaY > 0.0 && (pos <= LowBound(size) || (preventBelow0 && pos <= 0.0)) ==> r == pos
    ensures deltaY == 0.0 ==> r == pos
  {
    var half := HalfSize(size);
    var low := LowBound(size);
    if deltaY < 0.0 && pos < (size - 1) as real then
      var up := pos + g;
      if up >= half then half - 1.0 else up
    else if deltaY > 0.0 && pos > low then
      if preventBelow0 && pos <= 0.0 then pos
      else
        var down := pos - g;
        if down < low then low else down
    else pos
  }

  /** The canvas range `[-size/2, size/2)` for a canvas of at least two cells. */
  predicate InCanvas(pos: real, size: int) {
    LowBound(size) <= pos < HalfSize(size)
  }

  /** A canvas position inside the range stays inside after any shift by a non-negative cell. */
  lemma ShiftCanvasStaysInside(pos: real, deltaY: real, g: real, size: int, preventBelow0: bool)
    requires size >= 2 && g >= 0.0 && InCanvas(pos, size)
    ensures InCanvas(ShiftCanvas(pos, deltaY, g, size, preventBelow0), size)
  {
    Mathf.CsDivNegate(size, 2);
    assert Mathf.CsDiv(size, 2) >= 1;
  }

  /** Inside the range and away from its edges, a notch up and a notch down cancel. */
  lemma ShiftCanvasUpDown(pos: real, g: real, size: int)
    requires g >= 0.0 && LowBound(size) <= pos && pos + g < HalfSize(size) && pos < (size - 1) as real && pos + g > LowBound(size)
    ensures ShiftCanvas(ShiftCanvas(pos, -1.0, g, size, false), 1.0, g, size, false) == pos
  {
  }

  /**
   * The up-step is guarded by `size - 1` but clamped at `size/2 - 1`, so a
   * position between the two (reachable by picking an object with Alt) moves
   * down when scrolled up.
   */
  lemma UpStepAboveHalfMovesDown()
    ensures ShiftCanvas(300.0, -1.0, 1.0, 500, false) == 249.0
  {
  }
}

=== FILE: rect_factory.dfy ===
/**
 * `RectFactory`: places products on a grid of rows and columns spanning the
 * rectangle between the drag start and end on the canvas plane, either the
 * whole grid (`fill`) or only its border.
 */
module RectFactory {
  import opened Vectors
  import opened Wrappers
  import opened Scene
  import opened Canvas
  import Extensions
  import Mathf
  import OF = ObjectFactory

  datatype RectSettings = RectSettings(
    startPos: Vec3,
    endPos: Vec3,
    snapToGrid: bool,
    gridSize: Vec3,
    fill: bool,
    alignObjects: bool,
    axis: CanvasAxis,
    padding: real)

  // ---- which cells are kept ------------------------------------------------

  /** A cell is placed when filling, or when it lies on the border of the grid. */
  predicate Keep(fill: bool, rows: nat, cols: nat, r: nat, c: nat)
    ensures (r == 0 || r == rows - 1 || c == 0 || c == cols - 1) ==> Keep(fill, rows, cols, r, c)
    ensures !fill && 0 < r < rows - 1 && 0 < c < cols - 1 ==> !Keep(fill, rows, cols, r, c)
  {
    fill || !(0 < r < rows - 1 && 0 < c < cols - 1)
  }

  /** The kept cells of row `r` among its first `c` columns, left to right. */
  function RowCells(fill: bool, rows: nat, cols: nat, r: nat, c: nat): seq<(nat, nat)> {
    if c == 0 then []
    else RowCells(fill, rows, cols, r, c - 1) + (if Keep(fill, rows, cols, r, c - 1) then [(r, c - 1)] else [])
  }

  /** The kept cells of the first `r` rows, in the row-major order the nested loops visit them. */
  function GridCells(fill: bool, rows: nat, cols: nat, r: nat): seq<(nat, nat)> {
    if r == 0 then []
    else GridCells(fill, rows, cols, r - 1) + RowCells(fill, rows, cols, r - 1, cols)
  }

  /** The array size the source allocates: every cell, or the border count `rows * 2 + (cols - 2) * 2`. */
  function Size(fill: bool, rows: nat, cols: nat): (n: nat)
    ensures n <= rows * cols
    ensures fill ==> n == rows * cols
  {
    BorderFits(rows, cols);
    if fill || rows <= 2 || cols <= 2 then rows * cols else rows * 2 + (cols - 2) * 2
  }

  lemma BorderFits(rows: nat, cols: nat)
    ensures rows > 2 && cols > 2 ==> rows * 2 + (cols - 2) * 2 <= rows * cols
  {
    if rows > 2 && cols > 2 {
      assert (rows - 2) * (cols - 2) >= 0;
    }
  }

  /** A row lists exactly its kept columns below `c`. */
  lemma {:induction false} RowCellsMembers(fill: bool, rows: nat, cols: nat, r: nat, c: nat)
    ensures forall cell :: cell in RowCells(fill, rows, cols, r, c) <==>
              cell.0 == r && cell.1 < c && Keep(fill, rows, cols, r, cell.1)
  {
    if c > 0 {
      RowCellsMembers(fill, rows, cols, r, c - 1);
    }
  }

  /**
   * The loops visit exactly the kept cells: a cell is listed if and only if it
   * is inside the grid and kept.
   */
  lemma {:induction false} GridCellsMembers(fill: bool, rows: nat, cols: nat, r: nat)
    ensures forall cell :: cell in GridCells(fill, rows, cols, r) <==>
              cell.0 < r && cell.1 < cols && Keep(fill, rows, cols, cell.0, cell.1)
  {
    if r > 0 {
      GridCellsMembers(fill, rows, cols, r - 1);
      RowCellsMembers(fill, rows, cols, r - 1, cols);
    }
  }

  /** An edge row, or a filled one, keeps all of its columns. */
  lemma {:induction false} FullRowCount(fill: bool, rows: nat, cols: nat, r: nat, c: nat)
    requires fill || r == 0 || r == rows - 1
    ensures |RowCells(fill, rows, cols, r, c)| == c
  {
    if c > 0 {
      FullRowCount(fill, rows, cols, r, c - 1);
    }
  }

  /** An inner row of a border keeps only its first and last column. */
  lemma {:induction false} InnerRowCount(rows: nat, cols: nat, r: nat, c: nat)
    requires 0 < r < rows - 1 && c <= cols
    ensures |RowCells(false, rows, cols, r, c)| == if c == 0 then 0 else if c < cols || cols == 1 then 1 else 2
  {
    if c > 0 {
      InnerRowCount(rows, cols, r, c - 1);
    }
  }

  /** How many cells the first `r` rows keep. */
  lemma {:induction false} GridCount(fill: bool, rows: nat, cols: nat, r: nat)
    requires r <= rows
    ensures |GridCells(fill, rows, cols, r)| ==
              if fill || rows <= 2 || cols <= 2 || r == 0 then r * cols
              else if r < rows then cols + (r - 1) * 2
              else 2 * cols + (rows - 2) * 2
  {
    if r > 0 {
      GridCount(fill, rows, cols, r - 1);
      var row := |RowCells(fill, rows, cols, r - 1, cols)|;
      if fill || r - 1 == 0 || r - 1 == rows - 1 {
        FullRowCount(fill, rows, cols, r - 1, cols);
        assert row == cols;
      } else {
        InnerRowCount(rows, cols, r - 1, cols);
        assert row == if cols <= 2 then cols else 2;
      }
      assert (r - 1) * cols + cols == r * cols;
    }
  }

  /** The size the source allocates is exactly the number of cells the loops write. */
  lemma SizeMatchesCells(fill: bool, rows: nat, cols: nat)
    ensures |GridCells(fill, rows, cols, rows)| == Size(fill, rows, cols)
  {
    GridCount(fill, rows, cols, rows);
  }

  /** The first `a` columns' cells of a row are a prefix of its first `b` columns' cells. */
  lemma {:induction false} RowPrefix(fill: bool, rows: nat, cols: nat, r: nat, a: nat, b: nat)
    requires a <= b
    ensures RowCells(fill, rows, cols, r, a) <= RowCells(fill, rows, cols, r, b)
  {
    if a < b {
      RowPrefix(fill, rows, cols, r, a, b - 1);
    }
  }

  /** The first `a` rows' cells are a prefix of the first `b` rows' cells. */
  lemma {:induction false} GridPrefix(fill: bool, rows: nat, cols: nat, a: nat, b: nat)
    requires a <= b
    ensures GridCells(fill, rows, cols, a) <= GridCells(fill, rows, cols, b)
  {
    if a < b {
      GridPrefix(fill, rows, cols, a, b - 1);
      var x := GridCells(fill, rows, cols, a);
      var y := GridCells(fill, rows, cols, b - 1);
      assert GridCells(fill, rows, cols, b) == y + RowCells(fill, rows, cols, b - 1, cols);
      assert x <= y;
    }
  }

  /** In a filled row, column `c` is entry `c`. */
  lemma {:induction false} FilledColumn(rows: nat, cols: nat, r: nat, c: nat, k: nat)
    requires c < k
    ensures |RowCells(true, rows, cols, r, k)| == k
    ensures RowCells(true, rows, cols, r, k)[c] == (r, c)
  {
    FullRowCount(true, rows, cols, r, k);
    FullRowCount(true, rows, cols, r, k - 1);
    if c < k - 1 {
      FilledColumn(rows, cols, r, c, k - 1);
    }
  }

  /** When filling, cell `(r, c)` sits at index `r * cols + c` of the first `k > r` rows, where the source writes it. */
  lemma {:induction false} FilledIndex(rows: nat, cols: nat, k: nat, r: nat, c: nat)
    requires r < k <= rows && c < cols
    ensures r * cols + c < |GridCells(true, rows, cols, k)|
    ensures GridCells(true, rows, cols, k)[r * cols + c] == (r, c)
  {
    GridCount(true, rows, cols, k - 1);
    FullRowCount(true, rows, cols, k - 1, cols);
    var prev := GridCells(true, rows, cols, k - 1);
    assert GridCells(true, rows, cols, k) == prev + RowCells(true, rows, cols, k - 1, cols);
    if r < k - 1 {
      FilledIndex(rows, cols, k - 1, r, c);
    } else {
      FilledColumn(rows, cols, r, c, cols);
      assert r * cols == |prev|;
    }
  }

  // ---- where a cell goes ---------------------------------------------------

  /**
   * The layout quantities of one drag: the extents and their signs, the
   * counts, the spacing divisors and steps, and the snapped corners.
   */
  datatype Frame = Frame(
    signWidth: real, signHeight: real, width: real, height: real,
    rows: nat, cols: nat,
    widthDivider: real, heightDivider: real,
    widthStep: real, heightStep: real,
    start: Vec3, diagonal: Vec3)

  function Sign(d: real): (r: real)
    ensures r * r == 1.0 && r * d >= 0.0
  {
    if d < 0.0 then -1.0 else 1.0
  }

  function MaybeSnap(s: RectSettings, p: Vec3): Vec3
  {
    if s.snapToGrid then Extensions.GridPosV(p, s.gridSize) else p
  }

  /** `CeilToInt(e / spacing)` for a non-negative extent: zero exactly for a zero extent. */
  function Count(extent: real, spacing: real): (n: nat)
    requires extent >= 0.0 && spacing > 0.0
    ensures n == Mathf.CeilToInt(extent / spacing)
    ensures n == 0 <==> extent == 0.0
    ensures (n as real) - 1.0 < extent / spacing <= n as real
  {
    assert extent / spacing >= 0.0;
    assert extent / spacing == 0.0 <==> extent == 0.0;
    Mathf.CeilToInt(extent / spacing)
  }

  /** The spacing divisor for `n` cells: `n - 1` (2 for a single cell), or `n` itself when the padding is 1. */
  function Divider(padding: real, n: nat): (d: real)
    requires n >= 1
    ensures d >= 1.0
    ensures Mathf.ApproximatelyOne(padding) ==> d == n as real
    ensures !Mathf.ApproximatelyOne(padding) ==> d == if n == 1 then 2.0 else (n - 1) as real
  {
    if Mathf.ApproximatelyOne(padding) then n as real
    else if n == 1 then 2.0 else (n - 1) as real
  }

  /** One step along a row or a column: the extent over the divider, rounded to whole units when snapping. */
  function Step(snap: bool, signedExtent: real, divider: real): (r: real)
    requires divider >= 1.0
    ensures !snap ==> r * divider == signedExtent
    ensures snap ==> Mathf.IsIntegral(r) && Mathf.Abs(r - signedExtent / divider) <= 0.5
  {
    if snap then Mathf.RoundToInt(signedExtent / divider) as real else signedExtent / divider
  }

  /**
   * The frame of one `Produce` call, or `None` when a count is zero. The
   * extents are measured between the unsnapped drag points on the canvas
   * plane; `spacing` is `padding` times the average product dimension.
   */
  function MakeFrame(s: RectSettings, spacing: real): (r: Option<Frame>)
    requires spacing > 0.0
    ensures r.None? <==> WidthOf(s.axis, s.endPos) == WidthOf(s.axis, s.startPos)
                         || HeightOf(s.axis, s.endPos) == HeightOf(s.axis, s.startPos)
    ensures r.Some? ==>
              var d := s.endPos.Minus(s.startPos);
              var fr := r.value;
              && fr.width >= 0.0 && fr.height >= 0.0
              && fr.signWidth * fr.width == WidthOf(s.axis, d)
              && fr.signHeight * fr.height == HeightOf(s.axis, d)
              && fr.cols == Count(fr.width, spacing) >= 1
              && fr.rows == Count(fr.height, spacing) >= 1
              && fr.widthDivider == Divider(s.padding, fr.cols)
              && fr.heightDivider == Divider(s.padding, fr.rows)
              && fr.widthStep == Step(s.snapToGrid, WidthOf(s.axis, d), fr.widthDivider)
              && fr.heightStep == Step(s.snapToGrid, HeightOf(s.axis, d), fr.heightDivider)
              && fr.start == MaybeSnap(s, s.startPos)
              && fr.diagonal == MaybeSnap(s, s.endPos).Minus(MaybeSnap(s, s.startPos))
  {
    var d := s.endPos.Minus(s.startPos);
    CoordinatesOfDifference(s.axis, s.endPos, s.startPos);
    var sw := Sign(WidthOf(s.axis, d));
    var sh := Sign(HeightOf(s.axis, d));
    var width := sw * WidthOf(s.axis, d);
    var height := sh * HeightOf(s.axis, d);
    assert sw * width == WidthOf(s.axis, d) && sh * height == HeightOf(s.axis, d);
    var cols := Count(width, spacing);
    var rows := Count(height, spacing);
    if rows == 0 || cols == 0 then None
    else
      var dw := Divider(s.padding, cols);
      var dh := Divider(s.padding, rows);
      var start := MaybeSnap(s, s.startPos);
      var end := MaybeSnap(s, s.endPos);
      Some(Frame(sw, sh, width, height, rows, cols, dw, dh,
                 Step(s.snapToGrid, sw * width, dw), Step(s.snapToGrid, sh * height, dh),
                 start, end.Minus(start)))
  }

  /**
   * The position of cell `(r, c)`: the start moved `c` steps along the width
   * and `r` steps along the height; along the canvas axis the fraction
   * `c / widthDivider` of the diagonal.
   */
  function CellPos(s: RectSettings, fr: Frame, r: nat, c: nat): (p: Vec3)
    requires fr.widthDivider != 0.0
    ensures WidthOf(s.axis, p) == WidthOf(s.axis, fr.start) + fr.widthStep * (c as real)
    ensures HeightOf(s.axis, p) == HeightOf(s.axis, fr.start) + fr.heightStep * (r as real)
    ensures DepthOf(s.axis, p) == DepthOf(s.axis, fr.start) + DepthOf(s.axis, fr.diagonal) * (c as real) / fr.widthDivider
  {
    Compose(s.axis,
      WidthOf(s.axis, fr.start) + fr.widthStep * (c as real),
      HeightOf(s.axis, fr.start) + fr.heightStep * (r as real),
      DepthOf(s.axis, fr.start) + DepthOf(s.axis, fr.diagonal) * (c as real) / fr.widthDivider)
  }

  /** The direction along the rows (the width) and along the columns (the height), from the unsnapped drag points. */
  function RowDirection(s: RectSettings): Vec3 {
    Compose(s.axis, WidthOf(s.axis, s.endPos.Minus(s.startPos)), 0.0, 0.0)
  }

  function ColumnDirection(s: RectSettings): Vec3 {
    Compose(s.axis, 0.0, HeightOf(s.axis, s.endPos.Minus(s.startPos)), 0.0)
  }

  /**
   * The direction a border cell faces when aligning: the first row runs
   * along the row direction and the last row back, the first column runs
   * against the column direction and the others along it.
   */
  function CellDirection(s: RectSettings, rows: nat, r: nat, c: nat): (d: Vec3)
    ensures r == 0 ==> d == RowDirection(s)
    ensures r != 0 && r == rows - 1 ==> d == RowDirection(s).Neg()
    ensures 0 < r < rows - 1 ==> d == (if c == 0 then ColumnDirection(s).Neg() else ColumnDirection(s))
  {
    if r == 0 then RowDirection(s)
    else if r == rows - 1 then RowDirection(s).Neg()
    else if c == 0 then ColumnDirection(s).Neg()
    else ColumnDirection(s)
  }

  /** The direction array entry for a cell: only a border that aligns fills it. */
  function DirectionEntry(s: RectSettings, rows: nat, r: nat, c: nat): Vec3 {
    if !s.fill && s.alignObjects then CellDirection(s, rows, r, c) else Zero
  }

  /** Positions and directions written so far agree with the cells visited so far. */
  ghost predicate Written(s: RectSettings, fr: Frame, cells: seq<(nat, nat)>, positions: seq<Vec3>, directions: seq<Vec3>)
    requires fr.widthDivider != 0.0
  {
    && |positions| == |directions| == |cells|
    && forall i | 0 <= i < |cells| ::
         positions[i] == CellPos(s, fr, cells[i].0, cells[i].1)
         && directions[i] == DirectionEntry(s, fr.rows, cells[i].0, cells[i].1)
  }

  /** The inner loop of `Produce` over the columns of row `row`. */
  method ArrangeRow(s: RectSettings, fr: Frame, row: nat, positions: seq<Vec3>, directions: seq<Vec3>, ghost done: seq<(nat, nat)>)
    returns (positions': seq<Vec3>, directions': seq<Vec3>)
    requires fr.widthDivider != 0.0 && Written(s, fr, done, positions, directions)
    requires s.fill ==> |done| == row * fr.cols
    ensures Written(s, fr, done + RowCells(s.fill, fr.rows, fr.cols, row, fr.cols), positions', directions')
  {
    positions', directions' := positions, directions;
    var col := 0;
    while col < fr.cols
      invariant 0 <= col <= fr.cols
      invariant Written(s, fr, done + RowCells(s.fill, fr.rows, fr.cols, row, col), positions', directions')
    {
      if s.fill {
        FullRowCount(s.fill, fr.rows, fr.cols, row, col);
        // the source writes a filled cell at `row * columns + col`, which is the running cursor
        assert row * fr.cols + col == |positions'|;
      }
      if Keep(s.fill, fr.rows, fr.cols, row, col) {
        positions' := positions' + [CellPos(s, fr, row, col)];
        directions' := directions' + [DirectionEntry(s, fr.rows, row, col)];
      }
      ghost var cells := done + RowCells(s.fill, fr.rows, fr.cols, row, col + 1);
      assert cells == done + RowCells(s.fill, fr.rows, fr.cols, row, col)
                       + (if Keep(s.fill, fr.rows, fr.cols, row, col) then [(row, col)] else []);
      col := col + 1;
    }
  }

  /**
   * The nested loops of `Produce`: every kept cell is written in row-major
   * order, and exactly `Size` of them are, the length the source allocates.
   */
  method Arrange(s: RectSettings, fr: Frame) returns (positions: seq<Vec3>, directions: seq<Vec3>)
    requires fr.widthDivider != 0.0
    ensures |positions| == |directions| == |GridCells(s.fill, fr.rows, fr.cols, fr.rows)| == Size(s.fill, fr.rows, fr.cols)
    ensures var cells := GridCells(s.fill, fr.rows, fr.cols, fr.rows);
            forall i | 0 <= i < |positions| ::
              && positions[i] == CellPos(s, fr, cells[i].0, cells[i].1)
              && directions[i] == DirectionEntry(s, fr.rows, cells[i].0, cells[i].1)
  {
    positions, directions := [], [];
    var row := 0;
    while row < fr.rows
      invariant 0 <= row <= fr.rows
      invariant Written(s, fr, GridCells(s.fill, fr.rows, fr.cols, row), positions, directions)
    {
      if s.fill {
        GridCount(s.fill, fr.rows, fr.cols, row);
      }
      positions, directions := ArrangeRow(s, fr, row, positions, directions, GridCells(s.fill, fr.rows, fr.cols, row));
      row := row + 1;
    }
    SizeMatchesCells(s.fill, fr.rows, fr.cols);
  }

  /**
   * Without snapping, and with a padding other than 1, the first cell is the
   * drag start and the last cell of the last row is the drag end: the grid
   * spans the dragged rectangle exactly.
   */
  lemma CornersMeetDragPoints(s: RectSettings, spacing: real)
    requires spacing > 0.0 && !s.snapToGrid && !Mathf.ApproximatelyOne(s.padding)
    requires var fr := MakeFrame(s, spacing); fr.Some? && fr.value.rows >= 2 && fr.value.cols >= 2
    ensures var fr := MakeFrame(s, spacing).value;
            && CellPos(s, fr, 0, 0) == s.startPos
            && CellPos(s, fr, fr.rows - 1, fr.cols - 1) == s.endPos
  {
    var fr := MakeFrame(s, spacing).value;
    var a, b := s.startPos, s.endPos;
    var d := b.Minus(a);
    CoordinatesOfDifference(s.axis, b, a);
    ComposeCoordinates(s.axis, a);
    ComposeCoordinates(s.axis, b);
    StepsAddUp(WidthOf(s.axis, d), fr.widthDivider);
    StepsAddUp(HeightOf(s.axis, d), fr.heightDivider);
    StepsAddUp(DepthOf(s.axis, d), fr.widthDivider);
    var last := CellPos(s, fr, fr.rows - 1, fr.cols - 1);
    assert WidthOf(s.axis, last) == WidthOf(s.axis, b);
    assert HeightOf(s.axis, last) == HeightOf(s.axis, b);
    assert DepthOf(s.axis, last) == DepthOf(s.axis, b);
    CoordinatesDetermineVector(s.axis, last, b);
    var first := CellPos(s, fr, 0, 0);
    CoordinatesDetermineVector(s.axis, first, a);
  }

  /** `n` equal steps of `d / n` add up to `d`. */
  lemma StepsAddUp(d: real, n: real)
    requires n != 0.0
    ensures d / n * n == d && d * n / n == d
  {
  }

  /**
   * With a padding of (approximately) 1 the divider is the count itself, so
   * without snapping the last column stops one step short of the drag end.
   */
  lemma PaddingOneStopsShort(s: RectSettings, spacing: real)
    requires spacing > 0.0 && !s.snapToGrid && Mathf.ApproximatelyOne(s.padding)
    requires WidthOf(s.axis, s.endPos) != WidthOf(s.axis, s.startPos) && HeightOf(s.axis, s.endPos) != HeightOf(s.axis, s.startPos)
    ensures var fr := MakeFrame(s, spacing).value;
            var d := WidthOf(s.axis, s.endPos) - WidthOf(s.axis, s.startPos);
            WidthOf(s.axis, CellPos(s, fr, 0, fr.cols - 1))
              == WidthOf(s.axis, s.endPos) - d / (fr.cols as real)
  {
    var fr := MakeFrame(s, spacing).value;
    var d := WidthOf(s.axis, s.endPos) - WidthOf(s.axis, s.startPos);
    CoordinatesOfDifference(s.axis, s.endPos, s.startPos);
    var n := fr.cols as real;
    assert d / n * (n - 1.0) == d - d / n;
  }

  lemma {:induction false} MulCast(k: int, c: nat)
    ensures (k as real) * (c as real) == (k * c) as real
  {
    if c > 0 {
      MulCast(k, c - 1);
      assert (k as real) * (c as real) == (k as real) * ((c - 1) as real) + k as real;
      assert k * c == k * (c - 1) + k;
    }
  }

  /** Snapping on the unit grid puts the frame's start on whole units, and each step is a whole number of units. */
  lemma SnappedFrameIntegral(s: RectSettings, spacing: real)
    requires spacing > 0.0 && s.snapToGrid && s.gridSize == One
    requires WidthOf(s.axis, s.endPos) != WidthOf(s.axis, s.startPos) && HeightOf(s.axis, s.endPos) != HeightOf(s.axis, s.startPos)
    ensures var fr := MakeFrame(s, spacing).value;
            && Mathf.IsIntegral(WidthOf(s.axis, fr.start)) && Mathf.IsIntegral(HeightOf(s.axis, fr.start))
            && Mathf.IsIntegral(fr.widthStep) && Mathf.IsIntegral(fr.heightStep)
  {
    Extensions.GridPosDefaultRounds(s.startPos);
  }

  /**
   * With snapping on the unit grid every cell lands on whole units in the
   * canvas plane: the start is rounded, and each step is rounded to a whole
   * number of units.
   */
  lemma SnappedCellsOnUnitGrid(s: RectSettings, spacing: real, r: nat, c: nat)
    requires spacing > 0.0 && s.snapToGrid && s.gridSize == One
    requires WidthOf(s.axis, s.endPos) != WidthOf(s.axis, s.startPos) && HeightOf(s.axis, s.endPos) != HeightOf(s.axis, s.startPos)
    ensures var fr := MakeFrame(s, spacing).value;
            && Mathf.IsIntegral(WidthOf(s.axis, CellPos(s, fr, r, c)))
            && Mathf.IsIntegral(HeightOf(s.axis, CellPos(s, fr, r, c)))
  {
    SnappedFrameIntegral(s, spacing);
    CellIntegral(s, MakeFrame(s, spacing).value, r, c);
  }

  lemma CellIntegral(s: RectSettings, fr: Frame, r: nat, c: nat)
    requires fr.widthDivider != 0.0
    requires Mathf.IsIntegral(WidthOf(s.axis, fr.start)) && Mathf.IsIntegral(HeightOf(s.axis, fr.start))
    requires Mathf.IsIntegral(fr.widthStep) && Mathf.IsIntegral(fr.heightStep)
    ensures Mathf.IsIntegral(WidthOf(s.axis, CellPos(s, fr, r, c)))
    ensures Mathf.IsIntegral(HeightOf(s.axis, CellPos(s, fr, r, c)))
  {
    var w0, h0 := WidthOf(s.axis, fr.start).Floor, HeightOf(s.axis, fr.start).Floor;
    var kw, kh := fr.widthStep.Floor, fr.heightStep.Floor;
    MulCast(kw, c);
    MulCast(kh, r);
    var p := CellPos(s, fr, r, c);
    assert WidthOf(s.axis, p) == (w0 + kw * c) as real;
    assert HeightOf(s.axis, p) == (h0 + kh * r) as real;
  }

  /**
   * `Produce`: activates the live products, computes the frame and the cells,
   * and updates the products through `MassProduceOrUpdate`, turned toward
   * their direction entries when a border aligns; returns the first product.
   * A zero count leaves everything as the activation left it.
   */
  method Produce(s: RectSettings, f: OF.Factory, w: World, spacing: real)
    returns (f': OF.Factory, w': World, first: Option<ObjId>, positions: seq<Vec3>)
    requires spacing > 0.0
    requires w.Valid() && OF.WellFormed(f, w) && f.objectLimit >= 0
    // nothing to place with a null product list fails in the source
    requires var fr := MakeFrame(s, spacing);
             fr.Some? ==> f.products.Some? || OF.Limited(f, Size(s.fill, fr.value.rows, fr.value.cols)) > 0
    ensures w'.Valid() && OF.WellFormed(f', w')
    ensures MakeFrame(s, spacing).None? ==> f' == f && w' == OF.ActivateProducts(f, w) && first.None? && positions == []
    ensures MakeFrame(s, spacing).Some? ==>
              var fr := MakeFrame(s, spacing).value;
              var cells := GridCells(s.fill, fr.rows, fr.cols, fr.rows);
              var n := OF.Limited(f, |positions|);
              && |positions| == |cells| == Size(s.fill, fr.rows, fr.cols)
              && first == OF.GetAt(f', 0)
              && OF.Count(f') >= n
              && forall i | 0 <= i < n ::
                   && positions[i] == CellPos(s, fr, cells[i].0, cells[i].1)
                   && w'.objects[OF.List(f')[i]].pos == OF.CalcPos(f, positions[i])
                   && w'.objects[OF.List(f')[i]].rot
                      == OF.Turned(f, if i < OF.Count(f) then w.objects[OF.List(f)[i]].rot else OF.CreatedRotation(f, f.objectToCreate),
                                   DirectionEntry(s, fr.rows, cells[i].0, cells[i].1))
    ensures MakeFrame(s, spacing).Some? ==>
              forall i | OF.Limited(f, |positions|) <= i < OF.Count(f') :: !w'.objects[OF.List(f')[i]].active
    ensures OF.Count(f) <= OF.Count(f') && OF.List(f')[..OF.Count(f)] == OF.List(f)
    ensures forall id | id in w.objects && id !in OF.List(f) :: id in w'.objects && w'.objects[id] == w.objects[id]
  {
    var frame := MakeFrame(s, spacing);
    if frame.None? {
      f', w', first, positions := f, OF.ActivateProducts(f, w), None, [];
      return;
    }
    var directions;
    positions, directions := Arrange(s, frame.value);
    var normals := if !s.fill && s.alignObjects then Some(directions) else None;
    f', w' := OF.ActivateAndUpdate(f, w, positions, normals, Zero);
    first := OF.GetAt(f', 0);
  }
}

=== FILE: scene.dfy ===
/**
 * The host scene as the placement rules see it: objects are ids into a map,
 * and an object that has been destroyed is simply no longer in the map (the
 * engine's "destroyed object compares equal to null").
 */
module Scene {
  import opened Vectors

  type ObjId = nat

  /**
   * An object's rotation. `Euler` is a plain triple of Euler angles; `LookAt`
   * records symbolically what `Quaternion.LookRotation(forward, up)` followed by
   * adding the Euler angles `added` produces, since the quaternion arithmetic
   * itself is not part of this model.
   */
  datatype Rotation = Euler(angles: Vec3) | LookAt(forward: Vec3, up: Vec3, added: Vec3)

  /** The part of a game object the placement rules read and write. */
  datatype GameObject = GameObject(active: bool, pos: Vec3, rot: Rotation, name: string)

  datatype World = World(objects: map<ObjId, GameObject>, nextId: ObjId) {

    /** Every id handed out so far is below `nextId`, so `nextId` is unused. */
    predicate Valid() {
      forall id | id in objects :: id < nextId
    }

    predicate Alive(id: ObjId) {
      id in objects
    }
  }

  /** Creating an object: it gets an id that was not alive before; nothing else changes. */
  function Instantiate(w: World, obj: GameObject): (r: (ObjId, World))
    requires w.Valid()
    ensures r.1.Valid()
    ensures r.0 !in w.objects
    ensures w.nextId <= r.0 < r.1.nextId
    ensures r.1.objects == w.objects[r.0 := obj]
  {
    (w.nextId, World(w.objects[w.nextId := obj], w.nextId + 1))
  }

  /** `DestroyImmediate`: the object is gone; destroying a dead object changes nothing. */
  function Destroy(w: World, id: ObjId): (r: World)
    ensures r.Valid() <== w.Valid()
    ensures id !in r.objects
    ensures forall o | o in w.objects && o != id :: o in r.objects && r.objects[o] == w.objects[o]
    ensures r.objects.Keys == w.objects.Keys - {id}
  {
    World(w.objects - {id}, w.nextId)
  }

  /** Overwriting the state of a live object. */
  function Put(w: World, id: ObjId, obj: GameObject): (r: World)
    requires id in w.objects
    ensures r.Valid() <== w.Valid()
    ensures r.objects == w.objects[id := obj]
    ensures r.objects.Keys == w.objects.Keys
    ensures r.nextId == w.nextId
  {
    World(w.objects[id := obj], w.nextId)
  }

  /** `SetActive(active)` on every live object of `ids`; dead ones are skipped. */
  function SetActiveAll(w: World, ids: seq<ObjId>, active: bool): (r: World)
    ensures r.Valid() <== w.Valid()
    ensures r.objects.Keys == w.objects.Keys
    ensures r.nextId == w.nextId
    ensures forall o | o in w.objects && o in ids :: r.objects[o] == w.objects[o].(active := active)
    ensures forall o | o in w.objects && o !in ids :: r.objects[o] == w.objects[o]
    decreases |ids|
  {
    if |ids| == 0 then w
    else
      var rest := SetActiveAll(w, ids[1..], active);
      var id := ids[0];
      assert forall o :: o in ids <==> o == id || o in ids[1..];
      if id in rest.objects then Put(rest, id, rest.objects[id].(active := active)) else rest
  }

  /** Destroying every object of `ids`. */
  function DestroyAllOf(w: World, ids: seq<ObjId>): (r: World)
    ensures r.Valid() <== w.Valid()
    ensures r.nextId == w.nextId
    ensures forall o | o in ids :: o !in r.objects
    ensures forall o | o in w.objects && o !in ids :: o in r.objects && r.objects[o] == w.objects[o]
    ensures r.objects.Keys <= w.objects.Keys
  {
    World(map o | o in w.objects && o !in ids :: w.objects[o], w.nextId)
  }
}

=== FILE: strings.dfy ===
/** String helpers standing in for the `System.String` members the source calls. */
module Strings {

  predicate StartsWith(s: string, prefix: string) {
    |prefix| <= |s| && s[..|prefix|] == prefix
  }

  predicate EndsWith(s: string, suffix: string) {
    |suffix| <= |s| && s[|s| - |suffix|..] == suffix
  }

  /** `s` with `prefix` removed when it starts with it (`StartsWith` then `Substring`). */
  function DropPrefix(s: string, prefix: string): (r: string)
    ensures StartsWith(s, prefix) ==> s == prefix + r
    ensures !StartsWith(s, prefix) ==> r == s
  {
    if StartsWith(s, prefix) then s[|prefix|..] else s
  }

  /** `s` with `suffix` removed when it ends with it. */
  function DropSuffix(s: string, suffix: string): (r: string)
    ensures EndsWith(s, suffix) ==> s == r + suffix
    ensures !EndsWith(s, suffix) ==> r == s
  {
    if EndsWith(s, suffix) then s[..|s| - |suffix|] else s
  }

  predicate IsDigit(c: char) {
    '0' <= c <= '9'
  }

  function DigitChar(d: nat): (c: char)
    requires d < 10
    ensures IsDigit(c)
  {
    "0123456789"[d]
  }

  /** Decimal digits of a natural number, most significant first. */
  function NatToString(n: nat): (s: string)
    ensures |s| > 0
    ensures forall i | 0 <= i < |s| :: IsDigit(s[i])
  {
    if n < 10 then [DigitChar(n)]
    else NatToString(n / 10) + [DigitChar(n % 10)]
  }

  /** C#'s decimal `int.ToString()`: a minus sign for negative values, then the digits. */
  function IntToString(n: int): (s: string)
    ensures |s| > 0
    ensures n >= 0 ==> forall i | 0 <= i < |s| :: IsDigit(s[i])
    ensures n >= 0 ==> DigitsValue(s) == n
    ensures n < 0 ==> s[0] == '-' && s[1..] == NatToString(-n) && DigitsValue(s[1..]) == -n
  {
    NatToStringValue(if n >= 0 then n else -n);
    if n >= 0 then NatToString(n) else "-" + NatToString(-n)
  }

  /** The value of one decimal digit character. */
  function DigitValue(c: char): int {
    c as int - '0' as int
  }

  /** The number a string of decimal digits denotes, read most significant digit first. */
  function DigitsValue(s: string): int {
    if s == [] then 0 else DigitsValue(s[..|s| - 1]) * 10 + DigitValue(s[|s| - 1])
  }

  lemma DigitCharValue(d: nat)
    requires d < 10
    ensures DigitValue(DigitChar(d)) == d
  {
  }

  /** Reading back the digits `NatToString` writes gives the number again. */
  lemma {:induction false} NatToStringValue(n: nat)
    ensures DigitsValue(NatToString(n)) == n
  {
    if n < 10 {
      DigitCharValue(n);
      assert NatToString(n)[..0] == [];
    } else {
      var s := NatToString(n);
      NatToStringValue(n / 10);
      DigitCharValue(n % 10);
      assert s[..|s| - 1] == NatToString(n / 10);
    }
  }

  /** Every number has exactly one `NatToString` spelling: different numbers give different strings. */
  lemma NatToStringInjective(m: nat, n: nat)
    requires NatToString(m) == NatToString(n)
    ensures m == n
  {
    NatToStringValue(m);
    NatToStringValue(n);
  }
}

=== FILE: vectors.dfy ===
/**
 * Three-component vectors over the reals, standing in for Unity's `Vector3`.
 * Arithmetic is exact: the model does not reproduce single-precision rounding.
 */
module Vectors {

  datatype Vec3 = Vec3(x: real, y: real, z: real) {

    function Plus(o: Vec3): Vec3 {
      Vec3(x + o.x, y + o.y, z + o.z)
    }

    function Minus(o: Vec3): Vec3 {
      Vec3(x - o.x, y - o.y, z - o.z)
    }

    function Scale(k: real): Vec3 {
      Vec3(k * x, k * y, k * z)
    }

    function Neg(): Vec3 {
      Vec3(-x, -y, -z)
    }

    function Dot(o: Vec3): real {
      x * o.x + y * o.y + z * o.z
    }

    /** `Vector3.Cross(this, o)`, with Unity's left-handed component order. */
    function Cross(o: Vec3): Vec3 {
      Vec3(y * o.z - z * o.y, z * o.x - x * o.z, x * o.y - y * o.x)
    }
  }

  const Zero: Vec3 := Vec3(0.0, 0.0, 0.0)
  const One: Vec3 := Vec3(1.0, 1.0, 1.0)
  const Right: Vec3 := Vec3(1.0, 0.0, 0.0)
  const Up: Vec3 := Vec3(0.0, 1.0, 0.0)
  const Forward: Vec3 := Vec3(0.0, 0.0, 1.0)

  /** `a + (b - a) == b`, component-wise. */
  lemma PlusMinusCancel(a: Vec3, b: Vec3)
    ensures a.Plus(b.Minus(a)) == b
  {
  }

  /** A cross product is perpendicular to both of its factors. */
  lemma CrossPerpendicular(a: Vec3, b: Vec3)
    ensures a.Cross(b).Dot(a) == 0.0 && a.Cross(b).Dot(b) == 0.0
  {
  }

  /** Two points on the same ray from `p` differ by the difference of their parameters. */
  lemma RayDifference(p: Vec3, d: Vec3, a: real, b: real)
    ensures p.Plus(d.Scale(b)).Minus(p.Plus(d.Scale(a))) == d.Scale(b - a)
  {
  }
}

=== FILE: wrappers.dfy ===
/** A small optional-value type standing in for C#'s `null` returns. */
module Wrappers {

  datatype Option<+T> = None | Some(value: T) {

    /** The wrapped value, or `default` when there is none. */
    function GetOr(default: T): T {
      match this
      case Some(v) => v
      case None => default
    }
  }
}
